=== FILE: README.md ===
# Hospital management core, modelled in Dafny

This project models the record-keeping core of a small clinic application (a
Tkinter desktop program backed by CSV files). The windows and dialogs are
removed. Every dialog answer, entry text and list-box selection becomes an
explicit input, and every result becomes a value. A CSV row is a
`map<string, string>`. The modules follow the program's files:

- `Common`: records, `Option`, list filtering, and the CSV layer (`DictReader` / `DictWriter`) as values.
- `Text`: `str.strip()`, `str(int)`, `str.replace` of one character, and `"\n".join`.
- `Dates`: `datetime.strptime` for the three layouts the program uses, the calendar, the `month/day/year` text the program writes, and the zero-padded `YYYY-MM-DD` and `HH:MM:SS` texts each layout is round-tripped against.
- `HospitalDatabase`: the dictionary keyed by `Patient_ID`. It covers loading, lookup, update, listing and saving.
- `CountManager`: counting the visits on a date.
- `PatientRemoval`: deleting a patient's visits and notes and rewriting both files.
- `PatientAdd`: the add-visit dialog. This covers latest-visit prefill, fresh six-digit IDs, the validation order, and appending the note.
- `ViewNotes`: finding a patient's notes for a visit date.
- `RetrievePatient`: listing a patient's visits and showing the ticked fields.
- `GraphUtils`: the complaint, department and per-year tallies behind the charts.
- `UserAuth`: first-match login and the role permission table.
- `HospitalInterface`: the login/logout session and the buttons each role gets.

Uncaught Python exceptions are modelled as outcomes, not preconditions:
- a `KeyError` on a missing column;
- a `ValueError` from `strptime` or from `DictWriter`;
- a `TypeError` in the `RetrievePatient` constructor.

Each operation's contract says which inputs lead to which outcome.

Where the program's documentation and its code disagree, the model follows
the code:

- **The "strict" `YYYY-MM-DD` input is not strict.** `strptime` with `%m` and
  `%d` accepts one-digit months and days (`2020-1-5`), and `%d` also accepts a
  space before a single digit (`2020-01- 5`). See
  `Dates.YmdAcceptsOneDigitFields` and `Dates.YmdAcceptsSpacedDay`.
- **The chart tallies never see a record.** `GraphGenerator` iterates the
  dictionary itself, so it sees `Patient_ID` keys. Calling `.get` on a key
  raises as soon as the store is non-empty
  (`GraphUtils.GenerateAllAsWritten`). The tallies are modelled over a
  sequence of records, as the chart code intends.

To prefill the add-visit form, the code sorts the patient's visits by
`strptime(..., "%m/%d/%Y")` in descending, stable order and takes the first.
So among the visits with the latest date, the one that comes first in the
list is used. A missing or unparseable `Visit_time` raises inside the button
callback. By then the ID entry and its button have been removed from the
window (`grid_forget`), so the window stays open and empty
(`PatientAdd.HandlePatientId`, `StartCrashed`).

## Model

| member | source | states |
|---|---|---|
| Common.Filter | retrieve_patient.py:17 | A list comprehension with a condition keeps only rows of the input that satisfy the condition, keeps every such row, and is never longer than the input |
| Common.FilterAppend | retrieve_patient.py:17 | Filtering a concatenation filters each part and concatenates the results, so kept rows stay in file order |
| Common.FilterOrigin | retrieve_patient.py:17 | The i-th kept row comes from a position of the input before which every kept row is among the first i kept rows |
| Common.WriteTable | patient_add.py:262-265 | `writeheader` then `writerows`: the header is the given columns. Rows are written in order, each completed with "" for absent columns. Writing completes exactly when every row's keys lie within the header; otherwise it stops at the first row that does not fit |
| Common.WriteThenRead | patient_removal.py:73-75 | Writing rows that all have exactly the header's columns completes, and reading the file back gives the same rows |
| Common.ColumnOr | graph_utils.py:44-45 | `row.get(key, default)` over a list: one cell per row, in order, the default exactly where the column is missing. The department chart uses it with "Unknown"; the shown notes use it for `Note_text` with "" (view_notes.py:48) |
| Text.Strip | patient_removal.py:29 | `strip()` result: the input with a run of leading and a run of trailing whitespace cut off, and nothing else removed. It has no leading or trailing whitespace, and is empty exactly when the input is all whitespace |
| Text.StripIdempotent | patient_removal.py:29 | Stripping a stripped text changes nothing |
| Text.DigitsValueOfNatToString | view_notes.py:30 | Reading back the decimal text of a number gives the number |
| Text.NatToStringInjective | view_notes.py:30 | Different numbers never share a decimal text |
| Text.ReplaceChar | retrieve_patient.py:61 | `replace` of one character keeps the length and changes exactly the positions holding that character |
| Text.JoinLineCount | retrieve_patient.py:69-72 | Joining newline-free lines with "\n" yields one newline fewer than there are lines |
| Dates.BeforeIsStrictTotalOrder | patient_add.py:47 | Date comparison, used as the sort key, is irreflexive, transitive, total and asymmetric |
| Dates.MatchDirective | count_manager.py:18 | Each `strptime` field reads at least one character, and its value lies in the field's range (month 1-12, day 1-31, hour 0-23, minute 0-59, second 0-61, year at most 9999) |
| Dates.MatchShape | count_manager.py:32 | A layout that matches yields one value per directive, each within that directive's range |
| Dates.ParseYmd | count_manager.py:18 | A successful `%Y-%m-%d` parse is a real calendar day (which day a text denotes is stated by `Dates.IsoFormatRoundTrip`) |
| Dates.IsoFormatRoundTrip | count_manager.py:11-18 | Every calendar day, written as the zero-padded `YYYY-MM-DD` text the prompt asks for (and `isoformat()` prints at line 47), parses back under `%Y-%m-%d` to that day |
| Dates.ParseMdy | count_manager.py:32 | A successful `%m/%d/%Y` parse is a real calendar day |
| Dates.ParseMdyHms | count_manager.py:36 | A successful `%m/%d/%Y %H:%M:%S` parse is a real calendar day with hour at most 23, minute at most 59 and second at most 59 (which date and time a text denotes is stated by `Dates.FormatMdyHmsRoundTrip`) |
| Dates.FormatMdyHmsRoundTrip | count_manager.py:35-36 | A visit date written as `month/day/year` with a four-digit year, followed by a space and `HH:MM:SS`, parses back under `%m/%d/%Y %H:%M:%S` to that date and that time of day |
| Dates.FormatMdyWithTimeFailsPlain | count_manager.py:31-34 | The same timed text is refused by `%m/%d/%Y` (characters are left over), so the count always falls back to the timed layout for it |
| Dates.MatchDateHead | count_manager.py:32-36 | `month/day/year` at the head of a text is read as those three numbers by both layouts, and what follows is left to the rest of the layout |
| Dates.FormatMdy | view_notes.py:30 | The `month/day/year` text holds only digits and slashes and starts with a non-zero digit |
| Dates.FormatMdyRoundTrip | count_manager.py:32 | A date with a four-digit year, written as `month/day/year` without leading zeros, parses back to the same date under `%m/%d/%Y` |
| Dates.FormatMdyShortYearFails | count_manager.py:32 | For a year below 1000 the written text does not parse back, because `%Y` requires four digits |
| Dates.YmdAcceptsOneDigitFields | count_manager.py:16-18 | The "strict" input check accepts `2020-1-5` as 5 January 2020 |
| Dates.YmdAcceptsSpacedDay | count_manager.py:16-18 | The same check accepts `2020-01- 5` |
| HospitalDatabase.LoadRows | hospital_database.py:14 | Loading succeeds exactly when every row has `Patient_ID` (otherwise `KeyError`), and the result lists each key once |
| HospitalDatabase.LoadKeys | hospital_database.py:14 | The keys of a loaded store are exactly the `Patient_ID`s of the rows |
| HospitalDatabase.LoadOrder | hospital_database.py:14 | Every `Patient_ID` of the rows is a key, and the keys are listed in the order in which each ID first appears in the file |
| HospitalDatabase.LoadLastWins | hospital_database.py:14 | The record stored for a patient is the last row carrying that `Patient_ID` |
| HospitalDatabase.LoadIsKeyedByPatient | hospital_database.py:14 | After loading, every value is a record filed under its own `Patient_ID` |
| HospitalDatabase.OneRecordPerPatient | hospital_database.py:14 | The number of loaded records equals the number of distinct `Patient_ID`s in the file |
| HospitalDatabase.Load | hospital_database.py:10-17 | A missing file gives an empty store instead of an error |
| HospitalDatabase.GetPatient | hospital_database.py:33-35 | The lookup uses `str(patient_id)`: it finds a value exactly when that text is a key, and `None` otherwise |
| HospitalDatabase.GetAllVisits | hospital_database.py:42-44 | The list has one element per key, and element i is the value of the i-th key in insertion order |
| HospitalDatabase.AllVisitsComplete | hospital_database.py:44 | Every stored value appears in the list |
| HospitalDatabase.UpdatePatientData | hospital_database.py:37-40 | Afterwards the lookup returns the new value and every other key's value is unchanged. A new key goes last and an existing one keeps its place. The file is then saved |
| HospitalDatabase.SaveData | hospital_database.py:19-31 | An empty store, or one whose first value is not a dictionary, leaves an empty file; otherwise a header is written, made of the first value's keys. The rows written are the leading values in key order, each a dictionary that fits the header, completed to it. Writing stops at the first value that is not a dictionary or has a key outside the header |
| HospitalDatabase.SaveWritesEveryRecord | hospital_database.py:24-29 | When every value is a record with the first record's columns, saving writes the header and every record exactly once, in order |
| HospitalDatabase.SaveThenLoad | hospital_database.py:14-29 | Saving a uniform store whose records are filed under their own `Patient_ID`, then loading the file, gives back the same store |
| CountManager.CountRecords | count_manager.py:24-45 | The loop aborts with no count exactly when some value is not a dictionary, even after earlier matches. Otherwise it returns the number of selected records, which is at most the number of values |
| CountManager.CountVisits | count_manager.py:10-47 | An empty or cancelled prompt does nothing. An input `%Y-%m-%d` rejects is an error. A non-dictionary value aborts. Otherwise the count is the number of records on the typed day. The input is checked before any record |
| CountManager.CountIsPositionCount | count_manager.py:41-42 | The count equals the number of positions whose record is on the day |
| CountManager.CountAtMostLength | count_manager.py:24-42 | The count never exceeds the number of values |
| CountManager.CountAppend | count_manager.py:26-42 | Counting a concatenation adds the counts of the parts |
| CountManager.EmptyIsNoDate | count_manager.py:13-21 | An empty answer is never a date |
| CountManager.MissingVisitTimeIsSkipped | count_manager.py:28 | A record without `Visit_time` reads as "" and is skipped, never an error |
| CountManager.FormattedVisitIsOnItsDay | count_manager.py:28-42 | A record whose `Visit_time` is the `month/day/year` text of a day is counted on that day and on no other |
| CountManager.TimedVisitIsOnItsDay | count_manager.py:28-42 | A visit whose `Visit_time` is a written date followed by ` HH:MM:SS` counts on that date and on no other day: the time of day is ignored |
| CountManager.LoadedSameDayVisits | hospital_database.py:14 | Loading two rows of one patient keeps only the second |
| CountManager.SameDayVisitsCollapse | count_manager.py:26 | Two same-day visits of one patient count 2 in the file but 1 over the loaded store the count actually reads |
| PatientRemoval.AnyMatch | patient_removal.py:37 | The search reports a match exactly when some row has the ID and every row up to it has `Patient_ID`. It reports no match exactly when all rows have `Patient_ID` and none matches. Otherwise it is the `KeyError` |
| PatientRemoval.Without | patient_removal.py:51 | The filtered list holds no row of the patient, only rows of the input, and is never longer |
| PatientRemoval.WithoutAppend | patient_removal.py:51 | The filter splits over concatenation, so the kept rows stay in their original order |
| PatientRemoval.WithoutKeepsRow | patient_removal.py:51 | Every row of another patient is kept |
| PatientRemoval.WithoutKeepsOthers | patient_removal.py:51 | A list without rows of the patient is returned unchanged |
| PatientRemoval.WithoutPartition | patient_removal.py:51 | The kept rows plus the patient's rows account for every row exactly once |
| PatientRemoval.WithoutIdempotent | patient_removal.py:51-54 | Filtering the result again changes nothing |
| PatientRemoval.FilterOut | patient_removal.py:54 | The comprehension succeeds exactly when every row has `Patient_ID` (otherwise `KeyError`) |
| PatientRemoval.SaveToFile | patient_removal.py:63-80 | An empty list leaves an empty file with no header. Otherwise the header is the first row's keys, and the rows written are the input's rows in order, completed to the header. Writing completes exactly when no row has a key outside the header; otherwise it stops at the first row that has one |
| PatientRemoval.SaveWritesAllRows | patient_removal.py:73-75 | Rows that share the first row's columns are all written, in order |
| PatientRemoval.RemovePatient | patient_removal.py:28-61 | A blank ID, an unknown ID or a declined confirmation changes nothing and writes nothing, checked in that order. The removal succeeds exactly when the ID is found, confirmed, both lists have `Patient_ID` and both saves complete; it then filters both lists by the stripped ID and saves both. Every other case (a `KeyError`, or a save that raises) is a crash |
| PatientRemoval.RemovedLeavesNoTrace | patient_removal.py:51-54 | After a removal no visit and no note of the patient remains, and every visit of another patient is kept |
| PatientRemoval.RetryAfterCrashFindsNothing | patient_removal.py:37-58 | When a removal crashes after the visits were filtered, the dialog stays open on the filtered visits, so pressing the button again with the same ID reports that no such patient exists |
| PatientRemoval.NotesKeyErrorKeepsFilteredVisits | patient_removal.py:51-54 | A note row without `Patient_ID` aborts after the visit list was already filtered, with neither file written |
| PatientAdd.PatientIds | patient_add.py:38 | The set of IDs is exactly the `Patient_ID`s of the rows, or the `KeyError` when one is missing |
| PatientAdd.SortKeys | patient_add.py:47 | Every sort key is computed, or the sort raises when some visit's `Visit_time` is missing or is not `%m/%d/%Y` |
| PatientAdd.FirstLatest | patient_add.py:47-48 | The first element of the stable descending sort has a date no other visit exceeds, and every visit before it has an earlier date |
| PatientAdd.FirstLatestIsUnique | patient_add.py:47-48 | Only one position is both latest and first among its equals, so this is the element the sort puts first |
| PatientAdd.VisitsOf | patient_add.py:46 | The patient's visits are exactly the rows with that `Patient_ID`, in list order (the same rows as the filter with `Patient_ID` equal to the ID) |
| PatientAdd.VisitsOfKeepsRow | patient_add.py:46 | Every row of the patient is among the patient's visits |
| PatientAdd.HandlePatientId | patient_add.py:33-71 | A known (stripped) ID leads to the form prefilled from a latest visit of that patient: the first such visit in the list, every earlier visit of the patient being strictly older. The form is prefilled exactly when the ID is known and every one of that patient's visits has a `%m/%d/%Y` date. An unknown ID asks to create the patient and follows the answer. The outcome is a crash exactly when a row lacks `Patient_ID`, or when the ID is known and one of its visits lacks `Visit_time` or has an unparseable one |
| PatientAdd.Prefill | patient_add.py:75-100 | Race, Gender, Ethnicity and Age start as the latest visit's values, or "" for a new patient or a missing column |
| PatientAdd.ExistingIds | patient_add.py:161 | The existing IDs are exactly the texts of the column, or the `KeyError` when a row lacks it |
| PatientAdd.FirstFresh | patient_add.py:159-165 | The ID returned is the first draw not in the existing set, and every earlier draw was in it |
| PatientAdd.TextIdsNeverReject | patient_add.py:161-164 | Since a drawn integer never equals a text read from the file, the first draw is always accepted |
| PatientAdd.DuplicateIdAccepted | patient_add.py:161-165 | A draw whose digits equal a stored ID is still accepted |
| PatientAdd.NoteEntry | patient_add.py:251-257 | The note row has exactly the columns `Entry_ID`, `Patient_ID`, `Visit_ID`, `Note_ID` and `Note`, holding the given values |
| PatientAdd.SaveNote | patient_add.py:240-265 | The header is always written, with the new note's columns. Writing completes exactly when every older note fits that header, and then the file is the older notes followed by the new one, numbered one past their count |
| PatientAdd.EntryNumbering | patient_add.py:242-249 | The new note's `Entry_ID` is the number of notes read plus one, and 1 when the file is missing |
| PatientAdd.ShippedNotesAreWiped | patient_add.py:261-265 | A notes file whose rows carry `Note_text` is rewritten with the header only, because the first older row raises |
| PatientAdd.NewNoteTextReadsEmpty | patient_add.py:256 | A note written by this dialog holds its text under `Note`, so a reader of `Note_text` sees "" |
| PatientAdd.VisitRow | patient_add.py:217-231 | The new visit has exactly the thirteen visit columns, carrying the patient, the two drawn IDs as text and the visit date |
| PatientAdd.VisitRowCarriesForm | patient_add.py:217-231 | Each form entry but the note text lands in its own column of the new visit; the note text is not stored with the visit |
| PatientAdd.AddVisit | patient_add.py:175-238 | Declining adds nothing. A date `%Y-%m-%d` rejects is an error, checked before the patient; an unknown patient is an error. The visit is added exactly when the patient is known, both ID loops end and the note save completes; the appended row then carries the first free draws, the stripped form and the `month/day/year` date. The retry loops never ending, and each crash, are stated with their conditions |
| PatientAdd.AddOnDay | patient_add.py:206-235 | After the date check: an unknown patient is an error and changes nothing. "No fresh ID" holds exactly when the patient is known and one of the retry loops finds every draw taken. Success holds exactly when both loops end and the note save completes. Every other case is a crash. Once both IDs are drawn, the appended row uses the first free draw of each, and the notes file is the one the note save leaves |
| PatientAdd.AppendVisit | patient_add.py:233-235 | The visit is appended in memory before the note is saved, so it stays even when the note save raises |
| PatientAdd.NewPatientCannotBeAdded | patient_add.py:207-210 | After agreeing to create a new patient, adding the visit never succeeds: it ends unconfirmed, with a bad date, or with "patient does not exist" |
| ViewNotes.VisitIds | view_notes.py:36-40 | The visit IDs are those of the selected visits, in order, or the `KeyError` when one lacks `Visit_ID` |
| ViewNotes.Execute | view_notes.py:18-55 | An empty patient ID, then an empty date, then a date `%Y-%m-%d` rejects each end the lookup, in that order. Then: a matching visit without `Visit_ID` is a crash, no matching visit is "no visits", matching visits with no matching note is "no notes", and otherwise the matching notes' texts are shown, never empty. A visit matches on the ID and the `month/day/year` text exactly |
| ViewNotes.ShownNotesBelong | view_notes.py:47-51 | Every shown note has the typed `Patient_ID` and the `Visit_ID` of a visit of that patient on that day |
| ViewNotes.LeadingZeroNeverMatches | view_notes.py:36-40 | A `Visit_time` written with a leading zero never matches |
| ViewNotes.TimeSuffixNeverMatches | view_notes.py:36-40 | A `Visit_time` that carries a time of day never matches |
| RetrievePatient.Construct | retrieve_patient.py:8-9 | Construction succeeds exactly when every element is a dictionary |
| RetrievePatient.Execute | retrieve_patient.py:12-33 | An empty or cancelled prompt does nothing. No visit of the ID is "not found". Otherwise the list is the patient's visits in order, with one summary line per visit |
| RetrievePatient.SelectVisit | retrieve_patient.py:35-41 | No selection gives the warning. Otherwise the visit is one of the listed visits |
| RetrievePatient.SelectedVisitBelongs | retrieve_patient.py:17 | The picked visit is a row of the list and belongs to the typed patient |
| RetrievePatient.SummaryNumber | retrieve_patient.py:31-33 | Each summary line starts with its position plus one |
| RetrievePatient.SummariesDistinct | retrieve_patient.py:31-33 | Summary lines at different positions differ |
| RetrievePatient.LabelReadable | retrieve_patient.py:61 | A field label has no underscore and otherwise keeps the column name |
| RetrievePatient.FieldLines | retrieve_patient.py:69-72 | One line per ticked field, in list-box order |
| RetrievePatient.ShowFields | retrieve_patient.py:63-72 | No ticked field gives the prompt. Otherwise the details are the lines joined by newlines |
| RetrievePatient.ShowFieldsOneLineEach | retrieve_patient.py:69-72 | When no cell holds a newline, the details have exactly one line per ticked field |
| RetrievePatient.FieldLineHasNoNewline | retrieve_patient.py:70 | A field's line holds no newline when neither the column name nor the cells hold one |
| RetrievePatient.DistinctIdsListAtMostOne | retrieve_patient.py:17 | Rows with pairwise distinct `Patient_ID`s yield at most one visit per patient |
| RetrievePatient.LoadedStoreListsOneVisit | hospital_interface.py:120-122 | The list taken from a loaded store passes the constructor, and no patient has more than one visit to pick from |
| GraphUtils.TallyOf | graph_utils.py:21-23 | The tally's keys are each distinct value once, and each count is that value's number of occurrences, at least one |
| GraphUtils.TallyTotal | graph_utils.py:21-23 | The counts add up to the number of values tallied |
| GraphUtils.TallyKeysInFirstOccurrenceOrder | graph_utils.py:28-29 | The keys come in order of first occurrence |
| GraphUtils.Complaints | graph_utils.py:20-22 | The complaints tallied are one per record with a non-empty `Chief_complaint`, each taken from such a record |
| GraphUtils.ComplaintTallyCounts | graph_utils.py:17-29 | The complaint counts add up to the number of records with a non-empty complaint. Every key is a non-empty complaint of some record. Keys are in first-occurrence order |
| GraphUtils.DepartmentTallyCounts | graph_utils.py:42-46 | Every record is counted once, so the counts add up to the record count. A missing department is counted under "Unknown" and an empty one under "" |
| GraphUtils.Years | graph_utils.py:61-71 | One year per record whose `Visit_time` is non-empty and parses, in record order: the i-th year is the parse of the i-th such record |
| GraphUtils.YearsAppend | graph_utils.py:61-71 | The years of two stretches of records, one after the other, are the years of each stretch in turn |
| GraphUtils.YearlyTallySkips | graph_utils.py:62-71 | Records with an empty, missing or unparseable `Visit_time` are skipped |
| GraphUtils.Ascending | graph_utils.py:77 | `sorted` of distinct years: same years, strictly increasing |
| GraphUtils.SeriesOf | graph_utils.py:77-78 | The years come sorted ascending, and the count at each position is that year's number of visits |
| GraphUtils.NoYearsIffNoDatedRecord | graph_utils.py:73-75 | No year is collected exactly when no record has a parseable `Visit_time` |
| GraphUtils.YearlyTally | graph_utils.py:58-78 | Nothing is produced exactly when no record has a parseable `Visit_time`. Otherwise the years are ascending, with aligned counts |
| GraphUtils.GenerateAllAsWritten | graph_utils.py:15-23 | Iterating the stored dictionary yields keys, so a non-empty store fails on the first `.get`; an empty one draws empty charts |
| UserAuth.LoadCredentials | user_auth.py:8-15 | A missing credentials file gives an empty table |
| UserAuth.Login | user_auth.py:17-23 | A role is returned only from a row whose user name and password both match, when every earlier row is passed over. `None` means every row was passed over. A missing column met on the way is the `KeyError` |
| UserAuth.FirstMatchWins | user_auth.py:19-22 | The first matching row decides the role |
| UserAuth.WrongPasswordRejected | user_auth.py:20-23 | A known user name with a wrong password does not log in |
| UserAuth.MissingFileRejectsEveryone | user_auth.py:13-15 | Without a credentials file nobody logs in |
| UserAuth.CheckPermission | user_auth.py:25-32 | A permitted pair has one of the three listed roles and one of the five modes |
| UserAuth.AdminOnlyCounts | user_auth.py:28 | An administrator may do exactly `count` |
| UserAuth.ClinicianIsNurse | user_auth.py:29-30 | Clinicians and nurses may do the same things, exactly add, remove, retrieve, view and count |
| UserAuth.UnlistedRoleMayDoNothing | user_auth.py:32 | Any other role, management included, may do nothing |
| HospitalInterface.HandleLogin | hospital_interface.py:50-78 | A `KeyError` in the login records nothing. Otherwise the user name is recorded. A non-empty role is recorded and the window cleared; the menu then appears exactly when loading the patient file does not raise. When a patient row lacks `Patient_ID`, the window stays empty with the role set |
| HospitalInterface.FailedLoginStaysOut | hospital_interface.py:56-64 | A failed or empty-role login keeps the user name, sets no role and stays on the login screen |
| HospitalInterface.Logout | hospital_interface.py:66-70 | Logging out clears user name and role and returns to the login screen, the state right after start-up |
| HospitalInterface.SessionStaysConsistent | hospital_interface.py:50-70 | Login and logout keep the rule that the login screen has no role, while the menu and the cleared window have a non-empty one |
| HospitalInterface.Menu | hospital_interface.py:72-97 | Every menu ends with Logout and has no other Logout button |
| HospitalInterface.MenuMatchesPermissions | hospital_interface.py:87-95 | For admin, clinician and nurse, the buttons other than Logout are exactly the modes the permission table grants |
| HospitalInterface.MenusOutsideTheTable | hospital_interface.py:81-85 | Management gets Hospital Statistics and User Actions Log (which the permission table does not know). Any other role outside the table gets only Logout |

## Left out

- Windows, dialogs, list boxes and layout: each answer or selection is an input of the operation that reads it.
- CSV encoding, quoting and column order: a file is a set of header columns plus a sequence of rows. `DictReader`'s handling of short or long lines is not modelled.
- `user_tracker.py` is not part of this model. It covers spreadsheet I/O, wall-clock timestamps and directory creation. The `track_action` calls in `hospital_interface.py` are left out with it.
- Plotting, `os.makedirs` and the dated output directory in `graph_utils.py`: only the tallies are modelled.
- GraphUtils.Years: `dateutil.parser.parse` is a foreign library, so it is a parameter (a partial function from text to a year). What it accepts is not modelled.
- PatientAdd.FirstFresh: `random.randint` is a sequence of draws given as input. The source retries without bound; the model stops when the draws run out and reports `NoFreshId`, so termination of the retry loop is not claimed.
- Digits other than ASCII `0`-`9`: CPython's `strptime` also accepts other Unicode decimal digits.
- Failures of the file system (`IOError`, permissions) and the `print` diagnostics.
- The `Visit_ID` and `Note_ID` of a visit added in this session are Python integers. The in-memory list would hold them as integers; the model holds their decimal text.
- Wiring in `hospital_interface.py`:
  - `add_visit()` is called once before the form exists (line 114). The `AttributeError` ends only that call; the ID entry stays usable, and its Submit button leads to the modelled `handle_patient_id` and `add_visit`.
  - `remove_patient()` runs once right after the removal dialog is built, with the entry still empty (line 118), so every removal dialog opens with the blank-ID error (`BlankId`).
  - `load_csv` and `ViewNotes.load_csv` have no missing-file handling (lines 128-130; view_notes.py:14-16).
- `HospitalApp.notes` is never updated: a removal rebinds only the dialog's own lists (patient_removal.py:51, 54). `HospitalApp.data` is shared by reference with each add dialog (patient_add.py:9; hospital_interface.py:114), so it grows by every visit added in the session (patient_add.py:234); a removal never shrinks it. The model does not carry the in-memory lists from one dialog to the next. Each operation takes its lists as input, and within one dialog only the crash retry of `PatientRemoval.RetryAfterCrashFindsNothing` reuses the filtered lists.
- PatientAdd.TextIdsNeverReject: it holds for a list read from the file, whose IDs are all text. Once a visit has been added in the session, the shared list holds that visit's integer `Visit_ID` and `Note_ID`, so a later add dialog's draw can be rejected (`PatientAdd.FirstFresh` covers that case).
- `add_visit` appends the visit to the list in memory but never writes the visit file. The model records this: the visit file is not part of its result.
- How `HospitalApp` builds each dialog's inputs is modelled only where it matters to a property (`RetrievePatient.LoadedStoreListsOneVisit`, `CountManager.SameDayVisitsCollapse`).

=== FILE: common.dfy ===
/** Shared vocabulary of the clinic record store: optional values, records as
    read by a CSV dictionary reader, and the CSV files the application reads
    and overwrites. */
module Common {

  /** Python's `None` or a value. */
  datatype Option<+T> = None | Some(value: T)

  /** No element occurs twice. */
  predicate Distinct<T(==)>(s: seq<T>)
  {
    forall i, j :: 0 <= i < j < |s| ==> s[i] != s[j]
  }

  /** One CSV row as a dictionary from column name to cell text. */
  type Record = map<string, string>

  /** A value held by the keyed store. `update_patient_data` accepts any
      Python object, so a value may be a dictionary or something else. */
  datatype Entry = Rec(fields: Record) | NonRecord

  /** `record.get(key)`: the cell, or `None` when the column is absent. */
  function Lookup(r: Record, key: string): Option<string>
  {
    if key in r then Some(r[key]) else None
  }

  /** `record.get(key, default)`. */
  function GetOr(r: Record, key: string, default: string): string
  {
    if key in r then r[key] else default
  }

  /** `[row.get(key, default) for row in rows]`: one cell per row, in order,
      with `default` standing in for a missing column. */
  function ColumnOr(rows: seq<Record>, key: string, default: string): (cells: seq<string>)
    ensures |cells| == |rows|
    ensures forall i :: 0 <= i < |rows| ==> cells[i] == GetOr(rows[i], key, default)
  {
    seq(|rows|, i requires 0 <= i < |rows| => GetOr(rows[i], key, default))
  }

  /** True when every record of `rows` has column `key`, so that `row[key]`
      raises no `KeyError`. */
  predicate AllHave(rows: seq<Record>, key: string)
  {
    forall i :: 0 <= i < |rows| ==> key in rows[i]
  }

  /** `[r for r in rows if keep(r)]`: the selected records, in their
      original order. */
  function Filter(rows: seq<Record>, keep: Record -> bool): (r: seq<Record>)
    ensures |r| <= |rows|
    ensures forall i :: 0 <= i < |r| ==> r[i] in rows && keep(r[i])
    ensures forall x :: x in rows && keep(x) ==> x in r
    decreases |rows|
  {
    if |rows| == 0 then []
    else
      var rest := Filter(rows[1..], keep);
      assert forall x :: x in rows && x != rows[0] ==> x in rows[1..];
      if keep(rows[0]) then [rows[0]] + rest else rest
  }

  /** The records of one patient: `entry.get("Patient_ID") == patient_id`. */
  function BelongsTo(patientId: string): Record -> bool
  {
    v => Lookup(v, "Patient_ID") == Some(patientId)
  }

  /** Nothing is kept when no record is selected. */
  lemma FilterNone(rows: seq<Record>, keep: Record -> bool)
    requires forall k :: 0 <= k < |rows| ==> !keep(rows[k])
    ensures Filter(rows, keep) == []
  {
  }

  /** Where the `i`-th selected record came from: a position `k` of `rows`
      holding it, such that every selected record before `k` is one of the
      first `i` selected records. */
  lemma {:induction false} FilterOrigin(rows: seq<Record>, keep: Record -> bool, i: nat) returns (k: nat)
    requires i < |Filter(rows, keep)|
    ensures k < |rows| && rows[k] == Filter(rows, keep)[i]
    ensures forall j :: 0 <= j < k && keep(rows[j]) ==> rows[j] in Filter(rows, keep)[..i]
    decreases |rows|
  {
    var tail := rows[1..];
    var rest := Filter(tail, keep);
    if keep(rows[0]) {
      assert Filter(rows, keep) == [rows[0]] + rest;
      if i == 0 {
        k := 0;
      } else {
        var k' := FilterOrigin(tail, keep, i - 1);
        k := k' + 1;
        assert Filter(rows, keep)[..i] == [rows[0]] + rest[..i - 1];
        assert forall j :: 1 <= j < k ==> rows[j] == tail[j - 1];
      }
    } else {
      assert Filter(rows, keep) == rest;
      var k' := FilterOrigin(tail, keep, i);
      k := k' + 1;
      assert forall j :: 1 <= j < k ==> rows[j] == tail[j - 1];
    }
  }

  /** Filtering keeps order: filtering a concatenation filters each part
      and concatenates the results. */
  lemma {:induction false} FilterAppend(a: seq<Record>, b: seq<Record>, keep: Record -> bool)
    ensures Filter(a + b, keep) == Filter(a, keep) + Filter(b, keep)
    decreases |a|
  {
    if |a| == 0 {
      assert a + b == b;
    } else {
      assert (a + b)[1..] == a[1..] + b;
      FilterAppend(a[1..], b, keep);
    }
  }

  /** A CSV file on disk: missing, zero bytes long, or a header line
      (a set of column names; their order is not modelled) followed by rows. */
  datatype CsvFile = Absent | Empty | Table(columns: set<string>, rows: seq<Record>)

  /** What `list(csv.DictReader(f))` yields; `None` stands for the
      `FileNotFoundError` raised when the file is missing. */
  function ReadRows(f: CsvFile): Option<seq<Record>>
  {
    match f
    case Absent => None
    case Empty => Some([])
    case Table(_, rows) => Some(rows)
  }

  /** The row `csv.DictWriter` writes for `r`: every column of the header,
      with the default `restval` "" for the columns `r` lacks. */
  function Fill(r: Record, columns: set<string>): (w: Record)
    ensures w.Keys == columns
    ensures forall c :: c in columns && c in r ==> w[c] == r[c]
    ensures forall c :: c in columns && c !in r ==> w[c] == ""
  {
    map c | c in columns :: GetOr(r, c, "")
  }

  /** `csv.DictWriter` (with the default `extrasaction="raise"`) refuses a row
      that holds a key outside its field names. */
  predicate Fits(r: Record, columns: set<string>)
  {
    r.Keys <= columns
  }

  /** The file left behind by `writeheader()` followed by `writerows(rows)`,
      and whether the writing completed: rows are written one by one, and the
      first row that does not fit raises `ValueError`, leaving the header and
      the rows before it on disk. */
  datatype Written = Written(file: CsvFile, completed: bool)

  function WriteTable(columns: set<string>, rows: seq<Record>): (w: Written)
    ensures w.file.Table? && w.file.columns == columns
    ensures |w.file.rows| <= |rows|
    ensures forall i :: 0 <= i < |w.file.rows| ==>
              Fits(rows[i], columns) && w.file.rows[i] == Fill(rows[i], columns)
    ensures w.completed <==> forall i :: 0 <= i < |rows| ==> Fits(rows[i], columns)
    ensures w.completed ==> |w.file.rows| == |rows|
    ensures !w.completed ==> !Fits(rows[|w.file.rows|], columns)
    decreases |rows|
  {
    if |rows| == 0 then Written(Table(columns, []), true)
    else if !Fits(rows[0], columns) then Written(Table(columns, []), false)
    else
      var rest := WriteTable(columns, rows[1..]);
      assert forall i :: 1 <= i < |rows| ==> rows[i] == rows[1..][i - 1];
      var written := [Fill(rows[0], columns)] + rest.file.rows;
      Written(Table(columns, written), rest.completed)
  }

  /** A row that has exactly the header's columns is written unchanged. */
  lemma FillExact(r: Record, columns: set<string>)
    requires r.Keys == columns
    ensures Fill(r, columns) == r
  {
  }

  /** Appending a row that fits: the writing completes exactly when the
      earlier rows fit, and then the new row is written last. */
  lemma WriteAppend(columns: set<string>, rows: seq<Record>, last: Record)
    requires last.Keys == columns
    ensures var w := WriteTable(columns, rows + [last]);
            w.completed <==> forall i :: 0 <= i < |rows| ==> Fits(rows[i], columns)
    ensures var w := WriteTable(columns, rows + [last]);
            w.completed ==>
              |w.file.rows| == |rows| + 1
              && (forall i :: 0 <= i < |rows| ==> w.file.rows[i] == Fill(rows[i], columns))
              && w.file.rows[|rows|] == last
  {
    var all := rows + [last];
    assert forall i :: 0 <= i < |rows| ==> all[i] == rows[i];
    assert all[|rows|] == last;
    FillExact(last, columns);
  }

  /** Writing rows that all have exactly the header's columns and reading the
      file back gives the same rows: the CSV layer loses nothing. */
  lemma {:induction false} WriteThenRead(columns: set<string>, rows: seq<Record>)
    requires forall i :: 0 <= i < |rows| ==> rows[i].Keys == columns
    ensures WriteTable(columns, rows).completed
    ensures WriteTable(columns, rows).file == Table(columns, rows)
    ensures ReadRows(WriteTable(columns, rows).file) == Some(rows)
  {
    var w := WriteTable(columns, rows);
    assert |w.file.rows| == |rows|;
    forall i | 0 <= i < |rows|
      ensures w.file.rows[i] == rows[i]
    {
      FillExact(rows[i], columns);
    }
    assert w.file.rows == rows;
  }

  /** The first position of `k` in `xs`. */
  function FirstIndex<K(==)>(xs: seq<K>, k: K): (i: nat)
    requires k in xs
    ensures i < |xs| && xs[i] == k
    ensures forall j :: 0 <= j < i ==> xs[j] != k
    decreases |xs|
  {
    if xs[0] == k then 0 else 1 + FirstIndex(xs[1..], k)
  }

  /** Appending elements leaves the first position of an element already
      present where it was. */
  lemma FirstIndexAppend<K>(xs: seq<K>, ys: seq<K>, k: K)
    requires k in xs
    ensures k in xs + ys && FirstIndex(xs + ys, k) == FirstIndex(xs, k)
  {
    var i := FirstIndex(xs, k);
    var j := FirstIndex(xs + ys, k);
    assert (xs + ys)[i] == k;
    assert j <= i;
    assert xs[j] == (xs + ys)[j];
  }

  /** Every key occurs in `xs`, and the keys are listed in the order in
      which each first occurs there. */
  predicate InFirstOccurrenceOrder<K(==)>(xs: seq<K>, keys: seq<K>)
  {
    (forall i :: 0 <= i < |keys| ==> keys[i] in xs)
    && forall i, j :: 0 <= i < j < |keys| ==> FirstIndex(xs, keys[i]) < FirstIndex(xs, keys[j])
  }

  /** One more element keeps the order of the keys seen so far, and an
      element seen for the first time can be listed after them. */
  lemma FirstOrderStep<K>(xs: seq<K>, keys: seq<K>)
    requires |xs| > 0
    requires InFirstOccurrenceOrder(xs[..|xs| - 1], keys)
    ensures InFirstOccurrenceOrder(xs, keys)
    ensures xs[|xs| - 1] !in xs[..|xs| - 1] ==> InFirstOccurrenceOrder(xs, keys + [xs[|xs| - 1]])
  {
    var n := |xs| - 1;
    var init := xs[..n];
    var x := xs[n];
    assert xs == init + [x];
    forall k | k in init ensures FirstIndex(xs, k) == FirstIndex(init, k) < n {
      FirstIndexAppend(init, [x], k);
    }
    if x !in init {
      var more := keys + [x];
      assert FirstIndex(xs, x) == n;
      assert forall i :: 0 <= i < |keys| ==> more[i] == keys[i];
    }
  }
}

=== FILE: count_manager.dfy ===
/** `CountManager.count_visits_by_date_gui` without its dialogs: the date the
    user typed and the store's values go in, the message it would show comes
    out. */
module CountManager {
  import opened Common
  import opened Text
  import opened Dates
  import HospitalDatabase

  /** What the counting dialog ends with. */
  datatype Outcome =
    | NoInput                         // the prompt was cancelled or left empty
    | InvalidDate                     // "Please enter date in YYYY-MM-DD format."
    | InvalidRecord                   // "Database contains invalid record format."
    | Counted(date: Date, count: nat) // "Number of visits on <date>: <count>"

  /** The calendar date of a visit record: `Visit_time` (missing reads as "")
      is stripped and read as `M/D/YYYY`, failing that as
      `M/D/YYYY H:M:S`; `None` when neither layout fits, and the record is
      then skipped. */
  function VisitDate(r: Record): (d: Option<Date>)
    ensures d.Some? ==> ValidDate(d.value)
  {
    var t := Strip(GetOr(r, "Visit_time", ""));
    var a := ParseMdy(t);
    if a.Some? then a
    else
      var b := ParseMdyHms(t);
      if b.Some? then Some(b.value.date) else None
  }

  /** True when the value `e` is a record of a visit on day `d`. */
  predicate OnDay(e: Entry, d: Date)
  {
    e.Rec? && VisitDate(e.fields) == Some(d)
  }

  /** The number of values that `keep` selects, counted in order. */
  function CountWhere(xs: seq<Entry>, keep: Entry -> bool): nat
    decreases |xs|
  {
    if |xs| == 0 then 0
    else CountWhere(xs[..|xs| - 1], keep) + (if keep(xs[|xs| - 1]) then 1 else 0)
  }

  /** The positions of the values that `keep` selects. */
  function Positions(xs: seq<Entry>, keep: Entry -> bool): set<int>
  {
    set i | 0 <= i < |xs| && keep(xs[i])
  }

  /** The count is the number of selected positions. */
  lemma {:induction false} CountIsPositionCount(xs: seq<Entry>, keep: Entry -> bool)
    ensures CountWhere(xs, keep) == |Positions(xs, keep)|
    decreases |xs|
  {
    if |xs| > 0 {
      var n := |xs| - 1;
      var init := xs[..n];
      CountIsPositionCount(init, keep);
      var before := Positions(init, keep);
      var all := Positions(xs, keep);
      assert forall i :: 0 <= i < n ==> init[i] == xs[i];
      if keep(xs[n]) {
        assert all == before + {n};
      } else {
        assert all == before;
      }
    }
  }

  /** The count never exceeds the number of values. */
  lemma {:induction false} CountAtMostLength(xs: seq<Entry>, keep: Entry -> bool)
    ensures CountWhere(xs, keep) <= |xs|
    decreases |xs|
  {
    if |xs| > 0 {
      CountAtMostLength(xs[..|xs| - 1], keep);
    }
  }

  /** Counting the concatenation of two lists adds their counts. */
  lemma {:induction false} CountAppend(a: seq<Entry>, b: seq<Entry>, keep: Entry -> bool)
    ensures CountWhere(a + b, keep) == CountWhere(a, keep) + CountWhere(b, keep)
    decreases |b|
  {
    if |b| > 0 {
      var n := |b| - 1;
      assert (a + b)[..|a + b| - 1] == a + b[..n];
      CountAppend(a, b[..n], keep);
    } else {
      assert a + b == a;
    }
  }

  /** The selection of the visits on day `d`. */
  function OnDayOf(d: Date): Entry -> bool
  {
    e => OnDay(e, d)
  }

  /** The number of visits on day `d`. */
  function CountOn(visits: seq<Entry>, d: Date): nat
  {
    CountWhere(visits, OnDayOf(d))
  }

  /** The loop of `count_visits_by_date_gui`: every value must be a
      dictionary, and the first one that is not ends the loop with no count,
      whatever was counted before it. */
  method CountRecords(visits: seq<Entry>, keep: Entry -> bool) returns (r: Option<nat>)
    ensures r.None? <==> exists i :: 0 <= i < |visits| && visits[i].NonRecord?
    ensures r.Some? ==> r.value == CountWhere(visits, keep) && r.value <= |visits|
  {
    var count := 0;
    var k := 0;
    while k < |visits|
      invariant 0 <= k <= |visits|
      invariant forall j :: 0 <= j < k ==> visits[j].Rec?
      invariant count == CountWhere(visits[..k], keep)
    {
      var e := visits[k];
      if e.NonRecord? {
        return None;
      }
      if keep(e) {
        count := count + 1;
      }
      assert visits[..k + 1][..k] == visits[..k];
      k := k + 1;
    }
    assert visits[..k] == visits;
    CountAtMostLength(visits, keep);
    return Some(count);
  }

  /** `count_visits_by_date_gui`. The input is read with the `%Y-%m-%d`
      layout before any record is looked at; an empty or cancelled prompt
      does nothing. */
  method CountVisits(answer: Option<string>, visits: seq<Entry>) returns (o: Outcome)
    ensures o == NoInput <==> answer == None || answer == Some("")
    ensures o == InvalidDate <==> answer.Some? && answer.value != "" && ParseYmd(answer.value).None?
    ensures o == InvalidRecord <==>
              answer.Some? && ParseYmd(answer.value).Some?
              && exists i :: 0 <= i < |visits| && visits[i].NonRecord?
    ensures o.Counted? ==> answer.Some? && ParseYmd(answer.value) == Some(o.date)
    ensures o.Counted? ==> forall i :: 0 <= i < |visits| ==> visits[i].Rec?
    ensures o.Counted? ==> o.count == CountOn(visits, o.date) && o.count <= |visits|
  {
    if answer == None || answer == Some("") {
      EmptyIsNoDate();
      return NoInput;
    }
    var parsed := ParseYmd(answer.value);
    if parsed.None? {
      return InvalidDate;
    }
    var counted := CountRecords(visits, OnDayOf(parsed.value));
    if counted.None? {
      return InvalidRecord;
    }
    return Counted(parsed.value, counted.value);
  }

  /** An empty answer is not a date. */
  lemma EmptyIsNoDate()
    ensures ParseYmd("") == None
  {
    assert Match(YmdFormat, "") == None;
  }

  /** A record without `Visit_time` is skipped rather than rejected. */
  lemma MissingVisitTimeIsSkipped(r: Record)
    requires "Visit_time" !in r
    ensures VisitDate(r) == None
  {
    assert GetOr(r, "Visit_time", "") == "";
    assert Strip("") == "";
    EmptyIsNoVisitTime();
  }

  /** The empty text fits neither visit-time layout. */
  lemma EmptyIsNoVisitTime()
    ensures ParseMdy("") == None && ParseMdyHms("") == None
  {
    assert Match(MdyFormat, "") == None;
    assert Match(MdyHmsFormat, "") == None;
  }

  /** A record whose `Visit_time` was written as `month/day/year` without
      leading zeros is counted on exactly that day. */
  lemma FormattedVisitIsOnItsDay(r: Record, d: Date)
    requires ValidDate(d) && d.year >= 1000
    requires "Visit_time" in r && r["Visit_time"] == FormatMdy(d)
    ensures VisitDate(r) == Some(d)
    ensures forall other :: OnDay(Rec(r), other) <==> other == d
  {
    var s := FormatMdy(d);
    assert s[|s| - 1] != '/' by {
      assert s == NatToString(d.month) + "/" + NatToString(d.day) + "/" + NatToString(d.year);
      var y := NatToString(d.year);
      assert s[|s| - 1] == y[|y| - 1];
    }
    StripKeepsUnpadded(s);
    FormatMdyRoundTrip(d);
  }

  /** A visit written as "{month}/{day}/{year} HH:MM:SS" fails the plain
      layout and is read by the timed one, which keeps only the date: the
      time of day plays no part in the comparison. */
  lemma TimedVisitIsOnItsDay(r: Record, d: Date, h: nat, mi: nat, sec: nat)
    requires ValidDate(d) && d.year >= 1000 && h <= 23 && mi <= 59 && sec <= 59
    requires "Visit_time" in r && r["Visit_time"] == FormatMdy(d) + " " + FormatHms(h, mi, sec)
    ensures VisitDate(r) == Some(d)
    ensures forall other :: OnDay(Rec(r), other) <==> other == d
  {
    var t := r["Visit_time"];
    var clock := FormatHms(h, mi, sec);
    assert t[0] == FormatMdy(d)[0];
    assert t[|t| - 1] == clock[7];
    StripKeepsUnpadded(t);
    FormatMdyWithTimeFailsPlain(d, h, mi, sec);
    FormatMdyHmsRoundTrip(d, h, mi, sec);
  }

  /** Two visits of one patient on the same day are both counted in the
      file, but `load_data` keeps one record per patient, so the count made
      over the loaded store is one. */
  lemma SameDayVisitsCollapse(r1: Record, r2: Record, d: Date)
    requires ValidDate(d) && d.year >= 1000
    requires "Patient_ID" in r1 && "Patient_ID" in r2 && r1["Patient_ID"] == r2["Patient_ID"]
    requires "Visit_time" in r1 && r1["Visit_time"] == FormatMdy(d)
    requires "Visit_time" in r2 && r2["Visit_time"] == FormatMdy(d)
    ensures CountOn([Rec(r1), Rec(r2)], d) == 2
    ensures CountOn(HospitalDatabase.GetAllVisits(HospitalDatabase.LoadRows([r1, r2]).store), d) == 1
  {
    FormattedVisitIsOnItsDay(r1, d);
    FormattedVisitIsOnItsDay(r2, d);
    var keep := OnDayOf(d);
    assert [Rec(r1)][..0] == [] && [Rec(r2)][..0] == [];
    assert CountWhere([Rec(r1)], keep) == 1 && CountWhere([Rec(r2)], keep) == 1;
    CountAppend([Rec(r1)], [Rec(r2)], keep);
    assert [Rec(r1)] + [Rec(r2)] == [Rec(r1), Rec(r2)];
    LoadedSameDayVisits(r1, r2);
  }

  /** Loading two rows of the same patient leaves the second one alone. */
  lemma LoadedSameDayVisits(r1: Record, r2: Record)
    requires "Patient_ID" in r1 && "Patient_ID" in r2 && r1["Patient_ID"] == r2["Patient_ID"]
    ensures HospitalDatabase.GetAllVisits(HospitalDatabase.LoadRows([r1, r2]).store) == [Rec(r2)]
  {
    var id := r1["Patient_ID"];
    var rows := [r1, r2];
    assert rows[..1] == [r1] && [r1][..0] == [];
    assert HospitalDatabase.LoadRows([]) == HospitalDatabase.Loaded(HospitalDatabase.EmptyStore);
    assert HospitalDatabase.LoadRows([r1])
           == HospitalDatabase.Loaded(HospitalDatabase.Put(HospitalDatabase.EmptyStore, id, Rec(r1)));
    var first := HospitalDatabase.LoadRows([r1]).store;
    assert HospitalDatabase.EmptyStore.data[id := Rec(r1)] == map[id := Rec(r1)];
    assert HospitalDatabase.EmptyStore.order + [id] == [id];
    assert first == HospitalDatabase.Store([id], map[id := Rec(r1)]);
    var st := HospitalDatabase.LoadRows(rows).store;
    assert st == HospitalDatabase.Store([id], map[id := Rec(r2)]);
  }
}

=== FILE: dates.dfy ===
/** Calendar dates and the part of `datetime.strptime` the application uses:
    the formats "%Y-%m-%d", "%m/%d/%Y" and "%m/%d/%Y %H:%M:%S", and the
    f-string "{month}/{day}/{year}" that writes visit dates. */
module Dates {
  import opened Common
  import opened Text

  datatype Date = Date(year: int, month: int, day: int)

  /** A `datetime` read with a time of day; only the date part is used. */
  datatype DateTime = DateTime(date: Date, hour: nat, minute: nat, second: nat)

  predicate IsLeap(y: int)
  {
    y % 4 == 0 && (y % 100 != 0 || y % 400 == 0)
  }

  function DaysInMonth(y: int, m: int): (n: int)
    requires 1 <= m <= 12
    ensures 28 <= n <= 31
  {
    if m == 2 then (if IsLeap(y) then 29 else 28)
    else if m == 4 || m == 6 || m == 9 || m == 11 then 30
    else 31
  }

  /** The dates `datetime.date` can represent (`MINYEAR` is 1, `MAXYEAR` 9999). */
  predicate ValidDate(d: Date)
  {
    1 <= d.year <= 9999 && 1 <= d.month <= 12 && 1 <= d.day <= DaysInMonth(d.year, d.month)
  }

  /** Chronological order of dates. */
  predicate Before(a: Date, b: Date)
  {
    a.year < b.year
    || (a.year == b.year && a.month < b.month)
    || (a.year == b.year && a.month == b.month && a.day < b.day)
  }

  lemma BeforeIsStrictTotalOrder(a: Date, b: Date, c: Date)
    ensures !Before(a, a)
    ensures Before(a, b) && Before(b, c) ==> Before(a, c)
    ensures a != b ==> Before(a, b) || Before(b, a)
    ensures Before(a, b) ==> !Before(b, a)
  {
  }

  /** The `strptime` directives that occur in the application's formats. */
  datatype Directive = Year4 | Month | Day | Hour | Minute | Second

  /** One element of a format: a directive, a literal character, or a run of
      whitespace (a space in a format matches `\s+`). */
  datatype Piece = Field(directive: Directive) | Lit(c: char) | Spaces

  /** What a directive matched: its integer value and how many characters it
      consumed. */
  datatype Token = Token(value: nat, width: nat)

  function Two(a: char, b: char): nat
    requires IsDigit(a) && IsDigit(b)
  {
    DigitValue(a) * 10 + DigitValue(b)
  }

  predicate InRange(c: char, lo: char, hi: char)
  {
    lo <= c <= hi
  }

  /** The regular expression `_strptime` uses for each directive, tried
      alternative by alternative in its written order:
        %Y  \d\d\d\d
        %m  1[0-2]|0[1-9]|[1-9]
        %d  3[01]|[12]\d|0[1-9]|[1-9]| [1-9]
        %H  2[0-3]|[0-1]\d|\d
        %M  [0-5]\d|\d
        %S  6[0-1]|[0-5]\d|\d
      In every format used here a directive is followed by a separator that
      cannot be a digit, or by the end of the pattern, so the regular
      expression engine never backtracks into an earlier alternative: the
      first alternative that matches is the one kept. */
  function MatchDirective(d: Directive, s: string): (t: Option<Token>)
    ensures t.Some? ==> 1 <= t.value.width <= |s|
    ensures t.Some? ==> t.value.value <= Largest(d)
    ensures t.Some? && d == Year4 ==> t.value.value <= 9999
    ensures t.Some? && d == Month ==> 1 <= t.value.value <= 12
    ensures t.Some? && d == Day ==> 1 <= t.value.value <= 31
    ensures t.Some? && d == Hour ==> t.value.value <= 23
    ensures t.Some? && d == Minute ==> t.value.value <= 59
    ensures t.Some? && d == Second ==> t.value.value <= 61
  {
    match d
    case Year4 =>
      if |s| >= 4 && IsDigit(s[0]) && IsDigit(s[1]) && IsDigit(s[2]) && IsDigit(s[3])
      then Some(Token(Two(s[0], s[1]) * 100 + Two(s[2], s[3]), 4))
      else None
    case Month =>
      if |s| >= 2 && s[0] == '1' && InRange(s[1], '0', '2') then Some(Token(Two(s[0], s[1]), 2))
      else if |s| >= 2 && s[0] == '0' && InRange(s[1], '1', '9') then Some(Token(Two(s[0], s[1]), 2))
      else if |s| >= 1 && InRange(s[0], '1', '9') then Some(Token(DigitValue(s[0]), 1))
      else None
    case Day =>
      if |s| >= 2 && s[0] == '3' && InRange(s[1], '0', '1') then Some(Token(Two(s[0], s[1]), 2))
      else if |s| >= 2 && InRange(s[0], '1', '2') && IsDigit(s[1]) then Some(Token(Two(s[0], s[1]), 2))
      else if |s| >= 2 && s[0] == '0' && InRange(s[1], '1', '9') then Some(Token(Two(s[0], s[1]), 2))
      else if |s| >= 1 && InRange(s[0], '1', '9') then Some(Token(DigitValue(s[0]), 1))
      else if |s| >= 2 && s[0] == ' ' && InRange(s[1], '1', '9') then Some(Token(DigitValue(s[1]), 2))
      else None
    case Hour =>
      if |s| >= 2 && s[0] == '2' && InRange(s[1], '0', '3') then Some(Token(Two(s[0], s[1]), 2))
      else if |s| >= 2 && InRange(s[0], '0', '1') && IsDigit(s[1]) then Some(Token(Two(s[0], s[1]), 2))
      else if |s| >= 1 && IsDigit(s[0]) then Some(Token(DigitValue(s[0]), 1))
      else None
    case Minute =>
      if |s| >= 2 && InRange(s[0], '0', '5') && IsDigit(s[1]) then Some(Token(Two(s[0], s[1]), 2))
      else if |s| >= 1 && IsDigit(s[0]) then Some(Token(DigitValue(s[0]), 1))
      else None
    case Second =>
      if |s| >= 2 && s[0] == '6' && InRange(s[1], '0', '1') then Some(Token(Two(s[0], s[1]), 2))
      else if |s| >= 2 && InRange(s[0], '0', '5') && IsDigit(s[1]) then Some(Token(Two(s[0], s[1]), 2))
      else if |s| >= 1 && IsDigit(s[0]) then Some(Token(DigitValue(s[0]), 1))
      else None
  }

  /** The directives of a format, in order. */
  function Directives(pieces: seq<Piece>): seq<Directive>
  {
    if |pieces| == 0 then []
    else (if pieces[0].Field? then [pieces[0].directive] else []) + Directives(pieces[1..])
  }

  /** The largest value each directive's pattern admits. */
  function Largest(d: Directive): nat
  {
    match d
    case Year4 => 9999
    case Month => 12
    case Day => 31
    case Hour => 23
    case Minute => 59
    case Second => 61
  }

  /** Matching `s` against a whole format: the values of its directives in
      order, or `None` when the pattern does not match or characters are left
      over ("unconverted data remains"); both raise `ValueError`. */
  function Match(pieces: seq<Piece>, s: string): Option<seq<nat>>
    decreases |pieces|
  {
    if |pieces| == 0 then (if |s| == 0 then Some([]) else None)
    else if pieces[0].Lit? then
      if |s| > 0 && s[0] == pieces[0].c then Match(pieces[1..], s[1..]) else None
    else if pieces[0].Spaces? then
      var n := LeadingSpaces(s);
      if n == 0 then None else Match(pieces[1..], s[n..])
    else
      var t := MatchDirective(pieces[0].directive, s);
      if t.None? then None
      else
        var rest := Match(pieces[1..], s[t.value.width..]);
        if rest.None? then None else Some([t.value.value] + rest.value)
  }

  /** A successful match yields one value per directive, each within the
      range its directive's pattern admits. */
  lemma {:induction false} MatchShape(pieces: seq<Piece>, s: string)
    ensures Match(pieces, s).Some? ==> |Match(pieces, s).value| == |Directives(pieces)|
    ensures Match(pieces, s).Some? ==>
              forall i :: 0 <= i < |Match(pieces, s).value| ==>
                Match(pieces, s).value[i] <= Largest(Directives(pieces)[i])
    decreases |pieces|
  {
    if |pieces| > 0 && Match(pieces, s).Some? {
      if pieces[0].Lit? {
        MatchShape(pieces[1..], s[1..]);
      } else if pieces[0].Spaces? {
        MatchShape(pieces[1..], s[LeadingSpaces(s)..]);
      } else {
        var t := MatchDirective(pieces[0].directive, s);
        MatchShape(pieces[1..], s[t.value.width..]);
      }
    }
  }

  const YmdFormat: seq<Piece> := [Field(Year4), Lit('-'), Field(Month), Lit('-'), Field(Day)]
  const MdyFormat: seq<Piece> := [Field(Month), Lit('/'), Field(Day), Lit('/'), Field(Year4)]
  const MdyHmsFormat: seq<Piece> :=
    [Field(Month), Lit('/'), Field(Day), Lit('/'), Field(Year4),
     Spaces, Field(Hour), Lit(':'), Field(Minute), Lit(':'), Field(Second)]

  /** A successful "%Y-%m-%d" match yields year, month and day. */
  lemma YmdShape(s: string)
    requires Match(YmdFormat, s).Some?
    ensures |Match(YmdFormat, s).value| == 3
  {
    MatchShape(YmdFormat, s);
    var p := YmdFormat;
    assert Directives(p[4..]) == [Day];
    assert Directives(p[2..]) == [Month, Day];
  }

  /** A successful "%m/%d/%Y" match yields month, day and year. */
  lemma MdyShape(s: string)
    requires Match(MdyFormat, s).Some?
    ensures |Match(MdyFormat, s).value| == 3
  {
    MatchShape(MdyFormat, s);
    var p := MdyFormat;
    assert Directives(p[4..]) == [Year4];
    assert Directives(p[2..]) == [Day, Year4];
  }

  /** A successful "%m/%d/%Y %H:%M:%S" match yields six values, the hour at
      most 23 and the minute at most 59. */
  lemma MdyHmsShape(s: string)
    requires Match(MdyHmsFormat, s).Some?
    ensures |Match(MdyHmsFormat, s).value| == 6
    ensures Match(MdyHmsFormat, s).value[3] <= 23 && Match(MdyHmsFormat, s).value[4] <= 59
  {
    MatchShape(MdyHmsFormat, s);
    MdyHmsDirectives();
    var ds := Directives(MdyHmsFormat);
    assert Largest(ds[3]) == 23 && Largest(ds[4]) == 59;
  }

  /** The directives of "%m/%d/%Y %H:%M:%S", in order. */
  lemma MdyHmsDirectives()
    ensures Directives(MdyHmsFormat) == [Month, Day, Year4, Hour, Minute, Second]
  {
    var p := MdyHmsFormat;
    assert Directives(p[10..]) == [Second];
    assert Directives(p[8..]) == [Minute, Second];
    assert Directives(p[6..]) == [Hour, Minute, Second];
    assert Directives(p[4..]) == [Year4, Hour, Minute, Second];
    assert Directives(p[2..]) == [Day, Year4, Hour, Minute, Second];
  }

  /** `datetime.strptime(s, "%Y-%m-%d")`; `None` is the `ValueError`. A value
      the pattern accepts is still refused when it names no calendar day
      (day 31 of a 30-day month, 29 February of a common year, year 0). */
  function ParseYmd(s: string): (r: Option<Date>)
    ensures r.Some? ==> ValidDate(r.value)
  {
    var m := Match(YmdFormat, s);
    if m.None? then None
    else
      var v := m.value;
      YmdShape(s);
      var d := Date(v[0], v[1], v[2]);
      if ValidDate(d) then Some(d) else None
  }

  /** `datetime.strptime(s, "%m/%d/%Y")`. */
  function ParseMdy(s: string): (r: Option<Date>)
    ensures r.Some? ==> ValidDate(r.value)
  {
    var m := Match(MdyFormat, s);
    if m.None? then None
    else
      var v := m.value;
      MdyShape(s);
      var d := Date(v[2], v[0], v[1]);
      if ValidDate(d) then Some(d) else None
  }

  /** `datetime.strptime(s, "%m/%d/%Y %H:%M:%S")`: the `datetime` constructor
      also refuses the leap seconds 60 and 61 that the pattern lets through. */
  function ParseMdyHms(s: string): (r: Option<DateTime>)
    ensures r.Some? ==> ValidDate(r.value.date)
    ensures r.Some? ==> r.value.hour <= 23 && r.value.minute <= 59 && r.value.second <= 59
  {
    var m := Match(MdyHmsFormat, s);
    if m.None? then None
    else
      var v := m.value;
      MdyHmsShape(s);
      var d := Date(v[2], v[0], v[1]);
      if ValidDate(d) && v[5] <= 59 then Some(DateTime(d, v[3], v[4], v[5])) else None
  }

  /** `f"{dt.month}/{dt.day}/{dt.year}"`: the visit-date text, with no
      leading zeros. */
  function FormatMdy(d: Date): (s: string)
    requires ValidDate(d)
    ensures |s| > 0 && s[0] != '0' && IsDigit(s[0])
    ensures forall k :: 0 <= k < |s| ==> IsDigit(s[k]) || s[k] == '/'
  {
    var s := NatToString(d.month) + "/" + NatToString(d.day) + "/" + NatToString(d.year);
    assert forall k :: 0 <= k < |s| ==> IsDigit(s[k]) || s[k] == '/' by {
      var a := NatToString(d.month);
      var b := NatToString(d.day);
      var c := NatToString(d.year);
      forall k | 0 <= k < |s| ensures IsDigit(s[k]) || s[k] == '/' {
        if k < |a| { assert s[k] == a[k]; }
        else if k == |a| { }
        else if k < |a| + 1 + |b| { assert s[k] == b[k - |a| - 1]; }
        else if k == |a| + 1 + |b| { }
        else { assert s[k] == c[k - |a| - 2 - |b|]; }
      }
    }
    s
  }

  /** A month written without a leading zero and followed by "/" is read back
      by `%m` as the same month. */
  lemma MonthToken(m: int, rest: string)
    requires 1 <= m <= 12 && |rest| > 0 && rest[0] == '/'
    ensures MatchDirective(Month, NatToString(m) + rest) == Some(Token(m, |NatToString(m)|))
  {
    var s := NatToString(m) + rest;
    if m >= 10 {
      assert NatToString(m) == NatToString(1) + [DigitChar(m % 10)];
      assert s[0] == '1' && s[1] == DigitChar(m % 10);
    } else {
      assert s[0] == DigitChar(m) && s[1] == '/';
    }
  }

  /** The same for a day of the month and `%d`. */
  lemma DayToken(day: int, rest: string)
    requires 1 <= day <= 31 && |rest| > 0 && rest[0] == '/'
    ensures MatchDirective(Day, NatToString(day) + rest) == Some(Token(day, |NatToString(day)|))
  {
    var s := NatToString(day) + rest;
    if day >= 10 {
      assert NatToString(day) == NatToString(day / 10) + [DigitChar(day % 10)];
      assert s[0] == DigitChar(day / 10) && s[1] == DigitChar(day % 10);
    } else {
      assert s[0] == DigitChar(day) && s[1] == '/';
    }
  }

  /** A four-digit year is read back by `%Y`. */
  lemma YearToken(y: int)
    requires 1000 <= y <= 9999
    ensures MatchDirective(Year4, NatToString(y)) == Some(Token(y, 4))
  {
    var s := NatToString(y);
    NatToStringWidth(y);
    DigitsValueOfNatToString(y);
    FourDigitsValue(s);
  }

  lemma FourDigitsValue(s: string)
    requires |s| == 4 && AllDigits(s)
    ensures DigitsValue(s) == Two(s[0], s[1]) * 100 + Two(s[2], s[3])
  {
    var d0, d1, d2, d3 := DigitValue(s[0]), DigitValue(s[1]), DigitValue(s[2]), DigitValue(s[3]);
    assert s[..3][..2] == s[..2] && s[..2][..1] == [s[0]] && [s[0]][..0] == [];
    assert DigitsValue([s[0]]) == d0;
    assert DigitsValue(s[..2]) == d0 * 10 + d1;
    assert DigitsValue(s[..3]) == (d0 * 10 + d1) * 10 + d2;
    assert DigitsValue(s) == ((d0 * 10 + d1) * 10 + d2) * 10 + d3;
  }

  /** Round trip: a date written as "{month}/{day}/{year}" parses back to the
      same date under "%m/%d/%Y", provided the year has four digits. */
  lemma {:induction false} FormatMdyRoundTrip(d: Date)
    requires ValidDate(d) && d.year >= 1000
    ensures ParseMdy(FormatMdy(d)) == Some(d)
  {
    var s := FormatMdy(d);
    assert s == NatToString(d.month) + ("/" + NatToString(d.day) + "/" + NatToString(d.year));
    MatchMonthDayYear(d.month, d.day, d.year);
    var v := Match(MdyFormat, s).value;
    assert v == [d.month, d.day, d.year];
    assert Date(v[2], v[0], v[1]) == d;
  }

  /** The whole "%m/%d/%Y" pattern reads back the three numbers. */
  lemma MatchMonthDayYear(m: int, day: int, y: int)
    requires 1 <= m <= 12 && 1 <= day <= 31 && 1000 <= y <= 9999
    ensures Match(MdyFormat, NatToString(m) + ("/" + NatToString(day) + "/" + NatToString(y)))
            == Some([m, day, y])
  {
    var a := NatToString(m);
    var rest := "/" + NatToString(day) + "/" + NatToString(y);
    var s := a + rest;
    MonthToken(m, rest);
    assert s[|a|..] == rest;
    assert rest[1..] == NatToString(day) + "/" + NatToString(y);
    MatchDayYear(day, y);
    var p := MdyFormat;
    assert p[1..][1..] == MdyFormat[2..];
    assert Match(p[1..], rest) == Some([day, y]);
    assert [m] + [day, y] == [m, day, y];
  }

  /** The "%d/%Y" tail of "%m/%d/%Y" reads back a day and a four-digit year. */
  lemma MatchDayYear(day: int, y: int)
    requires 1 <= day <= 31 && 1000 <= y <= 9999
    ensures Match(MdyFormat[2..], NatToString(day) + "/" + NatToString(y)) == Some([day, y])
  {
    var b := NatToString(day);
    var rest := "/" + NatToString(y);
    var s := b + rest;
    assert NatToString(day) + "/" + NatToString(y) == s;
    DayToken(day, rest);
    assert s[|b|..] == rest;
    MatchYear(y);
    var p := MdyFormat[2..];
    assert p == [Field(Day), Lit('/'), Field(Year4)];
    assert p[1..] == MdyFormat[3..];
    assert Match(p[1..], rest) == Some([y]);
    assert Match(p, s) == Some([day] + [y]);
    assert [day] + [y] == [day, y];
  }

  /** The "/%Y" tail reads back a four-digit year. */
  lemma MatchYear(y: int)
    requires 1000 <= y <= 9999
    ensures Match(MdyFormat[3..], "/" + NatToString(y)) == Some([y])
  {
    var c := NatToString(y);
    YearToken(y);
    NatToStringWidth(y);
    assert ("/" + c)[1..] == c;
    assert c[4..] == [];
    var p := MdyFormat[3..];
    assert p == [Lit('/'), Field(Year4)];
    var q := [Field(Year4)];
    assert p[1..] == q && q[1..] == [];
    assert Match(q[1..], c[4..]) == Some([]);
    assert Match(q, c) == Some([y] + []);
    assert [y] + [] == [y];
    assert ("/" + c)[0] == '/';
    assert Match(p, "/" + c) == Match(p[1..], ("/" + c)[1..]);
    assert Match(p, "/" + c) == Some([y]);
  }

  /** The round trip needs the four-digit year: for a year below 1000 the
      written text is too short for `%Y` and parsing fails. */
  lemma FormatMdyShortYearFails(d: Date)
    requires ValidDate(d) && d.year < 1000
    ensures ParseMdy(FormatMdy(d)) == None
  {
    var a := NatToString(d.month);
    var b := NatToString(d.day);
    var c := NatToString(d.year);
    assert FormatMdy(d) == a + ("/" + b + "/" + c);
    MatchShortYear(d.month, d.day, d.year);
  }

  /** The whole "%m/%d/%Y" pattern refuses a year of fewer than four
      digits. */
  lemma MatchShortYear(m: int, day: int, y: nat)
    requires 1 <= m <= 12 && 1 <= day <= 31 && y < 1000
    ensures Match(MdyFormat, NatToString(m) + ("/" + NatToString(day) + "/" + NatToString(y))) == None
  {
    var a := NatToString(m);
    var rest := "/" + NatToString(day) + "/" + NatToString(y);
    var s := a + rest;
    MonthToken(m, rest);
    assert s[|a|..] == rest;
    DayShortYearFails(day, y);
  }

  /** The "/%d/%Y" tail of the pattern refuses a year of fewer than four
      digits. */
  lemma DayShortYearFails(day: int, y: nat)
    requires 1 <= day <= 31 && y < 1000
    ensures Match(MdyFormat[1..], "/" + NatToString(day) + "/" + NatToString(y)) == None
  {
    var b := NatToString(day);
    var c := NatToString(y);
    var rest := "/" + b + "/" + c;
    var s2 := rest[1..];
    assert s2 == b + ("/" + c);
    DayToken(day, "/" + c);
    var s3 := s2[|b|..];
    assert s3 == "/" + c;
    SlashShortYearFails(y);
    var p := MdyFormat;
    assert p[2..][1..] == p[3..];
    assert Match(p[2..], s2) == None;
    assert p[1..][1..] == p[2..];
  }

  /** The "/%Y" tail refuses a year of fewer than four digits. */
  lemma SlashShortYearFails(y: nat)
    requires y < 1000
    ensures Match(MdyFormat[3..], "/" + NatToString(y)) == None
  {
    var c := NatToString(y);
    assert ("/" + c)[1..] == c;
    ShortNumberWidth(y);
    assert MatchDirective(Year4, c) == None;
    var p := MdyFormat;
    assert Match(p[4..], c) == None;
    assert p[3..][1..] == p[4..];
  }

  lemma ShortNumberWidth(n: nat)
    requires n < 1000
    ensures |NatToString(n)| <= 3
  {
    if n >= 10 {
      assert NatToString(n) == NatToString(n / 10) + [DigitChar(n % 10)];
      if n >= 100 {
        assert NatToString(n / 10) == NatToString(n / 100) + [DigitChar((n / 10) % 10)];
      }
    }
  }

  /** One directive at the head of a format. */
  lemma FieldStep(p: seq<Piece>, s: string, t: Token, rest: seq<nat>, values: seq<nat>)
    requires |p| > 0 && p[0].Field? && MatchDirective(p[0].directive, s) == Some(t)
    requires t.width <= |s| && Match(p[1..], s[t.width..]) == Some(rest)
    requires values == [t.value] + rest
    ensures Match(p, s) == Some(values)
  {
  }

  /** One literal character at the head of a format. */
  lemma LitStep(p: seq<Piece>, s: string)
    requires |p| > 0 && p[0].Lit? && |s| > 0 && s[0] == p[0].c
    ensures Match(p, s) == Match(p[1..], s[1..])
  {
  }

  /** The "%Y-%m-%d" pattern is less strict than its prompt suggests: month
      and day may be written with one digit. */
  lemma YmdAcceptsOneDigitFields()
    ensures ParseYmd("2020-1-5") == Some(Date(2020, 1, 5))
  {
    var p := YmdFormat;
    var s := "2020-1-5";
    assert Match(p[5..], s[8..]) == Some([]);
    FieldStep(p[4..], s[7..], Token(5, 1), [], [5]);
    LitStep(p[3..], s[6..]);
    assert p[3..][1..] == p[4..] && s[6..][1..] == s[7..] && p[4..][1..] == p[5..];
    FieldStep(p[2..], s[5..], Token(1, 1), [5], [1, 5]);
    LitStep(p[1..], s[4..]);
    assert p[1..][1..] == p[2..] && s[4..][1..] == s[5..] && p[2..][1..] == p[3..];
    FieldStep(p, s, Token(2020, 4), [1, 5], [2020, 1, 5]);
  }

  /** `%d` also accepts a space before a single digit. */
  lemma YmdAcceptsSpacedDay()
    ensures ParseYmd("2020-01- 5") == Some(Date(2020, 1, 5))
  {
    var p := YmdFormat;
    var t := "2020-01- 5";
    assert Match(p[5..], t[10..]) == Some([]);
    FieldStep(p[4..], t[8..], Token(5, 2), [], [5]);
    LitStep(p[3..], t[7..]);
    assert p[3..][1..] == p[4..] && t[7..][1..] == t[8..] && p[4..][1..] == p[5..];
    FieldStep(p[2..], t[5..], Token(1, 2), [5], [1, 5]);
    LitStep(p[1..], t[4..]);
    assert p[1..][1..] == p[2..] && t[4..][1..] == t[5..] && p[2..][1..] == p[3..];
    FieldStep(p, t, Token(2020, 4), [1, 5], [2020, 1, 5]);
  }

  // ---------------------------------------------------------------------
  // Zero-padded texts: `date.isoformat()` and a clock time "HH:MM:SS"

  /** `n` in two digits, with a leading zero below 10 (`f"{n:02}"`). */
  function Pad2(n: nat): (s: string)
    requires n < 100
    ensures |s| == 2 && AllDigits(s)
  {
    [DigitChar(n / 10), DigitChar(n % 10)]
  }

  /** `n` in four digits, zero-padded (`f"{n:04}"`). */
  function Pad4(n: nat): (s: string)
    requires n < 10000
    ensures |s| == 4 && AllDigits(s)
  {
    Pad2(n / 100) + Pad2(n % 100)
  }

  /** `date.isoformat()`: "YYYY-MM-DD" with every field zero-padded, the
      text the visit count reports its day in. */
  function IsoFormat(d: Date): (s: string)
    requires ValidDate(d)
    ensures |s| == 10 && s[4] == '-' && s[7] == '-'
    ensures forall k :: 0 <= k < |s| && k != 4 && k != 7 ==> IsDigit(s[k])
  {
    Pad4(d.year) + "-" + Pad2(d.month) + "-" + Pad2(d.day)
  }

  /** A time of day as "HH:MM:SS", each field in two digits. */
  function FormatHms(h: nat, mi: nat, sec: nat): (s: string)
    requires h <= 23 && mi <= 59 && sec <= 59
    ensures |s| == 8 && s[2] == ':' && s[5] == ':'
    ensures forall k :: 0 <= k < |s| && k != 2 && k != 5 ==> IsDigit(s[k])
  {
    Pad2(h) + ":" + Pad2(mi) + ":" + Pad2(sec)
  }

  /** A two-digit field is read back as its number by each directive whose
      range holds it: `%m` and `%d` take "01".."09" through their `0[1-9]`
      alternative, and `%H`, `%M` and `%S` through `[0-1]\d`, `[0-5]\d`. */
  lemma Pad2Token(d: Directive, n: nat, rest: string)
    requires (d == Month && 1 <= n <= 12) || (d == Day && 1 <= n <= 31)
             || (d == Hour && n <= 23) || (d == Minute && n <= 59) || (d == Second && n <= 59)
    ensures MatchDirective(d, Pad2(n) + rest) == Some(Token(n, 2))
  {
    var s := Pad2(n) + rest;
    assert s[0] == DigitChar(n / 10) && s[1] == DigitChar(n % 10);
    assert Two(s[0], s[1]) == n;
  }

  /** A zero-padded four-digit year is read back by `%Y`, whatever follows. */
  lemma Pad4Token(y: nat, rest: string)
    requires y < 10000
    ensures MatchDirective(Year4, Pad4(y) + rest) == Some(Token(y, 4))
  {
    var s := Pad4(y) + rest;
    assert s[0] == DigitChar(y / 100 / 10) && s[1] == DigitChar(y / 100 % 10);
    assert s[2] == DigitChar(y % 100 / 10) && s[3] == DigitChar(y % 100 % 10);
    assert Two(s[0], s[1]) == y / 100 && Two(s[2], s[3]) == y % 100;
  }

  /** Round trip: the "YYYY-MM-DD" text of any date, the layout the visit
      count asks for and reports in, parses back to that date under
      "%Y-%m-%d". The zero padding makes years below 1000 read back too. */
  lemma {:induction false} IsoFormatRoundTrip(d: Date)
    requires ValidDate(d)
    ensures ParseYmd(IsoFormat(d)) == Some(d)
  {
    var t := IsoFormat(d);
    var p := YmdFormat;
    assert Match(p[5..], t[10..]) == Some([]);
    assert t[8..] == Pad2(d.day) + t[10..];
    Pad2Token(Day, d.day, t[10..]);
    FieldStep(p[4..], t[8..], Token(d.day, 2), [], [d.day]);
    LitStep(p[3..], t[7..]);
    assert p[3..][1..] == p[4..] && t[7..][1..] == t[8..] && p[4..][1..] == p[5..];
    assert t[5..] == Pad2(d.month) + t[7..];
    Pad2Token(Month, d.month, t[7..]);
    FieldStep(p[2..], t[5..], Token(d.month, 2), [d.day], [d.month, d.day]);
    LitStep(p[1..], t[4..]);
    assert p[1..][1..] == p[2..] && t[4..][1..] == t[5..] && p[2..][1..] == p[3..];
    assert t == Pad4(d.year) + t[4..];
    Pad4Token(d.year, t[4..]);
    FieldStep(p, t, Token(d.year, 4), [d.month, d.day], [d.year, d.month, d.day]);
  }

  /** The "%H:%M:%S" tail of the timed layout reads back a clock time. */
  lemma MatchHms(h: nat, mi: nat, sec: nat)
    requires h <= 23 && mi <= 59 && sec <= 59
    ensures Match(MdyHmsFormat[6..], FormatHms(h, mi, sec)) == Some([h, mi, sec])
  {
    var t := FormatHms(h, mi, sec);
    var p := MdyHmsFormat[6..];
    assert p == [Field(Hour), Lit(':'), Field(Minute), Lit(':'), Field(Second)];
    assert Match(p[5..], t[8..]) == Some([]);
    assert t[6..] == Pad2(sec) + t[8..];
    Pad2Token(Second, sec, t[8..]);
    FieldStep(p[4..], t[6..], Token(sec, 2), [], [sec]);
    LitStep(p[3..], t[5..]);
    assert p[3..][1..] == p[4..] && t[5..][1..] == t[6..] && p[4..][1..] == p[5..];
    assert t[3..] == Pad2(mi) + t[5..];
    Pad2Token(Minute, mi, t[5..]);
    FieldStep(p[2..], t[3..], Token(mi, 2), [sec], [mi, sec]);
    LitStep(p[1..], t[2..]);
    assert p[1..][1..] == p[2..] && t[2..][1..] == t[3..] && p[2..][1..] == p[3..];
    assert t == Pad2(h) + t[2..];
    Pad2Token(Hour, h, t[2..]);
    FieldStep(p, t, Token(h, 2), [mi, sec], [h, mi, sec]);
  }

  /** The space between date and time matches the `\s+` of the layout. */
  lemma MatchSpacedHms(h: nat, mi: nat, sec: nat)
    requires h <= 23 && mi <= 59 && sec <= 59
    ensures Match(MdyHmsFormat[5..], " " + FormatHms(h, mi, sec)) == Some([h, mi, sec])
  {
    var t := FormatHms(h, mi, sec);
    var s := " " + t;
    assert s[1] == t[0] && IsDigit(t[0]);
    assert LeadingSpaces(s[1..]) == 0;
    assert LeadingSpaces(s) == 1;
    assert s[1..] == t;
    MatchHms(h, mi, sec);
    assert MdyHmsFormat[5..][1..] == MdyHmsFormat[6..];
  }

  /** `v` put in front of the values of a successful match. */
  function Prepend(v: seq<nat>, m: Option<seq<nat>>): Option<seq<nat>>
  {
    if m.None? then None else Some(v + m.value)
  }

  /** A four-digit year is read back by `%Y` whatever follows it. */
  lemma YearTokenBefore(y: int, rest: string)
    requires 1000 <= y <= 9999
    ensures MatchDirective(Year4, NatToString(y) + rest) == Some(Token(y, 4))
  {
    var c := NatToString(y);
    YearToken(y);
    NatToStringWidth(y);
    var s := c + rest;
    assert s[0] == c[0] && s[1] == c[1] && s[2] == c[2] && s[3] == c[3];
  }

  /** A directive at the head of a format puts its value in front of what
      the rest of the format reads after it. */
  lemma FieldPrepend(p: seq<Piece>, s: string, t: Token)
    requires |p| > 0 && p[0].Field? && MatchDirective(p[0].directive, s) == Some(t)
    ensures t.width <= |s| && Match(p, s) == Prepend([t.value], Match(p[1..], s[t.width..]))
  {
  }

  /** "{year}" then the rest, under "%Y" then the rest of a format. */
  lemma YearHead(q: seq<Piece>, y: int, tail: string)
    requires |q| > 0 && q[0] == Field(Year4) && 1000 <= y <= 9999
    ensures Match(q, NatToString(y) + tail) == Prepend([y], Match(q[1..], tail))
  {
    YearTokenBefore(y, tail);
    NatToStringWidth(y);
    FieldPrepend(q, NatToString(y) + tail, Token(y, 4));
    assert (NatToString(y) + tail)[4..] == tail;
  }

  /** "/{year}" then the rest, under "/%Y" then the rest of a format. */
  lemma SlashYearHead(q: seq<Piece>, y: int, tail: string)
    requires |q| > 1 && q[0] == Lit('/') && q[1] == Field(Year4) && 1000 <= y <= 9999
    ensures Match(q, "/" + NatToString(y) + tail) == Prepend([y], Match(q[2..], tail))
  {
    var r := NatToString(y) + tail;
    assert ("/" + NatToString(y) + tail) == "/" + r;
    LitStep(q, "/" + r);
    assert ("/" + r)[1..] == r && q[1..][1..] == q[2..];
    YearHead(q[1..], y, tail);
  }

  /** "{day}" then a "/" and the rest, under "%d" then the rest. */
  lemma DayHead(q: seq<Piece>, day: int, r: string)
    requires |q| > 0 && q[0] == Field(Day) && 1 <= day <= 31 && |r| > 0 && r[0] == '/'
    ensures Match(q, NatToString(day) + r) == Prepend([day], Match(q[1..], r))
  {
    var b := NatToString(day);
    DayToken(day, r);
    FieldPrepend(q, b + r, Token(day, |b|));
    assert (b + r)[|b|..] == r;
  }

  /** "{month}" then a "/" and the rest, under "%m" then the rest. */
  lemma MonthHead(q: seq<Piece>, m: int, r: string)
    requires |q| > 0 && q[0] == Field(Month) && 1 <= m <= 12 && |r| > 0 && r[0] == '/'
    ensures Match(q, NatToString(m) + r) == Prepend([m], Match(q[1..], r))
  {
    var a := NatToString(m);
    MonthToken(m, r);
    FieldPrepend(q, a + r, Token(m, |a|));
    assert (a + r)[|a|..] == r;
  }

  /** Values put in front twice are put in front once, joined. */
  lemma PrependTwice(u: seq<nat>, v: seq<nat>, m: Option<seq<nat>>)
    ensures Prepend(u, Prepend(v, m)) == Prepend(u + v, m)
  {
    if m.Some? {
      assert u + (v + m.value) == u + v + m.value;
    }
  }

  /** "{day}/{year}" then the rest, under "%d/%Y" then the rest. */
  lemma DayYearHead(q: seq<Piece>, day: int, y: int, tail: string)
    requires |q| > 2 && q[0] == Field(Day) && q[1] == Lit('/') && q[2] == Field(Year4)
    requires 1 <= day <= 31 && 1000 <= y <= 9999
    ensures Match(q, NatToString(day) + ("/" + NatToString(y) + tail)) == Prepend([day, y], Match(q[3..], tail))
  {
    DayHead(q, day, "/" + NatToString(y) + tail);
    SlashYearHead(q[1..], y, tail);
    assert q[1..][2..] == q[3..];
    PrependTwice([day], [y], Match(q[3..], tail));
    assert [day] + [y] == [day, y];
  }

  /** "{month}/{day}/{year}" at the head of a text matches the first five
      pieces of a layout that starts like "%m/%d/%Y"; what the layout reads
      from the rest of the text follows the three numbers. */
  lemma MatchDateHead(p: seq<Piece>, m: int, day: int, y: int, tail: string)
    requires |p| >= 5 && p[..5] == MdyFormat
    requires 1 <= m <= 12 && 1 <= day <= 31 && 1000 <= y <= 9999
    ensures Match(p, NatToString(m) + ("/" + (NatToString(day) + ("/" + NatToString(y) + tail))))
            == Prepend([m, day, y], Match(p[5..], tail))
  {
    var r2 := NatToString(day) + ("/" + NatToString(y) + tail);
    assert p[0] == MdyFormat[0] && p[1] == MdyFormat[1];
    assert p[2] == MdyFormat[2] && p[3] == MdyFormat[3] && p[4] == MdyFormat[4];
    MonthHead(p, m, "/" + r2);
    LitStep(p[1..], "/" + r2);
    assert ("/" + r2)[1..] == r2 && p[1..][1..] == p[2..];
    DayYearHead(p[2..], day, y, tail);
    assert p[2..][3..] == p[5..];
    PrependTwice([m], [day, y], Match(p[5..], tail));
    assert [m] + [day, y] == [m, day, y];
  }

  /** The visit-date text followed by a suffix, regrouped the way the
      layout is matched: month, then "/" and the rest. */
  lemma FormatMdyThen(d: Date, suffix: string)
    requires ValidDate(d)
    ensures FormatMdy(d) + suffix
            == NatToString(d.month) + ("/" + (NatToString(d.day) + ("/" + NatToString(d.year) + suffix)))
  {
  }

  /** Round trip for the timed layout: a visit date written as
      "{month}/{day}/{year}" and followed by " HH:MM:SS" parses back under
      "%m/%d/%Y %H:%M:%S" to that date and that time of day. */
  lemma FormatMdyHmsRoundTrip(d: Date, h: nat, mi: nat, sec: nat)
    requires ValidDate(d) && d.year >= 1000
    requires h <= 23 && mi <= 59 && sec <= 59
    ensures ParseMdyHms(FormatMdy(d) + " " + FormatHms(h, mi, sec)) == Some(DateTime(d, h, mi, sec))
  {
    var tail := " " + FormatHms(h, mi, sec);
    var text := FormatMdy(d) + tail;
    assert Match(MdyHmsFormat, text) == Some([d.month, d.day, d.year, h, mi, sec]) by {
      FormatMdyThen(d, tail);
      MatchSpacedHms(h, mi, sec);
      MatchDateHead(MdyHmsFormat, d.month, d.day, d.year, tail);
      assert [d.month, d.day, d.year] + [h, mi, sec] == [d.month, d.day, d.year, h, mi, sec];
    }
    assert FormatMdy(d) + " " + FormatHms(h, mi, sec) == text;
  }

  /** A time of day after the date makes "%m/%d/%Y" fail ("unconverted
      data remains"), so the plain layout never reads a timed visit. */
  lemma FormatMdyWithTimeFailsPlain(d: Date, h: nat, mi: nat, sec: nat)
    requires ValidDate(d) && d.year >= 1000
    requires h <= 23 && mi <= 59 && sec <= 59
    ensures ParseMdy(FormatMdy(d) + " " + FormatHms(h, mi, sec)) == None
  {
    var tail := " " + FormatHms(h, mi, sec);
    var text := FormatMdy(d) + tail;
    assert Match(MdyFormat, text) == None by {
      FormatMdyThen(d, tail);
      assert MdyFormat[..5] == MdyFormat && MdyFormat[5..] == [];
      MatchDateHead(MdyFormat, d.month, d.day, d.year, tail);
    }
    assert FormatMdy(d) + " " + FormatHms(h, mi, sec) == text;
  }
}

=== FILE: graph_utils.dfy ===
/** `GraphGenerator`: the three tallies behind the management charts (by
    chief complaint, by department, by year). Plotting and the output folder
    are not modelled; the tallies are what would be plotted. */
module GraphUtils {
  import opened Common
  import HospitalDatabase

  /** A Python dictionary used as a counter: its keys in insertion order
      and the count of each. */
  datatype Tally<K> = Tally(keys: seq<K>, counts: map<K, nat>)

  /** The number of times `k` occurs in `xs`. */
  function CountIn<K(==)>(xs: seq<K>, k: K): nat
    decreases |xs|
  {
    if |xs| == 0 then 0 else CountIn(xs[..|xs| - 1], k) + (if xs[|xs| - 1] == k then 1 else 0)
  }

  /** `d[k] = d.get(k, 0) + 1`, or `d[k] += 1` on a `defaultdict(int)`: a
      new key goes to the end with count 1. */
  function Bump<K(==)>(t: Tally<K>, k: K): Tally<K>
  {
    if k in t.counts then Tally(t.keys, t.counts[k := t.counts[k] + 1])
    else Tally(t.keys + [k], t.counts[k := 1])
  }

  /** Counting `xs` element by element into an empty dictionary. Every
      element is a key exactly once, and its count is how often it occurs. */
  function TallyOf<K(==,!new)>(xs: seq<K>): (t: Tally<K>)
    ensures Distinct(t.keys)
    ensures forall k :: k in t.counts <==> k in t.keys
    ensures forall k :: k in t.keys <==> k in xs
    ensures forall k :: k in t.counts ==> t.counts[k] == CountIn(xs, k) && t.counts[k] > 0
    decreases |xs|
  {
    if |xs| == 0 then Tally([], map[])
    else
      var init := xs[..|xs| - 1];
      var x := xs[|xs| - 1];
      assert xs == init + [x];
      assert forall k :: k in xs <==> k in init || k == x;
      var t := TallyOf(init);
      if x in init then Bump(t, x)
      else CountInAbsent(init, x); Bump(t, x)
  }

  /** An element that does not occur is counted zero times. */
  lemma {:induction false} CountInAbsent<K>(xs: seq<K>, k: K)
    requires k !in xs
    ensures CountIn(xs, k) == 0
    decreases |xs|
  {
    if |xs| > 0 {
      assert forall y :: y in xs[..|xs| - 1] ==> y in xs;
      CountInAbsent(xs[..|xs| - 1], k);
    }
  }

  /** The sum of the counts of `keys`. */
  function Total<K>(keys: seq<K>, counts: map<K, nat>): nat
    requires forall i :: 0 <= i < |keys| ==> keys[i] in counts
    decreases |keys|
  {
    if |keys| == 0 then 0 else Total(keys[..|keys| - 1], counts) + counts[keys[|keys| - 1]]
  }

  /** Changing the count of a key that is not listed changes no total. */
  lemma {:induction false} TotalIgnoresOthers<K>(keys: seq<K>, counts: map<K, nat>, k: K, v: nat)
    requires forall i :: 0 <= i < |keys| ==> keys[i] in counts
    requires k !in keys
    ensures Total(keys, counts[k := v]) == Total(keys, counts)
    decreases |keys|
  {
    if |keys| > 0 {
      TotalIgnoresOthers(keys[..|keys| - 1], counts, k, v);
    }
  }

  /** Adding one to a listed key adds one to the total. */
  lemma {:induction false} TotalBump<K>(keys: seq<K>, counts: map<K, nat>, k: K)
    requires forall i :: 0 <= i < |keys| ==> keys[i] in counts
    requires Distinct(keys) && k in keys
    ensures Total(keys, counts[k := counts[k] + 1]) == Total(keys, counts) + 1
    decreases |keys|
  {
    var n := |keys| - 1;
    var init := keys[..n];
    if keys[n] == k {
      assert k !in init;
      TotalIgnoresOthers(init, counts, k, counts[k] + 1);
    } else {
      assert k in init;
      TotalBump(init, counts, k);
    }
  }

  /** Every counted element is counted once: the counts add up to the
      number of elements. */
  lemma {:induction false} TallyTotal<K(!new)>(xs: seq<K>)
    ensures Total(TallyOf(xs).keys, TallyOf(xs).counts) == |xs|
    decreases |xs|
  {
    if |xs| > 0 {
      var init := xs[..|xs| - 1];
      var x := xs[|xs| - 1];
      var t := TallyOf(init);
      TallyTotal(init);
      if x in t.counts {
        TotalBump(t.keys, t.counts, x);
      } else {
        var keys := t.keys + [x];
        assert keys[..|keys| - 1] == t.keys;
        TotalIgnoresOthers(t.keys, t.counts, x, 1);
      }
    }
  }

  /** The tally lists its keys in first-occurrence order. */
  lemma {:induction false} TallyKeysInFirstOccurrenceOrder<K(!new)>(xs: seq<K>)
    ensures InFirstOccurrenceOrder(xs, TallyOf(xs).keys)
    decreases |xs|
  {
    if |xs| > 0 {
      var init := xs[..|xs| - 1];
      TallyKeysInFirstOccurrenceOrder(init);
      FirstOrderStep(xs, TallyOf(init).keys);
    }
  }

  // ---------------------------------------------------------------------
  // The three tallies of `GraphGenerator`, over the visit records.
  // ---------------------------------------------------------------------

  /** `if chief_complaint:`: the column is there and is not empty. */
  predicate HasComplaint(r: Record)
  {
    "Chief_complaint" in r && r["Chief_complaint"] != ""
  }

  /** The selection of the records with a chief complaint. */
  function Complained(): Record -> bool
  {
    r => HasComplaint(r)
  }

  /** The complaints counted by `count_chief_complaints`, in record order. */
  function Complaints(rows: seq<Record>): (cs: seq<string>)
    ensures |cs| == |Filter(rows, Complained())|
    ensures forall i :: 0 <= i < |cs| ==>
              exists r :: r in rows && HasComplaint(r) && r["Chief_complaint"] == cs[i]
  {
    var f := Filter(rows, Complained());
    assert forall i :: 0 <= i < |f| ==> f[i] in rows && HasComplaint(f[i]);
    seq(|f|, i requires 0 <= i < |f| => f[i]["Chief_complaint"])
  }

  /** `count_chief_complaints`: the complaint counter. */
  function ComplaintTally(rows: seq<Record>): Tally<string>
  {
    TallyOf(Complaints(rows))
  }

  /** Only records with a chief complaint are counted, each once; a key is
      the complaint of some such record, and keys keep first-occurrence
      order. */
  lemma ComplaintTallyCounts(rows: seq<Record>)
    ensures var t := ComplaintTally(rows);
            Total(t.keys, t.counts) == |Filter(rows, Complained())|
            && (forall k :: k in t.counts ==> k != "" && exists r :: r in rows && Lookup(r, "Chief_complaint") == Some(k))
            && forall i, j :: 0 <= i < j < |t.keys| ==>
                 FirstIndex(Complaints(rows), t.keys[i]) < FirstIndex(Complaints(rows), t.keys[j])
  {
    TallyTotal(Complaints(rows));
    TallyKeysInFirstOccurrenceOrder(Complaints(rows));
    var cs := Complaints(rows);
    forall k | k in ComplaintTally(rows).counts
      ensures k != "" && exists r :: r in rows && Lookup(r, "Chief_complaint") == Some(k)
    {
      var i :| 0 <= i < |cs| && cs[i] == k;
      var r :| r in rows && HasComplaint(r) && r["Chief_complaint"] == cs[i];
      assert Lookup(r, "Chief_complaint") == Some(k);
    }
  }

  /** `visit.get("Visit_department", "Unknown")` for every record. */
  function Departments(rows: seq<Record>): seq<string>
  {
    ColumnOr(rows, "Visit_department", "Unknown")
  }

  /** `generate_department_graph`: the department counter. */
  function DepartmentTally(rows: seq<Record>): Tally<string>
  {
    TallyOf(Departments(rows))
  }

  /** Every record is counted exactly once, under its department, under
      "Unknown" when it has none, and under "" when the cell is empty. */
  lemma DepartmentTallyCounts(rows: seq<Record>)
    ensures var t := DepartmentTally(rows);
            Total(t.keys, t.counts) == |rows|
            && (forall i :: 0 <= i < |rows| && "Visit_department" !in rows[i] ==> "Unknown" in t.counts)
            && (forall i :: 0 <= i < |rows| && "Visit_department" in rows[i] ==> rows[i]["Visit_department"] in t.counts)
  {
    TallyTotal(Departments(rows));
    var ds := Departments(rows);
    forall i | 0 <= i < |rows| ensures ds[i] in ds {
    }
  }

  /** `dateutil.parser.parse(text).year`, or `None` where it raises
      `ValueError` or `TypeError`. */
  type YearParser = string -> Option<int>

  /** A record that `generate_visits_per_year_graph` counts: a non-empty
      `Visit_time` that the parser accepts. */
  predicate HasYear(parse: YearParser, r: Record)
  {
    GetOr(r, "Visit_time", "") != "" && parse(GetOr(r, "Visit_time", "")).Some?
  }

  function Dated(parse: YearParser): Record -> bool
  {
    r => HasYear(parse, r)
  }

  /** The years counted, in record order. */
  function Years(rows: seq<Record>, parse: YearParser): (ys: seq<int>)
    ensures |ys| == |Filter(rows, Dated(parse))|
    ensures forall i :: 0 <= i < |ys| ==>
              exists r :: r in rows && HasYear(parse, r) && parse(r["Visit_time"]) == Some(ys[i])
    ensures forall i :: 0 <= i < |ys| ==>
              Some(ys[i]) == parse(Filter(rows, Dated(parse))[i]["Visit_time"])
  {
    var f := Filter(rows, Dated(parse));
    assert forall i :: 0 <= i < |f| ==> f[i] in rows && HasYear(parse, f[i]);
    seq(|f|, i requires 0 <= i < |f| => parse(f[i]["Visit_time"]).value)
  }

  /** The years keep record order: the years of two stretches of records,
      one after the other, are the years of the two stretches in turn. */
  lemma YearsAppend(a: seq<Record>, b: seq<Record>, parse: YearParser)
    ensures Years(a + b, parse) == Years(a, parse) + Years(b, parse)
  {
    FilterAppend(a, b, Dated(parse));
    var fa := Filter(a, Dated(parse));
    var fb := Filter(b, Dated(parse));
    var f := Filter(a + b, Dated(parse));
    var ys, ya, yb := Years(a + b, parse), Years(a, parse), Years(b, parse);
    assert |ys| == |ya| + |yb|;
    forall i | 0 <= i < |ys| ensures ys[i] == (ya + yb)[i] {
      if i < |fa| {
        assert f[i] == fa[i];
        assert Some(ys[i]) == Some(ya[i]);
      } else {
        assert f[i] == fb[i - |fa|];
        assert Some(ys[i]) == Some(yb[i - |fa|]);
      }
    }
  }

  /** Inserting `x` into an ascending sequence. */
  function Insert(x: int, s: seq<int>): (r: seq<int>)
    requires forall i, j :: 0 <= i < j < |s| ==> s[i] < s[j]
    requires x !in s
    ensures |r| == |s| + 1
    ensures forall i, j :: 0 <= i < j < |r| ==> r[i] < r[j]
    ensures forall y :: y in r <==> y in s || y == x
    decreases |s|
  {
    if |s| == 0 || x < s[0] then [x] + s
    else
      assert forall y :: y in s ==> y == s[0] || y in s[1..];
      var rest := Insert(x, s[1..]);
      assert forall y :: y in s[1..] ==> s[0] < y;
      assert forall k :: 0 <= k < |rest| ==> s[0] < rest[k] by {
        forall k | 0 <= k < |rest| ensures s[0] < rest[k] {
          assert rest[k] in rest;
        }
      }
      [s[0]] + rest
  }

  /** `sorted(keys)` for distinct keys: the same keys in ascending order. */
  function Ascending(xs: seq<int>): (r: seq<int>)
    requires Distinct(xs)
    ensures |r| == |xs|
    ensures forall i, j :: 0 <= i < j < |r| ==> r[i] < r[j]
    ensures forall y :: y in r <==> y in xs
    decreases |xs|
  {
    if |xs| == 0 then []
    else
      var init := xs[..|xs| - 1];
      assert xs == init + [xs[|xs| - 1]];
      Insert(xs[|xs| - 1], Ascending(init))
  }

  /** What the yearly chart shows: nothing ("No valid visit data
      available."), or the years and their counts. */
  datatype YearSeries = NoData | Series(years: seq<int>, counts: seq<nat>)

  /** `sorted(visits_by_year.keys())` with `[visits_by_year[y] for y in years]`:
      the distinct years ascending, each with how often it occurs. */
  function SeriesOf(ys: seq<int>): (s: YearSeries)
    requires |ys| > 0
    ensures s.Series? && |s.years| > 0 && |s.counts| == |s.years|
    ensures forall i, j :: 0 <= i < j < |s.years| ==> s.years[i] < s.years[j]
    ensures forall y :: y in s.years <==> y in ys
    ensures forall i :: 0 <= i < |s.years| ==> s.counts[i] == CountIn(ys, s.years[i])
  {
    var t := TallyOf(ys);
    var years := Ascending(t.keys);
    assert ys[0] in years;
    Series(years, seq(|years|, i requires 0 <= i < |years| => t.counts[years[i]]))
  }

  /** No year is counted exactly when no record has a readable
      `Visit_time`. */
  lemma NoYearsIffNoDatedRecord(rows: seq<Record>, parse: YearParser)
    ensures |Years(rows, parse)| == 0 <==> forall i :: 0 <= i < |rows| ==> !HasYear(parse, rows[i])
  {
    if exists i :: 0 <= i < |rows| && HasYear(parse, rows[i]) {
      var i :| 0 <= i < |rows| && HasYear(parse, rows[i]);
      assert Dated(parse)(rows[i]);
      assert rows[i] in Filter(rows, Dated(parse));
    }
    var f := Filter(rows, Dated(parse));
    if |f| > 0 {
      assert f[0] in rows && Dated(parse)(f[0]);
      var i :| 0 <= i < |rows| && rows[i] == f[0];
      assert HasYear(parse, rows[i]);
    }
  }

  /** `generate_visits_per_year_graph`: years ascending, each with its
      count, or nothing when no record has a readable date. */
  function YearlyTally(rows: seq<Record>, parse: YearParser): (s: YearSeries)
    ensures s == NoData <==> forall i :: 0 <= i < |rows| ==> !HasYear(parse, rows[i])
    ensures s.Series? ==>
              |s.years| > 0 && |s.counts| == |s.years|
              && (forall i, j :: 0 <= i < j < |s.years| ==> s.years[i] < s.years[j])
              && (forall y :: y in s.years <==> y in Years(rows, parse))
              && forall i :: 0 <= i < |s.years| ==> s.counts[i] == CountIn(Years(rows, parse), s.years[i])
  {
    var ys := Years(rows, parse);
    NoYearsIffNoDatedRecord(rows, parse);
    if |ys| == 0 then NoData else SeriesOf(ys)
  }

  /** Every record the yearly chart counts has a readable, non-empty
      `Visit_time`; records without one are skipped, never fatal. */
  lemma YearlyTallySkips(rows: seq<Record>, parse: YearParser)
    ensures |Years(rows, parse)| <= |rows|
    ensures forall r :: r in rows && !HasYear(parse, r) ==> r !in Filter(rows, Dated(parse))
  {
  }

  /** How `generate_all` ends. */
  datatype Report =
    | StrHasNoGet   // `AttributeError`: a `Patient_ID` string has no `.get`
    | Charts(complaints: Tally<string>, departments: Tally<string>, years: YearSeries)

  /** `generate_all` as written: the generator keeps the store's dictionary
      itself, and iterating a dictionary yields its keys, so the first
      tally calls `.get` on a `Patient_ID` string and fails whenever the
      store holds anything. Only an empty store yields charts, and they are
      empty. */
  function GenerateAllAsWritten(st: HospitalDatabase.Store, parse: YearParser): (r: Report)
    ensures r == StrHasNoGet <==> |st.order| > 0
    ensures r.Charts? ==> r.complaints.keys == [] && r.departments.keys == [] && r.years == NoData
  {
    if |st.order| > 0 then StrHasNoGet
    else Charts(ComplaintTally([]), DepartmentTally([]), YearlyTally([], parse))
  }
}

=== FILE: hospital_database.dfy ===
/** `HospitalDatabase`: one visit record per `Patient_ID`, loaded from the
    visit CSV file, looked up and replaced by patient, and written back whole. */
module HospitalDatabase {
  import opened Common
  import opened Text

  /** The dictionary `HospitalDatabase.data`: its keys in insertion order and
      the value stored under each key. */
  datatype Store = Store(order: seq<string>, data: map<string, Entry>)

  /** The key order lists every key of the map exactly once. */
  ghost predicate Valid(st: Store)
  {
    Distinct(st.order) && forall k :: k in st.data <==> k in st.order
  }

  const EmptyStore: Store := Store([], map[])

  /** `d[k] = v` on a Python dictionary: a new key goes to the end of the
      order, an existing key keeps its place and only its value changes. */
  function Put(st: Store, k: string, v: Entry): (r: Store)
    requires Valid(st)
    ensures Valid(r)
  {
    if k in st.data then Store(st.order, st.data[k := v])
    else Store(st.order + [k], st.data[k := v])
  }

  /** Outcome of `load_data`: the store, or the `KeyError` raised when a row
      has no `Patient_ID` column (it is not caught). */
  datatype Loaded = Loaded(store: Store) | MissingPatientId

  /** True when row `i` is the last row carrying its `Patient_ID`. */
  predicate LastOfItsId(rows: seq<Record>, i: int)
    requires 0 <= i < |rows| && AllHave(rows, "Patient_ID")
  {
    forall j :: i < j < |rows| ==> rows[j]["Patient_ID"] != rows[i]["Patient_ID"]
  }

  /** `{row['Patient_ID']: row for row in reader}`: rows are inserted in
      order, so a later row with the same `Patient_ID` replaces an earlier
      one while the key keeps its first position. */
  function LoadRows(rows: seq<Record>): (r: Loaded)
    ensures r.Loaded? <==> AllHave(rows, "Patient_ID")
    ensures r.Loaded? ==> Valid(r.store)
    decreases |rows|
  {
    if |rows| == 0 then Loaded(EmptyStore)
    else
      var prev := LoadRows(rows[..|rows| - 1]);
      var last := rows[|rows| - 1];
      if prev.MissingPatientId? || "Patient_ID" !in last then MissingPatientId
      else Loaded(Put(prev.store, last["Patient_ID"], Rec(last)))
  }

  /** The IDs of a loaded store are exactly the `Patient_ID`s of the rows. */
  lemma {:induction false} LoadKeys(rows: seq<Record>)
    requires AllHave(rows, "Patient_ID")
    ensures LoadRows(rows).store.data.Keys == set i | 0 <= i < |rows| :: rows[i]["Patient_ID"]
    decreases |rows|
  {
    if |rows| > 0 {
      var init := rows[..|rows| - 1];
      LoadKeys(init);
      var ids := set i | 0 <= i < |rows| :: rows[i]["Patient_ID"];
      var initIds := set i | 0 <= i < |init| :: init[i]["Patient_ID"];
      assert ids == initIds + {rows[|rows| - 1]["Patient_ID"]} by {
        forall k | k in ids ensures k in initIds + {rows[|rows| - 1]["Patient_ID"]} {
          var i :| 0 <= i < |rows| && rows[i]["Patient_ID"] == k;
          if i < |init| { assert init[i] == rows[i]; }
        }
        forall k | k in initIds ensures k in ids {
          var i :| 0 <= i < |init| && init[i]["Patient_ID"] == k;
          assert rows[i] == init[i];
        }
      }
    }
  }

  /** The `Patient_ID` column, row by row. */
  function IdsOf(rows: seq<Record>): (ids: seq<string>)
    requires AllHave(rows, "Patient_ID")
    ensures |ids| == |rows| && forall i :: 0 <= i < |rows| ==> ids[i] == rows[i]["Patient_ID"]
  {
    seq(|rows|, i requires 0 <= i < |rows| => rows[i]["Patient_ID"])
  }

  /** Every `Patient_ID` of the rows is a key of the loaded store, and the
      keys are listed in the order in which each ID first appears. */
  lemma {:induction false} LoadOrder(rows: seq<Record>)
    requires AllHave(rows, "Patient_ID")
    ensures forall i :: 0 <= i < |rows| ==> rows[i]["Patient_ID"] in LoadRows(rows).store.order
    ensures InFirstOccurrenceOrder(IdsOf(rows), LoadRows(rows).store.order)
    decreases |rows|
  {
    LoadKeys(rows);
    if |rows| > 0 {
      var n := |rows| - 1;
      var init := rows[..n];
      LoadOrder(init);
      var ids := IdsOf(rows);
      assert ids[..n] == IdsOf(init);
      var prev := LoadRows(init).store;
      FirstOrderStep(ids, prev.order);
      if ids[n] !in prev.data {
        LoadKeys(init);
        assert ids[n] !in ids[..n];
      }
    }
  }

  /** A later row replaces an earlier one: the record stored for a patient
      is the last row carrying that `Patient_ID`. */
  lemma {:induction false} LoadLastWins(rows: seq<Record>, i: int)
    requires AllHave(rows, "Patient_ID") && 0 <= i < |rows| && LastOfItsId(rows, i)
    ensures rows[i]["Patient_ID"] in LoadRows(rows).store.data
    ensures LoadRows(rows).store.data[rows[i]["Patient_ID"]] == Rec(rows[i])
    decreases |rows|
  {
    var init := rows[..|rows| - 1];
    if i < |rows| - 1 {
      assert init[i] == rows[i];
      assert LastOfItsId(init, i);
      LoadLastWins(init, i);
    }
  }

  /** `load_data`: a missing file gives an empty store, not an error. */
  function Load(file: CsvFile): (r: Loaded)
    ensures file == Absent ==> r == Loaded(EmptyStore)
    ensures file != Absent ==> r == LoadRows(ReadRows(file).value)
  {
    match ReadRows(file)
    case None => Loaded(EmptyStore)
    case Some(rows) => LoadRows(rows)
  }

  /** A patient ID as a caller passes it: text, or a Python integer. */
  datatype PatientKey = TextKey(text: string) | IntKey(number: int)

  /** `str(patient_id)`. */
  function KeyText(id: PatientKey): string
  {
    match id
    case TextKey(t) => t
    case IntKey(n) => IntToString(n)
  }

  /** `get_patient`: `self.data.get(str(patient_id), None)`. */
  function GetPatient(st: Store, id: PatientKey): (r: Option<Entry>)
    ensures r.Some? <==> KeyText(id) in st.data
    ensures r.Some? ==> r.value == st.data[KeyText(id)]
  {
    Lookup(st.data, KeyText(id))
  }

  /** `dict.get` on the store's map. */
  function Lookup(m: map<string, Entry>, k: string): Option<Entry>
  {
    if k in m then Some(m[k]) else None
  }

  /** `get_all_visits`: the stored values, in key insertion order. */
  function GetAllVisits(st: Store): (r: seq<Entry>)
    requires Valid(st)
    ensures |r| == |st.data| == |st.order|
    ensures forall i :: 0 <= i < |r| ==> r[i] == st.data[st.order[i]]
  {
    DistinctCardinality(st.order);
    assert st.data.Keys == set k | k in st.order;
    seq(|st.order|, i requires 0 <= i < |st.order| => st.data[st.order[i]])
  }

  /** Every stored value is among the values `get_all_visits` returns. */
  lemma AllVisitsComplete(st: Store, k: string)
    requires Valid(st) && k in st.data
    ensures st.data[k] in GetAllVisits(st)
  {
    var i :| 0 <= i < |st.order| && st.order[i] == k;
    assert GetAllVisits(st)[i] == st.data[k];
  }

  /** A sequence without repetitions has as many elements as its set. */
  lemma {:induction false} DistinctCardinality(s: seq<string>)
    requires Distinct(s)
    ensures |set k | k in s| == |s|
    decreases |s|
  {
    if |s| > 0 {
      var init := s[..|s| - 1];
      assert Distinct(init);
      DistinctCardinality(init);
      assert (set k | k in s) == (set k | k in init) + {s[|s| - 1]};
      assert s[|s| - 1] !in (set k | k in init);
    }
  }

  /** The result of `update_patient_data`: the new store and the file that
      `save_data` leaves behind. */
  datatype Updated = Updated(store: Store, file: CsvFile)

  /** `update_patient_data(patient_id, patient_data)`: store the value under
      `str(patient_id)`, then save the whole store. */
  function UpdatePatientData(st: Store, id: PatientKey, v: Entry): (r: Updated)
    requires Valid(st)
    ensures Valid(r.store)
    ensures GetPatient(r.store, id) == Some(v)
    ensures forall k :: k != KeyText(id) ==> Lookup(r.store.data, k) == Lookup(st.data, k)
    ensures KeyText(id) in st.data ==> r.store.order == st.order
    ensures KeyText(id) !in st.data ==> r.store.order == st.order + [KeyText(id)]
    ensures r.file == SaveData(r.store)
  {
    var s := Put(st, KeyText(id), v);
    Updated(s, SaveData(s))
  }

  /** The longest prefix of `entries` made of dictionaries. */
  function RecordPrefix(entries: seq<Entry>): (rows: seq<Record>)
    ensures |rows| <= |entries|
    ensures forall i :: 0 <= i < |rows| ==> entries[i] == Rec(rows[i])
    ensures |rows| < |entries| ==> entries[|rows|] == NonRecord
    decreases |entries|
  {
    if |entries| == 0 || entries[0].NonRecord? then []
    else [entries[0].fields] + RecordPrefix(entries[1..])
  }

  /** `save_data`. The file is truncated first; the header is the key set of
      the first value; the values are written in order. Every failure is
      caught and printed: an empty store (`StopIteration`) or a first value
      that is not a dictionary leaves an empty file, and a later value that
      is not a dictionary, or has a column the header lacks, ends the
      writing there. */
  function SaveData(st: Store): (f: CsvFile)
    requires Valid(st)
    ensures |st.order| == 0 ==> f == Empty
    ensures f.Table? ==> |st.order| > 0 && st.data[st.order[0]].Rec?
                         && f.columns == st.data[st.order[0]].fields.Keys
    ensures f.Table? ==> |f.rows| <= |st.order|
    ensures f.Table? ==> forall i :: 0 <= i < |f.rows| ==>
              st.data[st.order[i]].Rec? && f.rows[i] == Fill(st.data[st.order[i]].fields, f.columns)
    ensures |st.order| > 0 ==> (f.Table? <==> st.data[st.order[0]].Rec?)
    ensures !f.Table? ==> f == Empty
    ensures f.Table? ==> forall i :: 0 <= i < |f.rows| ==> Fits(st.data[st.order[i]].fields, f.columns)
    ensures f.Table? && |f.rows| < |st.order| ==>
              var stop := st.data[st.order[|f.rows|]];
              stop.NonRecord? || !Fits(stop.fields, f.columns)
  {
    if |st.order| == 0 then Empty
    else
      var first := st.data[st.order[0]];
      if first.NonRecord? then Empty
      else
        var values := GetAllVisits(st);
        var w := WriteTable(first.fields.Keys, RecordPrefix(values));
        w.file
  }

  /** The records of a store, in its key order. */
  function Values(st: Store, n: nat): (rows: seq<Record>)
    requires n <= |st.order|
    requires forall i :: 0 <= i < |st.order| ==> st.order[i] in st.data && st.data[st.order[i]].Rec?
    ensures |rows| == n
    ensures forall i :: 0 <= i < n ==> Rec(rows[i]) == st.data[st.order[i]]
  {
    seq(n, i requires 0 <= i < n => st.data[st.order[i]].fields)
  }

  /** When every value is a dictionary with the first one's columns, saving
      writes the header and then every record exactly once, in order. */
  lemma SaveWritesEveryRecord(st: Store)
    requires Valid(st) && |st.order| > 0
    requires forall k :: k in st.data ==> st.data[k].Rec?
    requires forall k :: k in st.data ==> st.data[k].fields.Keys == st.data[st.order[0]].fields.Keys
    ensures SaveData(st) == Table(st.data[st.order[0]].fields.Keys, Values(st, |st.order|))
  {
    var cols := st.data[st.order[0]].fields.Keys;
    var rows := Values(st, |st.order|);
    AllRecordsInOrder(st);
    SaveDataWrites(st);
    assert SaveData(st) == WriteTable(cols, rows).file;
    forall i | 0 <= i < |rows| ensures rows[i].Keys == cols {
      assert Rec(rows[i]) == st.data[st.order[i]];
    }
    WriteThenRead(cols, rows);
  }

  lemma SaveDataWrites(st: Store)
    requires Valid(st) && |st.order| > 0 && st.data[st.order[0]].Rec?
    ensures SaveData(st) == WriteTable(st.data[st.order[0]].fields.Keys, RecordPrefix(GetAllVisits(st))).file
  {
  }

  /** When every value is a dictionary, the dictionaries `save_data` hands to
      the writer are all the values, in key order. */
  lemma AllRecordsInOrder(st: Store)
    requires Valid(st)
    requires forall k :: k in st.data ==> st.data[k].Rec?
    ensures RecordPrefix(GetAllVisits(st)) == Values(st, |st.order|)
  {
    var values := GetAllVisits(st);
    var rows := RecordPrefix(values);
    var expected := Values(st, |st.order|);
    forall i | 0 <= i < |rows| ensures rows[i] == expected[i] {
      assert Rec(rows[i]) == values[i] == st.data[st.order[i]] == Rec(expected[i]);
    }
  }

  /** Every value is the record of the patient it is filed under, as after
      a load. */
  predicate KeyedByPatient(st: Store)
  {
    forall k :: k in st.data ==>
      st.data[k].Rec? && "Patient_ID" in st.data[k].fields && st.data[k].fields["Patient_ID"] == k
  }

  lemma LoadIsKeyedByPatient(rows: seq<Record>)
    requires AllHave(rows, "Patient_ID")
    ensures KeyedByPatient(LoadRows(rows).store)
  {
    var st := LoadRows(rows).store;
    LoadKeys(rows);
    forall k | k in st.data
      ensures st.data[k].Rec? && "Patient_ID" in st.data[k].fields && st.data[k].fields["Patient_ID"] == k
    {
      var i :| 0 <= i < |rows| && rows[i]["Patient_ID"] == k;
      var j := LastIndexOf(rows, i);
      LoadLastWins(rows, j);
    }
  }

  /** The last row with the same `Patient_ID` as row `i`. */
  function LastIndexOf(rows: seq<Record>, i: int): (j: int)
    requires 0 <= i < |rows| && AllHave(rows, "Patient_ID")
    ensures i <= j < |rows| && rows[j]["Patient_ID"] == rows[i]["Patient_ID"] && LastOfItsId(rows, j)
    decreases |rows| - i
  {
    if LastOfItsId(rows, i) then i
    else
      var k :| i < k < |rows| && rows[k]["Patient_ID"] == rows[i]["Patient_ID"];
      LastIndexOf(rows, k)
  }

  /** Loading a file where several rows share a `Patient_ID` keeps one record
      per patient: `get_all_visits` then has one element per distinct ID. */
  lemma OneRecordPerPatient(rows: seq<Record>)
    requires AllHave(rows, "Patient_ID")
    ensures |GetAllVisits(LoadRows(rows).store)| == |set i | 0 <= i < |rows| :: rows[i]["Patient_ID"]|
  {
    LoadKeys(rows);
  }

  /** Round trip: saving a store whose records all have the same columns and
      are filed under their own `Patient_ID`, then loading the file, gives
      the same store back. */
  lemma SaveThenLoad(st: Store)
    requires Valid(st) && KeyedByPatient(st) && |st.order| > 0
    requires forall k :: k in st.data ==> st.data[k].fields.Keys == st.data[st.order[0]].fields.Keys
    ensures Load(SaveData(st)) == Loaded(st)
  {
    var n := |st.order|;
    assert forall k :: k in st.data ==> st.data[k].Rec?;
    assert forall i :: 0 <= i < n ==> st.order[i] in st.data && st.data[st.order[i]].Rec?;
    var rows := Values(st, n);
    SaveWritesEveryRecord(st);
    assert SaveData(st).Table? && SaveData(st).rows == rows;
    assert Load(SaveData(st)) == LoadRows(rows);
    LoadPrefix(st, n);
    PrefixStoreAll(st);
    assert LoadRows(rows) == Loaded(st);
  }

  /** The prefix store of all keys is the store itself. */
  lemma PrefixStoreAll(st: Store)
    requires Valid(st)
    ensures PrefixStore(st, |st.order|) == st
  {
    var p := PrefixStore(st, |st.order|);
    assert st.order[..|st.order|] == st.order;
    forall k ensures k in p.data <==> k in st.data {
    }
    assert p.data == st.data;
  }

  /** The store restricted to its first `n` keys. */
  function PrefixStore(st: Store, n: nat): (p: Store)
    requires Valid(st) && n <= |st.order|
    ensures p.order == st.order[..n]
    ensures forall k :: k in p.data <==> k in st.order[..n]
    ensures forall k :: k in p.data ==> p.data[k] == st.data[k]
  {
    Store(st.order[..n], map k | k in st.order[..n] :: st.data[k])
  }

  /** Loading the first `n` records of a keyed store rebuilds the store
      restricted to its first `n` keys. */
  lemma {:induction false} LoadPrefix(st: Store, n: nat)
    requires Valid(st) && KeyedByPatient(st) && n <= |st.order|
    ensures LoadRows(Values(st, n)) == Loaded(PrefixStore(st, n))
    decreases n
  {
    if n == 0 {
      assert PrefixStore(st, 0).data == map[];
    } else {
      LoadPrefix(st, n - 1);
      LoadPrefixStep(st, n);
    }
  }

  /** Loading one more record of a keyed store files it under its own key. */
  lemma LoadPrefixStep(st: Store, n: nat)
    requires Valid(st) && KeyedByPatient(st) && 0 < n <= |st.order|
    requires LoadRows(Values(st, n - 1)) == Loaded(PrefixStore(st, n - 1))
    ensures LoadRows(Values(st, n)) == Loaded(PrefixStore(st, n))
  {
    var rows := Values(st, n);
    var k := st.order[n - 1];
    var prev := PrefixStore(st, n - 1);
    assert rows[..n - 1] == Values(st, n - 1);
    assert Rec(rows[n - 1]) == st.data[k] && rows[n - 1]["Patient_ID"] == k;
    PrefixStoreStep(st, n);
    assert Put(prev, k, Rec(rows[n - 1])) == PrefixStore(st, n);
    assert |rows| == n && "Patient_ID" in rows[n - 1];
    assert LoadRows(rows[..n - 1]) == Loaded(prev);
  }

  /** The prefix store grows by one `d[k] = v` per key. */
  lemma PrefixStoreStep(st: Store, n: nat)
    requires Valid(st) && 0 < n <= |st.order|
    ensures st.order[n - 1] !in PrefixStore(st, n - 1).data
    ensures PrefixStore(st, n) == Put(PrefixStore(st, n - 1), st.order[n - 1], st.data[st.order[n - 1]])
  {
    var k := st.order[n - 1];
    var prev := PrefixStore(st, n - 1);
    var want := PrefixStore(st, n);
    var next := Put(prev, k, st.data[k]);
    assert k !in prev.data;
    assert next.order == want.order;
    PrefixMembers(st.order, n);
    assert next.data.Keys == want.data.Keys;
    assert next.data == want.data;
  }

  lemma PrefixMembers(s: seq<string>, n: nat)
    requires 0 < n <= |s|
    ensures forall j :: j in s[..n] <==> j in s[..n - 1] || j == s[n - 1]
  {
    assert s[..n] == s[..n - 1] + [s[n - 1]];
  }
}

=== FILE: hospital_interface.dfy ===
/** `HospitalApp`: the session it keeps (user name, role, which screen is
    up) and the buttons `show_role_actions` offers each role. */
module HospitalInterface {
  import opened Common
  import UserAuth
  import HospitalDatabase

  /** The screens the main window shows: the login form, the role menu, or
      the empty window `show_role_actions` leaves when loading the patient
      file raises after the window was cleared. */
  datatype Screen = LoginScreen | MenuScreen | ClearedScreen

  /** `self.username`, `self.user_role` and the screen on display. */
  datatype Session = Session(username: Option<string>, role: Option<string>, screen: Screen)

  /** The state after `__init__`. */
  const Start: Session := Session(None, None, LoginScreen)

  /** The login screen never carries a role, and the menu and the cleared
      window always carry a non-empty one. */
  predicate Consistent(s: Session)
  {
    (s.screen == LoginScreen ==> s.role == None)
    && (s.screen != LoginScreen ==> s.role.Some? && s.role.value != "")
  }

  /** `handle_login`: a `KeyError` in `login` aborts before anything is
      recorded; otherwise the user name is always recorded. A non-empty role
      is recorded and `show_role_actions` clears the window; it then loads
      `patients` (the file at `data_path`), and the menu appears only when
      that load does not raise, the cleared window staying up otherwise. */
  function HandleLogin(s: Session, creds: seq<Record>, patients: CsvFile, username: string, password: string): (r: Session)
    ensures UserAuth.Login(creds, username, password).MissingColumn? ==> r == s
    ensures !UserAuth.Login(creds, username, password).MissingColumn? ==> r.username == Some(username)
    ensures s.screen == LoginScreen ==>
              (r.screen == MenuScreen <==>
                 (exists role :: role != "" && UserAuth.Login(creds, username, password) == UserAuth.Role(role))
                 && HospitalDatabase.Load(patients).Loaded?)
    ensures s.screen == LoginScreen ==>
              (r.screen == ClearedScreen <==>
                 (exists role :: role != "" && UserAuth.Login(creds, username, password) == UserAuth.Role(role))
                 && HospitalDatabase.Load(patients).MissingPatientId?)
    ensures r.screen != LoginScreen && s.screen == LoginScreen ==>
              r.role.Some? && UserAuth.Login(creds, username, password) == UserAuth.Role(r.role.value)
  {
    match UserAuth.Login(creds, username, password)
    case MissingColumn => s
    case NoMatch => s.(username := Some(username))
    case Role(role) =>
      if role == "" then s.(username := Some(username))
      else if HospitalDatabase.Load(patients).MissingPatientId? then Session(Some(username), Some(role), ClearedScreen)
      else Session(Some(username), Some(role), MenuScreen)
  }

  /** `logout`: both the user name and the role are cleared and the login
      screen comes back. */
  function Logout(s: Session): (r: Session)
    ensures r == Start
  {
    Session(None, None, LoginScreen)
  }

  /** A failed login, or one that yields an empty role, stays on the login
      screen without a role, while the typed user name is kept. */
  lemma FailedLoginStaysOut(s: Session, creds: seq<Record>, patients: CsvFile, username: string, password: string)
    requires Consistent(s) && s.screen == LoginScreen
    requires UserAuth.Login(creds, username, password) == UserAuth.NoMatch
             || UserAuth.Login(creds, username, password) == UserAuth.Role("")
    ensures HandleLogin(s, creds, patients, username, password) == Session(Some(username), None, LoginScreen)
  {
  }

  /** Logging in and out keeps the session consistent. */
  lemma SessionStaysConsistent(s: Session, creds: seq<Record>, patients: CsvFile, username: string, password: string)
    requires Consistent(s)
    ensures Consistent(HandleLogin(s, creds, patients, username, password))
    ensures Consistent(Logout(s))
  {
  }

  /** The buttons of the role menu. */
  datatype Button =
    | HospitalStatistics
    | UserActionsLog
    | CountVisits
    | RetrievePatient
    | AddVisit
    | RemovePatient
    | ViewNotes
    | LogoutButton

  /** `show_role_actions`: the buttons in the order they are packed. */
  function Menu(role: string): (buttons: seq<Button>)
    ensures |buttons| > 0 && buttons[|buttons| - 1] == LogoutButton
    ensures forall i :: 0 <= i < |buttons| - 1 ==> buttons[i] != LogoutButton
  {
    (if role == "management" then [HospitalStatistics, UserActionsLog] else [])
    + (if role == "admin" then [CountVisits] else [])
    + (if role == "clinician" || role == "nurse"
       then [RetrievePatient, AddVisit, RemovePatient, ViewNotes, CountVisits] else [])
    + [LogoutButton]
  }

  /** The `check_permission` mode a button exercises, if any. */
  function ModeOf(b: Button): Option<string>
  {
    match b
    case CountVisits => Some("count")
    case RetrievePatient => Some("retrieve")
    case AddVisit => Some("add")
    case RemovePatient => Some("remove")
    case ViewNotes => Some("view")
    case _ => None
  }

  /** For the roles of the permission table, the menu offers a button for
      exactly the modes the role is permitted, and nothing else but
      Logout. */
  lemma MenuMatchesPermissions(role: string)
    requires role in {"admin", "clinician", "nurse"}
    ensures forall b :: b in Menu(role) && b != LogoutButton ==>
              ModeOf(b).Some? && UserAuth.CheckPermission(role, ModeOf(b).value)
    ensures forall mode :: UserAuth.CheckPermission(role, mode) ==>
              exists b :: b in Menu(role) && ModeOf(b) == Some(mode)
  {
    if role == "admin" {
      assert Menu(role) == [CountVisits, LogoutButton];
      forall mode | UserAuth.CheckPermission(role, mode)
        ensures exists b :: b in Menu(role) && ModeOf(b) == Some(mode)
      {
        UserAuth.AdminOnlyCounts(mode);
        assert ModeOf(CountVisits) == Some(mode);
      }
    } else {
      var m := Menu(role);
      assert m == [RetrievePatient, AddVisit, RemovePatient, ViewNotes, CountVisits, LogoutButton];
      forall mode | UserAuth.CheckPermission(role, mode)
        ensures exists b :: b in m && ModeOf(b) == Some(mode)
      {
        UserAuth.ClinicianIsNurse(mode);
        if mode == "retrieve" {
          assert ModeOf(m[0]) == Some(mode);
        } else if mode == "add" {
          assert ModeOf(m[1]) == Some(mode);
        } else if mode == "remove" {
          assert ModeOf(m[2]) == Some(mode);
        } else if mode == "view" {
          assert ModeOf(m[3]) == Some(mode);
        } else {
          assert ModeOf(m[4]) == Some(mode);
        }
      }
    }
  }

  /** The management menu offers the statistics and the action log, which
      the permission table knows nothing about; any other role outside the
      table gets only Logout. */
  lemma MenusOutsideTheTable(role: string)
    requires role !in {"admin", "clinician", "nurse"}
    ensures role == "management" ==> Menu(role) == [HospitalStatistics, UserActionsLog, LogoutButton]
    ensures role != "management" ==> Menu(role) == [LogoutButton]
    ensures forall mode :: !UserAuth.CheckPermission(role, mode)
  {
  }
}

=== FILE: patient_add.dfy ===
/** `PatientAdd`: the add-visit dialog. The patient ID entry, the answers to
    the yes/no dialogs, the texts typed into the form and the numbers drawn by
    `random.randint` are inputs; the visit list held in memory and the notes
    file are what it changes. */
module PatientAdd {
  import opened Common
  import opened Text
  import opened Dates

  /** A value a Python set of IDs can hold: the text read from a CSV cell, or
      an integer such as the one `random.randint` returns. The two are never
      equal, whatever the digits. */
  datatype PyValue = PyStr(text: string) | PyInt(number: int)

  /** The numbers `random.randint(100000, 999999)` can return. */
  type SixDigit = n: int | 100000 <= n <= 999999 witness 100000

  // ---------------------------------------------------------------------
  // handle_patient_id

  /** What pressing "Submit" on the patient ID entry leads to. */
  datatype Start =
    | StartCrashed                          // a `KeyError` or `ValueError` escaped
    | Existing(id: string, latest: Record)  // known patient; form prefilled from `latest`
    | CreateNew(id: string)                 // unknown patient, and the user chose to create it
    | Abandoned                             // unknown patient, and the user declined

  /** `{record["Patient_ID"] for record in db}`; `None` is the `KeyError`. */
  function PatientIds(db: seq<Record>): (r: Option<set<string>>)
    ensures r.Some? <==> AllHave(db, "Patient_ID")
    ensures r.Some? ==> forall id :: id in r.value <==> exists i :: 0 <= i < |db| && db[i]["Patient_ID"] == id
  {
    if AllHave(db, "Patient_ID") then Some(set i | 0 <= i < |db| :: db[i]["Patient_ID"]) else None
  }

  /** The sort key `datetime.strptime(x["Visit_time"], "%m/%d/%Y")`; `None`
      is the `KeyError` of a missing column or the `ValueError` of any other
      layout (the text is not stripped). */
  function SortKey(r: Record): Option<Date>
  {
    if "Visit_time" in r then ParseMdy(r["Visit_time"]) else None
  }

  /** The sort keys of all rows, computed before any comparison; `None` when
      one of them fails. */
  function SortKeys(rows: seq<Record>): (r: Option<seq<Date>>)
    ensures r.Some? <==> forall i :: 0 <= i < |rows| ==> SortKey(rows[i]).Some?
    ensures r.Some? ==> |r.value| == |rows| && forall i :: 0 <= i < |rows| ==> Some(r.value[i]) == SortKey(rows[i])
    decreases |rows|
  {
    if |rows| == 0 then Some([])
    else
      var k := SortKey(rows[0]);
      var rest := SortKeys(rows[1..]);
      if k.None? || rest.None? then
        assert rest.None? ==> exists i :: 1 <= i < |rows| && SortKey(rows[i]).None? by {
          if rest.None? {
            var j :| 0 <= j < |rows[1..]| && SortKey(rows[1..][j]).None?;
            assert rows[1..][j] == rows[j + 1];
          }
        }
        None
      else
        assert forall i :: 1 <= i < |rows| ==> rows[i] == rows[1..][i - 1];
        Some([k.value] + rest.value)
  }

  /** The first element after a stable sort with `reverse=True`: the
      position of a latest date, and among equal dates the earliest
      position. */
  function FirstLatest(keys: seq<Date>): (i: nat)
    requires |keys| > 0
    ensures i < |keys|
    ensures forall j :: 0 <= j < |keys| ==> !Before(keys[i], keys[j])
    ensures forall j :: 0 <= j < i ==> Before(keys[j], keys[i])
    decreases |keys|
  {
    if |keys| == 1 then 0
    else
      var n := |keys| - 1;
      var i := FirstLatest(keys[..n]);
      assert forall j :: 0 <= j < n ==> keys[..n][j] == keys[j];
      if Before(keys[i], keys[n]) then
        assert forall j :: 0 <= j < n ==> Before(keys[j], keys[n]) by {
          forall j | 0 <= j < n ensures Before(keys[j], keys[n]) {
            BeforeIsStrictTotalOrder(keys[j], keys[i], keys[n]);
          }
        }
        n
      else
        i
  }

  /** Only one position is latest and first among its equals, so the
      position `FirstLatest` picks is the one the stable sort puts first. */
  lemma FirstLatestIsUnique(keys: seq<Date>, k: nat)
    requires |keys| > 0 && k < |keys|
    requires forall j :: 0 <= j < |keys| ==> !Before(keys[k], keys[j])
    requires forall j :: 0 <= j < k ==> Before(keys[j], keys[k])
    ensures k == FirstLatest(keys)
  {
    var i := FirstLatest(keys);
    BeforeIsStrictTotalOrder(keys[i], keys[k], keys[i]);
  }

  /** The rows of `db` whose `Patient_ID` is `id`, in order. */
  function VisitsOf(db: seq<Record>, id: string): (r: seq<Record>)
    requires AllHave(db, "Patient_ID")
    ensures forall i :: 0 <= i < |r| ==> r[i] in db && r[i]["Patient_ID"] == id
    ensures (exists i :: 0 <= i < |db| && db[i]["Patient_ID"] == id) ==> |r| > 0
    ensures r == Filter(db, BelongsTo(id))
    decreases |db|
  {
    if |db| == 0 then []
    else
      var rest := VisitsOf(db[1..], id);
      if db[0]["Patient_ID"] == id then [db[0]] + rest
      else
        assert forall i :: 1 <= i < |db| ==> db[i] == db[1..][i - 1];
        rest
  }

  /** `v` sits at a position of `db` before which every visit of patient
      `id` has a strictly earlier date: among visits with equal dates, it is
      the first. */
  predicate FirstOfLatest(db: seq<Record>, id: string, v: Record)
  {
    SortKey(v).Some?
    && exists k :: 0 <= k < |db| && db[k] == v
         && forall j :: 0 <= j < k && Lookup(db[j], "Patient_ID") == Some(id) ==>
              SortKey(db[j]).Some? && Before(SortKey(db[j]).value, SortKey(v).value)
  }

  /** Some row of `db` carries `Patient_ID` `id`. */
  predicate HasPatient(db: seq<Record>, id: string)
    requires AllHave(db, "Patient_ID")
  {
    exists i :: 0 <= i < |db| && db[i]["Patient_ID"] == id
  }

  /** `handle_patient_id`: the entry is stripped; a known patient's form is
      prefilled from their latest visit, an unknown patient leads to the
      "create a new patient?" question, answered by `proceed`. */
  function HandlePatientId(entry: string, db: seq<Record>, proceed: bool): (r: Start)
    ensures !AllHave(db, "Patient_ID") ==> r == StartCrashed
    ensures r.Existing? ==>
              AllHave(db, "Patient_ID") && r.id == Strip(entry) && r.latest in db && r.latest["Patient_ID"] == r.id
              && SortKey(r.latest).Some?
              && forall v :: v in db && v["Patient_ID"] == r.id ==>
                   SortKey(v).Some? && !Before(SortKey(r.latest).value, SortKey(v).value)
    ensures r.Existing? ==> FirstOfLatest(db, r.id, r.latest)
    ensures r.CreateNew? || r == Abandoned <==>
              AllHave(db, "Patient_ID") && (forall i :: 0 <= i < |db| ==> db[i]["Patient_ID"] != Strip(entry))
              && (r.CreateNew? ==> proceed && r.id == Strip(entry))
    ensures r == Abandoned ==> !proceed
    ensures r.Existing? <==>
              AllHave(db, "Patient_ID") && HasPatient(db, Strip(entry))
              && SortKeys(VisitsOf(db, Strip(entry))).Some?
    ensures r == StartCrashed <==>
              !AllHave(db, "Patient_ID")
              || (HasPatient(db, Strip(entry)) && SortKeys(VisitsOf(db, Strip(entry))).None?)
  {
    var id := Strip(entry);
    match PatientIds(db)
    case None => StartCrashed
    case Some(ids) =>
      if id in ids then
        var visits := VisitsOf(db, id);
        match SortKeys(visits)
        case None => StartCrashed
        case Some(keys) =>
          var i := FirstLatest(keys);
          LatestVisit(db, id, keys);
          LatestVisitIsFirst(db, id, keys);
          Existing(id, visits[i])
      else if proceed then CreateNew(id)
      else Abandoned
  }

  /** The visit `FirstLatest` picks is a visit of the patient with a date no
      other visit of the patient passes. */
  lemma LatestVisit(db: seq<Record>, id: string, keys: seq<Date>)
    requires AllHave(db, "Patient_ID")
    requires |VisitsOf(db, id)| > 0 && SortKeys(VisitsOf(db, id)) == Some(keys)
    ensures var v := VisitsOf(db, id)[FirstLatest(keys)];
            v in db && v["Patient_ID"] == id && SortKey(v).Some?
            && forall u :: u in db && u["Patient_ID"] == id ==>
                 SortKey(u).Some? && !Before(SortKey(v).value, SortKey(u).value)
  {
    var visits := VisitsOf(db, id);
    var i := FirstLatest(keys);
    forall u | u in db && u["Patient_ID"] == id
      ensures SortKey(u).Some? && !Before(SortKey(visits[i]).value, SortKey(u).value)
    {
      var j :| 0 <= j < |db| && db[j] == u;
      VisitsOfKeepsRow(db, id, j);
      var h :| 0 <= h < |visits| && visits[h] == u;
      assert Some(keys[h]) == SortKey(u);
    }
  }

  /** The visit `FirstLatest` picks is the first, in `db`, of the patient's
      visits with the latest date. */
  lemma LatestVisitIsFirst(db: seq<Record>, id: string, keys: seq<Date>)
    requires AllHave(db, "Patient_ID")
    requires |VisitsOf(db, id)| > 0 && SortKeys(VisitsOf(db, id)) == Some(keys)
    ensures FirstOfLatest(db, id, VisitsOf(db, id)[FirstLatest(keys)])
  {
    var visits := VisitsOf(db, id);
    var i := FirstLatest(keys);
    var k := FilterOrigin(db, BelongsTo(id), i);
    assert db[k] == visits[i] && Some(keys[i]) == SortKey(db[k]);
    forall j | 0 <= j < k && Lookup(db[j], "Patient_ID") == Some(id)
      ensures SortKey(db[j]).Some? && Before(SortKey(db[j]).value, SortKey(db[k]).value)
    {
      assert BelongsTo(id)(db[j]);
      var h :| 0 <= h < i && visits[h] == db[j];
      assert Some(keys[h]) == SortKey(db[j]);
    }
  }

  /** Every row of the patient is among the patient's visits. */
  lemma {:induction false} VisitsOfKeepsRow(db: seq<Record>, id: string, j: int)
    requires AllHave(db, "Patient_ID") && 0 <= j < |db| && db[j]["Patient_ID"] == id
    ensures db[j] in VisitsOf(db, id)
    decreases |db|
  {
    if j > 0 {
      assert db[1..][j - 1] == db[j];
      VisitsOfKeepsRow(db[1..], id, j - 1);
    }
  }

  /** The fields `create_ui_elements` prefills from the latest visit. */
  const PrefilledFields: seq<string> := ["Race", "Gender", "Ethnicity", "Age"]

  /** The initial text of the Race, Gender, Ethnicity and Age entries: the
      latest visit's value, or "" for a new patient or a missing column. */
  function Prefill(start: Start): (p: map<string, string>)
    ensures p.Keys == set f | f in PrefilledFields
    ensures start.Existing? ==> forall f :: f in p ==> p[f] == GetOr(start.latest, f, "")
    ensures !start.Existing? ==> forall f :: f in p ==> p[f] == ""
  {
    var latest := if start.Existing? then start.latest else map[];
    map f | f in PrefilledFields :: GetOr(latest, f, "")
  }

  // ---------------------------------------------------------------------
  // generate_unique_visit_id / generate_unique_note_id

  /** `{row[column] for row in rows}`; `None` is the `KeyError`. */
  function ExistingIds(rows: seq<Record>, column: string): (r: Option<set<PyValue>>)
    ensures r.Some? <==> AllHave(rows, column)
    ensures r.Some? ==> forall v :: v in r.value ==> v.PyStr?
    ensures r.Some? ==> forall i :: 0 <= i < |rows| ==> PyStr(rows[i][column]) in r.value
    ensures r.Some? ==> forall v :: v in r.value ==> exists i :: 0 <= i < |rows| && v == PyStr(rows[i][column])
  {
    if AllHave(rows, column) then Some(set i | 0 <= i < |rows| :: PyStr(rows[i][column])) else None
  }

  /** The retry loop: the first draw that is not in `existing`; `None` when
      every draw given is taken (the loop would go on drawing). */
  function FirstFresh(existing: set<PyValue>, draws: seq<SixDigit>): (r: Option<SixDigit>)
    ensures r.Some? ==> PyInt(r.value) !in existing
    ensures r.Some? ==> exists i :: 0 <= i < |draws| && draws[i] == r.value
                         && forall j :: 0 <= j < i ==> PyInt(draws[j]) in existing
    ensures r.None? <==> forall i :: 0 <= i < |draws| ==> PyInt(draws[i]) in existing
    decreases |draws|
  {
    if |draws| == 0 then None
    else if PyInt(draws[0]) !in existing then Some(draws[0])
    else
      var rest := FirstFresh(existing, draws[1..]);
      assert forall i :: 1 <= i < |draws| ==> draws[i] == draws[1..][i - 1];
      if rest.Some? then
        var i :| 0 <= i < |draws[1..]| && draws[1..][i] == rest.value
                 && forall j :: 0 <= j < i ==> PyInt(draws[1..][j]) in existing;
        assert draws[i + 1] == rest.value;
        rest
      else rest
  }

  /** `generate_unique_visit_id` or `generate_unique_note_id`, given the
      numbers drawn: the first one not among the column's values, or `None`
      when the loop would go on drawing. Reading the column needs it in every
      row (otherwise `KeyError`). */
  function UniqueId(rows: seq<Record>, column: string, draws: seq<SixDigit>): Option<SixDigit>
    requires AllHave(rows, column)
  {
    FirstFresh(ExistingIds(rows, column).value, draws)
  }

  /** The IDs read from a CSV file are text, so the first draw is always
      accepted, whatever IDs the file holds. */
  lemma TextIdsNeverReject(existing: set<PyValue>, draws: seq<SixDigit>)
    requires forall v :: v in existing ==> v.PyStr?
    requires |draws| > 0
    ensures FirstFresh(existing, draws) == Some(draws[0])
  {
    assert PyInt(draws[0]) !in existing;
  }

  /** A drawn number may repeat an ID already stored: with a stored
      `Visit_ID` of "123456" and a draw of 123456, the draw is accepted and
      the new visit gets the same ID text. */
  lemma DuplicateIdAccepted()
    ensures FirstFresh({PyStr("123456")}, [123456]) == Some(123456)
    ensures NatToString(123456) == "123456"
  {
    TextIdsNeverReject({PyStr("123456")}, [123456]);
  }

  // ---------------------------------------------------------------------
  // add_visit and save_note_to_file

  /** The texts of the form's entries when "Add Visit" is pressed. */
  datatype Form = Form(
    department: string, visitDate: string, race: string, gender: string,
    ethnicity: string, age: string, zipCode: string, insurance: string,
    complaint: string, noteType: string, noteText: string)

  /** The columns of the note file written by `save_note_to_file`. */
  const NoteColumns: set<string> := {"Entry_ID", "Patient_ID", "Visit_ID", "Note_ID", "Note"}

  /** The note row appended by `save_note_to_file`. */
  function NoteEntry(entryId: nat, patientId: string, visitId: int, noteId: int, text: string): (e: Record)
    ensures e.Keys == NoteColumns
    ensures e["Entry_ID"] == NatToString(entryId) && e["Patient_ID"] == patientId
    ensures e["Visit_ID"] == IntToString(visitId) && e["Note_ID"] == IntToString(noteId)
    ensures e["Note"] == text
  {
    map["Entry_ID" := NatToString(entryId), "Patient_ID" := patientId,
        "Visit_ID" := IntToString(visitId), "Note_ID" := IntToString(noteId), "Note" := text]
  }

  /** `save_note_to_file`: the note file is read back from disk (a missing
      file counts as no notes), the new note is numbered one past the notes
      read, and the file is rewritten, header first, with the new note's
      columns as its header. An older note with any other column raises
      `ValueError` when its turn to be written comes. */
  function SaveNote(file: CsvFile, patientId: string, visitId: int, noteId: int, text: string): (w: Written)
    ensures w.file.Table? && w.file.columns == NoteColumns
    ensures var existing := if file.Table? then file.rows else [];
            w.completed <==> forall i :: 0 <= i < |existing| ==> Fits(existing[i], NoteColumns)
    ensures var existing := if file.Table? then file.rows else [];
            w.completed ==>
              |w.file.rows| == |existing| + 1
              && (forall i :: 0 <= i < |existing| ==> w.file.rows[i] == Fill(existing[i], NoteColumns))
              && w.file.rows[|existing|] == NoteEntry(|existing| + 1, patientId, visitId, noteId, text)
  {
    var existing := match ReadRows(file) case None => [] case Some(rows) => rows;
    var entry := NoteEntry(|existing| + 1, patientId, visitId, noteId, text);
    WriteAppend(NoteColumns, existing, entry);
    WriteTable(NoteColumns, existing + [entry])
  }

  /** How "Add Visit" ends. */
  datatype Outcome =
    | NotConfirmed    // the user answered "no"; nothing happens
    | InvalidDate     // "Invalid date format. Please enter date as YYYY-MM-DD."
    | InvalidPatient  // "The Patient ID does not exist."
    | NoFreshId       // every number drawn was already taken
    | Crashed         // an uncaught `KeyError` or `ValueError`
    | Added           // "The visit has been successfully added."

  /** The outcome, the visit list held in memory, and the note file on disk
      (`None` when it was not rewritten). The visit file is never written. */
  datatype Result = Result(outcome: Outcome, db: seq<Record>, notesFile: Option<CsvFile>)

  /** The form with every entry stripped, as `add_visit` reads it. */
  function StripForm(f: Form): Form
  {
    Form(Strip(f.department), Strip(f.visitDate), Strip(f.race), Strip(f.gender),
         Strip(f.ethnicity), Strip(f.age), Strip(f.zipCode), Strip(f.insurance),
         Strip(f.complaint), Strip(f.noteType), Strip(f.noteText))
  }

  /** The columns of a visit row added by the dialog. */
  const VisitColumns: set<string> :=
    {"Patient_ID", "Visit_ID", "Visit_time", "Visit_department", "Race", "Gender", "Ethnicity",
     "Age", "Zip_code", "Insurance", "Chief_complaint", "Note_ID", "Note_type"}

  /** The visit row appended to the list: the patient, the two drawn IDs,
      the visit date and the form's entries. The note text is not part of
      it. */
  function VisitRow(patientId: string, visitId: int, visitTime: string, f: Form, noteId: int): (v: Record)
    ensures v.Keys == VisitColumns
    ensures v["Patient_ID"] == patientId
    ensures v["Visit_ID"] == IntToString(visitId)
    ensures v["Visit_time"] == visitTime
    ensures v["Note_ID"] == IntToString(noteId)
  {
    map["Patient_ID" := patientId, "Visit_ID" := IntToString(visitId), "Visit_time" := visitTime,
        "Visit_department" := f.department, "Race" := f.race, "Gender" := f.gender,
        "Ethnicity" := f.ethnicity, "Age" := f.age, "Zip_code" := f.zipCode,
        "Insurance" := f.insurance, "Chief_complaint" := f.complaint,
        "Note_ID" := IntToString(noteId), "Note_type" := f.noteType]
  }

  /** Every entry of the form but the note text lands in its own column of
      the visit row; the note text is left out. */
  lemma VisitRowCarriesForm(patientId: string, visitId: int, visitTime: string, f: Form, noteId: int)
    ensures var v := VisitRow(patientId, visitId, visitTime, f, noteId);
            "Note" !in v && "Note_text" !in v
    ensures var v := VisitRow(patientId, visitId, visitTime, f, noteId);
            v["Visit_department"] == f.department && v["Race"] == f.race && v["Gender"] == f.gender
            && v["Ethnicity"] == f.ethnicity && v["Age"] == f.age && v["Zip_code"] == f.zipCode
            && v["Insurance"] == f.insurance && v["Chief_complaint"] == f.complaint
            && v["Note_type"] == f.noteType
  {
  }

  /** The patient has a visit in the list, and every row has a
      `Patient_ID`. */
  predicate Known(db: seq<Record>, patientId: string)
  {
    AllHave(db, "Patient_ID") && exists i :: 0 <= i < |db| && db[i]["Patient_ID"] == patientId
  }

  /** Both ID loops end: the visits and the notes carry their ID columns, and
      some draw is free in each. */
  predicate IdsDrawn(db: seq<Record>, notesDb: seq<Record>, visitDraws: seq<SixDigit>, noteDraws: seq<SixDigit>)
  {
    AllHave(db, "Visit_ID") && AllHave(notesDb, "Note_ID")
    && UniqueId(db, "Visit_ID", visitDraws).Some? && UniqueId(notesDb, "Note_ID", noteDraws).Some?
  }

  /** An ID loop never ends: every visit draw is taken, or a visit ID was
      found and every note draw is taken. */
  predicate RunsOutOfIds(db: seq<Record>, notesDb: seq<Record>, visitDraws: seq<SixDigit>, noteDraws: seq<SixDigit>)
  {
    AllHave(db, "Visit_ID")
    && (UniqueId(db, "Visit_ID", visitDraws).None?
        || (AllHave(notesDb, "Note_ID") && UniqueId(notesDb, "Note_ID", noteDraws).None?))
  }

  /** The note file written once both IDs are drawn. */
  function NoteWrite(patientId: string, db: seq<Record>, notesDb: seq<Record>, notesFile: CsvFile,
                     visitDraws: seq<SixDigit>, noteDraws: seq<SixDigit>, text: string): Written
    requires IdsDrawn(db, notesDb, visitDraws, noteDraws)
  {
    SaveNote(notesFile, patientId, UniqueId(db, "Visit_ID", visitDraws).value,
             UniqueId(notesDb, "Note_ID", noteDraws).value, text)
  }

  /** `add_visit`, in the order the source runs its checks: confirmation,
      then the date (`%Y-%m-%d` on the stripped text), then the rest. */
  function AddVisit(patientId: string, f: Form, confirm: bool, db: seq<Record>, notesDb: seq<Record>,
                    notesFile: CsvFile, visitDraws: seq<SixDigit>, noteDraws: seq<SixDigit>): (r: Result)
    ensures !confirm ==> r == Result(NotConfirmed, db, None)
    ensures r.outcome == InvalidDate <==> confirm && ParseYmd(Strip(f.visitDate)).None?
    ensures r.outcome == InvalidPatient <==>
              confirm && ParseYmd(Strip(f.visitDate)).Some? && AllHave(db, "Patient_ID")
              && forall i :: 0 <= i < |db| ==> db[i]["Patient_ID"] != patientId
    ensures r.outcome !in {Added, Crashed} ==> r.db == db && r.notesFile == None
    ensures r.outcome == Added ==>
              confirm && ParseYmd(Strip(f.visitDate)).Some?
              && AddedRow(db, r.db, patientId, FormatMdy(ParseYmd(Strip(f.visitDate)).value))
              && r.notesFile.Some? && r.notesFile.value.Table? && r.notesFile.value.columns == NoteColumns
    ensures r.outcome == NoFreshId <==>
              confirm && ParseYmd(Strip(f.visitDate)).Some?
              && Known(db, patientId) && RunsOutOfIds(db, notesDb, visitDraws, noteDraws)
    ensures r.outcome == Added <==>
              confirm && ParseYmd(Strip(f.visitDate)).Some?
              && Known(db, patientId) && IdsDrawn(db, notesDb, visitDraws, noteDraws)
              && NoteWrite(patientId, db, notesDb, notesFile, visitDraws, noteDraws, Strip(f.noteText)).completed
    ensures r.outcome == Crashed <==>
              confirm && ParseYmd(Strip(f.visitDate)).Some?
              && (!AllHave(db, "Patient_ID")
                  || (Known(db, patientId) && !RunsOutOfIds(db, notesDb, visitDraws, noteDraws)
                      && !(IdsDrawn(db, notesDb, visitDraws, noteDraws)
                           && NoteWrite(patientId, db, notesDb, notesFile, visitDraws, noteDraws, Strip(f.noteText)).completed)))
    ensures r.outcome == Added ==>
              var visitId := UniqueId(db, "Visit_ID", visitDraws).value;
              var noteId := UniqueId(notesDb, "Note_ID", noteDraws).value;
              var visitTime := FormatMdy(ParseYmd(Strip(f.visitDate)).value);
              r.db == db + [VisitRow(patientId, visitId, visitTime, StripForm(f), noteId)]
              && r.notesFile == Some(NoteWrite(patientId, db, notesDb, notesFile, visitDraws, noteDraws, Strip(f.noteText)).file)
  {
    if !confirm then Result(NotConfirmed, db, None)
    else
      match ParseYmd(Strip(f.visitDate))
      case None => Result(InvalidDate, db, None)
      case Some(day) => AddOnDay(patientId, FormatMdy(day), StripForm(f), db, notesDb, notesFile, visitDraws, noteDraws)
  }

  /** `after` is `before` with one visit of the patient on `visitTime`
      appended at the end, and the patient already had a visit. */
  predicate AddedRow(before: seq<Record>, after: seq<Record>, patientId: string, visitTime: string)
  {
    (exists i :: 0 <= i < |before| && "Patient_ID" in before[i] && before[i]["Patient_ID"] == patientId)
    && |after| == |before| + 1 && after[..|before|] == before
    && "Patient_ID" in after[|before|] && after[|before|]["Patient_ID"] == patientId
    && "Visit_time" in after[|before|] && after[|before|]["Visit_time"] == visitTime
  }

  /** `add_visit` once the date is known: the patient must already be in the
      list; then a fresh `Visit_ID` is drawn against the list and a fresh
      `Note_ID` against the notes held in memory; the row is appended and the
      note file rewritten. */
  function AddOnDay(patientId: string, visitTime: string, f: Form, db: seq<Record>, notesDb: seq<Record>,
                    notesFile: CsvFile, visitDraws: seq<SixDigit>, noteDraws: seq<SixDigit>): (r: Result)
    ensures r.outcome in {InvalidPatient, NoFreshId, Crashed, Added}
    ensures r.outcome == InvalidPatient <==>
              AllHave(db, "Patient_ID") && forall i :: 0 <= i < |db| ==> db[i]["Patient_ID"] != patientId
    ensures !AllHave(db, "Patient_ID") ==> r == Result(Crashed, db, None)
    ensures r.outcome !in {Added, Crashed} ==> r.db == db && r.notesFile == None
    ensures r.outcome == Added ==>
              AddedRow(db, r.db, patientId, visitTime)
              && r.notesFile.Some? && r.notesFile.value.Table? && r.notesFile.value.columns == NoteColumns
    ensures r.outcome == NoFreshId <==>
              Known(db, patientId) && RunsOutOfIds(db, notesDb, visitDraws, noteDraws)
    ensures r.outcome == Added <==>
              Known(db, patientId) && IdsDrawn(db, notesDb, visitDraws, noteDraws)
              && NoteWrite(patientId, db, notesDb, notesFile, visitDraws, noteDraws, f.noteText).completed
    ensures r.outcome == Crashed <==>
              !AllHave(db, "Patient_ID")
              || (Known(db, patientId) && !RunsOutOfIds(db, notesDb, visitDraws, noteDraws)
                  && !(IdsDrawn(db, notesDb, visitDraws, noteDraws)
                       && NoteWrite(patientId, db, notesDb, notesFile, visitDraws, noteDraws, f.noteText).completed))
    ensures Known(db, patientId) && IdsDrawn(db, notesDb, visitDraws, noteDraws) ==>
              var visitId := UniqueId(db, "Visit_ID", visitDraws).value;
              var noteId := UniqueId(notesDb, "Note_ID", noteDraws).value;
              PyInt(visitId) !in ExistingIds(db, "Visit_ID").value
              && PyInt(noteId) !in ExistingIds(notesDb, "Note_ID").value
              && r.db == db + [VisitRow(patientId, visitId, visitTime, f, noteId)]
              && r.notesFile == Some(NoteWrite(patientId, db, notesDb, notesFile, visitDraws, noteDraws, f.noteText).file)
    ensures !(Known(db, patientId) && IdsDrawn(db, notesDb, visitDraws, noteDraws)) ==> r.db == db && r.notesFile == None
  {
    match PatientIds(db)
    case None => Result(Crashed, db, None)
    case Some(ids) =>
      assert patientId in ids <==> Known(db, patientId);
      if patientId !in ids then Result(InvalidPatient, db, None)
      else if !AllHave(db, "Visit_ID") then Result(Crashed, db, None)
      else
        match UniqueId(db, "Visit_ID", visitDraws)
        case None => Result(NoFreshId, db, None)
        case Some(visitId) =>
          if !AllHave(notesDb, "Note_ID") then Result(Crashed, db, None)
          else
            match UniqueId(notesDb, "Note_ID", noteDraws)
            case None => Result(NoFreshId, db, None)
            case Some(noteId) =>
              var r := AppendVisit(patientId, visitId, visitTime, f, noteId, db, notesFile);
              assert r.db[..|db|] == db;
              r
  }

  /** The last step of `add_visit`: the row goes to the end of the list and
      the note file is rewritten with the new note. */
  function AppendVisit(patientId: string, visitId: SixDigit, visitTime: string, f: Form, noteId: SixDigit,
                       db: seq<Record>, notesFile: CsvFile): (r: Result)
    requires exists i :: 0 <= i < |db| && "Patient_ID" in db[i] && db[i]["Patient_ID"] == patientId
    ensures r.outcome in {Added, Crashed}
    ensures AddedRow(db, r.db, patientId, visitTime)
    ensures r.db[|db|] == VisitRow(patientId, visitId, visitTime, f, noteId)
    ensures r.notesFile == Some(SaveNote(notesFile, patientId, visitId, noteId, f.noteText).file)
    ensures r.outcome == Added <==> SaveNote(notesFile, patientId, visitId, noteId, f.noteText).completed
  {
    var row := VisitRow(patientId, visitId, visitTime, f, noteId);
    var db' := db + [row];
    assert db'[..|db|] == db && db'[|db|] == row;
    var w := SaveNote(notesFile, patientId, visitId, noteId, f.noteText);
    Result(if w.completed then Added else Crashed, db', Some(w.file))
  }

  /** A patient unknown to the list can be "created" at the first step, but
      `add_visit` then rejects the same ID: no visit is ever added for it. */
  lemma NewPatientCannotBeAdded(entry: string, f: Form, confirm: bool, db: seq<Record>, notesDb: seq<Record>,
                                notesFile: CsvFile, visitDraws: seq<SixDigit>, noteDraws: seq<SixDigit>)
    requires HandlePatientId(entry, db, true).CreateNew?
    ensures var id := HandlePatientId(entry, db, true).id;
            AddVisit(id, f, confirm, db, notesDb, notesFile, visitDraws, noteDraws).outcome
              in {NotConfirmed, InvalidDate, InvalidPatient}
  {
  }

  /** The new note's text is stored under `Note`, while the note viewer
      reads `Note_text`: read back, the text is "". */
  lemma NewNoteTextReadsEmpty(entryId: nat, patientId: string, visitId: int, noteId: int, text: string)
    ensures GetOr(NoteEntry(entryId, patientId, visitId, noteId, text), "Note_text", "") == ""
    ensures GetOr(NoteEntry(entryId, patientId, visitId, noteId, text), "Note", "") == text
  {
  }

  /** A note file whose rows carry `Note_text` (the column the note viewer
      reads) loses all its notes: the rewrite stops at the first row, leaving
      only the header. */
  lemma ShippedNotesAreWiped(rows: seq<Record>, patientId: string, visitId: int, noteId: int, text: string)
    requires |rows| > 0 && "Note_text" in rows[0]
    ensures var w := SaveNote(Table(rows[0].Keys, rows), patientId, visitId, noteId, text);
            !w.completed && w.file == Table(NoteColumns, [])
  {
    var w := SaveNote(Table(rows[0].Keys, rows), patientId, visitId, noteId, text);
    var all := rows + [NoteEntry(|rows| + 1, patientId, visitId, noteId, text)];
    assert all[0] == rows[0];
    assert !Fits(all[0], NoteColumns);
  }

  /** Numbering: the new note's `Entry_ID` is one more than the number of
      notes in the file, and 1 when there is no file. */
  lemma EntryNumbering(file: CsvFile, patientId: string, visitId: int, noteId: int, text: string)
    requires file.Table? ==> forall i :: 0 <= i < |file.rows| ==> Fits(file.rows[i], NoteColumns)
    ensures var w := SaveNote(file, patientId, visitId, noteId, text);
            var n := if file.Table? then |file.rows| else 0;
            w.completed && |w.file.rows| == n + 1 && w.file.rows[n]["Entry_ID"] == NatToString(n + 1)
    ensures file == Absent ==> SaveNote(file, patientId, visitId, noteId, text).file.rows[0]["Entry_ID"] == "1"
  {
  }
}

=== FILE: patient_removal.dfy ===
/** `PatientRemoval`: delete every visit and every note of one patient and
    rewrite both CSV files. The entry text and the answer to the confirmation
    dialog are inputs. */
module PatientRemoval {
  import opened Common
  import opened Text

  /** The two lists the dialog holds, `self.patient_data` and
      `self.notes_data`. They are values: rebinding them never changes the
      caller's lists. */
  datatype Lists = Lists(visits: seq<Record>, notes: seq<Record>)

  /** How `remove_patient` ends. `Crashed` is an uncaught `KeyError` (a row
      without `Patient_ID`) or `ValueError` (a row with a column outside the
      header) that aborts the button callback. */
  datatype Outcome = BlankId | NotFound | Cancelled | Crashed | Removed

  /** The outcome, the lists afterwards, and what each save left on disk
      (`None` when that file was not opened). */
  datatype Result = Result(outcome: Outcome, lists: Lists, visitFile: Option<CsvFile>, notesFile: Option<CsvFile>)

  /** `any(record['Patient_ID'] == id for record in rows)`: stops at the first
      match; `None` is the `KeyError` of a row without `Patient_ID` met
      before any match. */
  function AnyMatch(rows: seq<Record>, id: string): (r: Option<bool>)
    ensures r == Some(false) <==>
              AllHave(rows, "Patient_ID") && forall i :: 0 <= i < |rows| ==> rows[i]["Patient_ID"] != id
    ensures r == Some(true) <==>
              exists i :: 0 <= i < |rows| && AllHave(rows[..i + 1], "Patient_ID") && rows[i]["Patient_ID"] == id
    decreases |rows|
  {
    if |rows| == 0 then Some(false)
    else if "Patient_ID" !in rows[0] then
      assert forall j :: 1 <= j <= |rows| ==> rows[..j][0] == rows[0];
      None
    else if rows[0]["Patient_ID"] == id then
      assert rows[..1] == [rows[0]];
      Some(true)
    else
      var rest := AnyMatch(rows[1..], id);
      assert forall j :: 1 <= j < |rows| ==> rows[1..][..j] == rows[..j + 1][1..];
      assert forall i :: 0 < i < |rows| ==> rows[1..][i - 1] == rows[i];
      rest
  }

  /** The rows whose `Patient_ID` is not `id`, in their original order. */
  function Without(rows: seq<Record>, id: string): (r: seq<Record>)
    requires AllHave(rows, "Patient_ID")
    ensures |r| <= |rows|
    ensures AllHave(r, "Patient_ID")
    ensures forall i :: 0 <= i < |r| ==> r[i]["Patient_ID"] != id && r[i] in rows
    decreases |rows|
  {
    if |rows| == 0 then []
    else
      var rest := Without(rows[1..], id);
      if rows[0]["Patient_ID"] == id then rest else [rows[0]] + rest
  }

  /** Filtering splits over concatenation: every row is kept or dropped on
      its own, and the kept rows stay in order. */
  lemma {:induction false} WithoutAppend(a: seq<Record>, b: seq<Record>, id: string)
    requires AllHave(a, "Patient_ID") && AllHave(b, "Patient_ID")
    ensures AllHave(a + b, "Patient_ID")
    ensures Without(a + b, id) == Without(a, id) + Without(b, id)
    decreases |a|
  {
    if |a| == 0 {
      assert a + b == b;
    } else {
      assert (a + b)[1..] == a[1..] + b;
      WithoutAppend(a[1..], b, id);
    }
  }

  /** A single row is dropped exactly when it belongs to the patient. */
  lemma WithoutSingle(x: Record, id: string)
    requires "Patient_ID" in x
    ensures x["Patient_ID"] == id ==> Without([x], id) == []
    ensures x["Patient_ID"] != id ==> Without([x], id) == [x]
  {
    assert [x][1..] == [];
  }

  /** A list holding no row of the patient is left as it is. */
  lemma {:induction false} WithoutKeepsOthers(rows: seq<Record>, id: string)
    requires AllHave(rows, "Patient_ID")
    requires forall i :: 0 <= i < |rows| ==> rows[i]["Patient_ID"] != id
    ensures Without(rows, id) == rows
    decreases |rows|
  {
    if |rows| > 0 {
      WithoutKeepsOthers(rows[1..], id);
    }
  }

  /** Removing twice removes nothing more. */
  lemma WithoutIdempotent(rows: seq<Record>, id: string)
    requires AllHave(rows, "Patient_ID")
    ensures Without(Without(rows, id), id) == Without(rows, id)
  {
    WithoutKeepsOthers(Without(rows, id), id);
  }

  /** The number of rows of the patient. */
  function CountOf(rows: seq<Record>, id: string): nat
    requires AllHave(rows, "Patient_ID")
    decreases |rows|
  {
    if |rows| == 0 then 0
    else (if rows[0]["Patient_ID"] == id then 1 else 0) + CountOf(rows[1..], id)
  }

  /** Exactly the patient's rows go: the kept rows and the patient's rows
      together are all the rows. */
  lemma {:induction false} WithoutPartition(rows: seq<Record>, id: string)
    requires AllHave(rows, "Patient_ID")
    ensures |Without(rows, id)| + CountOf(rows, id) == |rows|
    decreases |rows|
  {
    if |rows| > 0 {
      WithoutPartition(rows[1..], id);
    }
  }

  /** A row of another patient is kept. */
  lemma {:induction false} WithoutKeepsRow(rows: seq<Record>, id: string, i: int)
    requires AllHave(rows, "Patient_ID") && 0 <= i < |rows| && rows[i]["Patient_ID"] != id
    ensures rows[i] in Without(rows, id)
    decreases |rows|
  {
    if i > 0 {
      WithoutKeepsRow(rows[1..], id, i - 1);
    }
  }

  /** `[r for r in rows if r['Patient_ID'] != id]`; `None` is the `KeyError`
      of a row without `Patient_ID`. */
  function FilterOut(rows: seq<Record>, id: string): (r: Option<seq<Record>>)
    ensures r.Some? <==> AllHave(rows, "Patient_ID")
    ensures r.Some? ==> r.value == Without(rows, id)
  {
    if AllHave(rows, "Patient_ID") then Some(Without(rows, id)) else None
  }

  /** `save_to_file`: an empty list truncates the file and writes no header;
      otherwise the header is the first row's columns and every row follows.
      A row with a column outside the header raises `ValueError`, which is
      not among the exceptions caught, so `completed` is false. */
  function SaveToFile(data: seq<Record>): (w: Written)
    ensures |data| == 0 ==> w == Written(Empty, true)
    ensures |data| > 0 ==> w.file.Table? && w.file.columns == data[0].Keys
    ensures w.completed <==> forall i :: 0 <= i < |data| ==> data[i].Keys <= data[0].Keys
    ensures |data| > 0 ==>
              |w.file.rows| <= |data|
              && forall i :: 0 <= i < |w.file.rows| ==> w.file.rows[i] == Fill(data[i], data[0].Keys)
    ensures |data| > 0 && w.completed ==> |w.file.rows| == |data|
    ensures !w.completed ==>
              |data| > 0 && |w.file.rows| < |data| && !(data[|w.file.rows|].Keys <= data[0].Keys)
  {
    if |data| == 0 then Written(Empty, true)
    else WriteTable(data[0].Keys, data)
  }

  /** Rows that all have the first row's columns are written in full and
      read back unchanged. */
  lemma SaveWritesAllRows(data: seq<Record>)
    requires |data| > 0 && forall i :: 0 <= i < |data| ==> data[i].Keys == data[0].Keys
    ensures SaveToFile(data).completed
    ensures SaveToFile(data).file == Table(data[0].Keys, data)
  {
    WriteThenRead(data[0].Keys, data);
  }

  /** `remove_patient`, step by step: strip and check the entry; look for a
      visit of the patient; ask for confirmation; filter the visits, then the
      notes (each rebinding its list as soon as it is computed); save the
      visits, then the notes. */
  function RemovePatient(lists: Lists, entry: string, confirm: bool): (r: Result)
    ensures Strip(entry) == "" ==> r == Result(BlankId, lists, None, None)
    ensures r.outcome == BlankId <==> Strip(entry) == ""
    ensures r.outcome in {BlankId, NotFound, Cancelled} ==> r.lists == lists && r.visitFile == None && r.notesFile == None
    ensures r.outcome == NotFound <==>
              Strip(entry) != "" && AllHave(lists.visits, "Patient_ID")
              && forall i :: 0 <= i < |lists.visits| ==> lists.visits[i]["Patient_ID"] != Strip(entry)
    ensures r.outcome == Cancelled <==> Strip(entry) != "" && AnyMatch(lists.visits, Strip(entry)) == Some(true) && !confirm
    ensures r.outcome == Removed ==>
              confirm && AnyMatch(lists.visits, Strip(entry)) == Some(true)
              && AllHave(lists.visits, "Patient_ID") && AllHave(lists.notes, "Patient_ID")
              && r.lists == Lists(Without(lists.visits, Strip(entry)), Without(lists.notes, Strip(entry)))
              && r.visitFile == Some(SaveToFile(r.lists.visits).file)
              && r.notesFile == Some(SaveToFile(r.lists.notes).file)
    ensures r.outcome == Removed <==>
              Strip(entry) != "" && confirm && AnyMatch(lists.visits, Strip(entry)) == Some(true)
              && AllHave(lists.visits, "Patient_ID") && AllHave(lists.notes, "Patient_ID")
              && SaveToFile(Without(lists.visits, Strip(entry))).completed
              && SaveToFile(Without(lists.notes, Strip(entry))).completed
    ensures r.outcome == Crashed <==>
              Strip(entry) != ""
              && (AnyMatch(lists.visits, Strip(entry)) == None
                  || (AnyMatch(lists.visits, Strip(entry)) == Some(true) && confirm
                      && !(AllHave(lists.visits, "Patient_ID") && AllHave(lists.notes, "Patient_ID")
                           && SaveToFile(Without(lists.visits, Strip(entry))).completed
                           && SaveToFile(Without(lists.notes, Strip(entry))).completed)))
  {
    var id := Strip(entry);
    if id == "" then Result(BlankId, lists, None, None)
    else
      match AnyMatch(lists.visits, id)
      case None => Result(Crashed, lists, None, None)
      case Some(found) =>
        if !found then Result(NotFound, lists, None, None)
        else if !confirm then Result(Cancelled, lists, None, None)
        else
          match FilterOut(lists.visits, id)
          case None => Result(Crashed, lists, None, None)
          case Some(visits) =>
            var afterVisits := Lists(visits, lists.notes);
            match FilterOut(lists.notes, id)
            case None => Result(Crashed, afterVisits, None, None)
            case Some(notes) =>
              var after := Lists(visits, notes);
              var vw := SaveToFile(visits);
              if !vw.completed then Result(Crashed, after, Some(vw.file), None)
              else
                var nw := SaveToFile(notes);
                Result(if nw.completed then Removed else Crashed, after, Some(vw.file), Some(nw.file))
  }

  /** After a removal no visit and no note of the patient is left, and every
      visit of another patient is still there. */
  lemma RemovedLeavesNoTrace(lists: Lists, entry: string, confirm: bool)
    requires RemovePatient(lists, entry, confirm).outcome == Removed
    ensures var r := RemovePatient(lists, entry, confirm);
            (forall i :: 0 <= i < |r.lists.visits| ==> r.lists.visits[i]["Patient_ID"] != Strip(entry))
            && (forall i :: 0 <= i < |r.lists.notes| ==> r.lists.notes[i]["Patient_ID"] != Strip(entry))
            && (forall i :: 0 <= i < |lists.visits| && lists.visits[i]["Patient_ID"] != Strip(entry) ==>
                  lists.visits[i] in r.lists.visits)
  {
    forall i | 0 <= i < |lists.visits| && lists.visits[i]["Patient_ID"] != Strip(entry)
      ensures lists.visits[i] in RemovePatient(lists, entry, confirm).lists.visits
    {
      WithoutKeepsRow(lists.visits, Strip(entry), i);
    }
  }

  /** When a removal crashes after the visits were filtered (a note row
      without `Patient_ID`, or a row the writer rejects), the dialog stays
      open holding the filtered visits, so pressing the button again with the
      same entry reports that no such patient exists. */
  lemma RetryAfterCrashFindsNothing(lists: Lists, entry: string, again: bool)
    requires RemovePatient(lists, entry, true).outcome == Crashed
    requires AllHave(lists.visits, "Patient_ID")
    ensures var r := RemovePatient(lists, entry, true);
            r.lists.visits == Without(lists.visits, Strip(entry))
            && RemovePatient(r.lists, entry, again).outcome == NotFound
  {
  }

  /** A note row without `Patient_ID` is met only after the visits were
      filtered: the dialog then holds the filtered visits with the old notes,
      and neither file is written. */
  lemma NotesKeyErrorKeepsFilteredVisits(lists: Lists, entry: string)
    requires Strip(entry) != ""
    requires AllHave(lists.visits, "Patient_ID") && !AllHave(lists.notes, "Patient_ID")
    requires exists i :: 0 <= i < |lists.visits| && lists.visits[i]["Patient_ID"] == Strip(entry)
    ensures RemovePatient(lists, entry, true) ==
              Result(Crashed, Lists(Without(lists.visits, Strip(entry)), lists.notes), None, None)
  {
    var id := Strip(entry);
    var i :| 0 <= i < |lists.visits| && lists.visits[i]["Patient_ID"] == id;
    assert AllHave(lists.visits[..i + 1], "Patient_ID");
  }
}

=== FILE: retrieve_patient.dfy ===
/** `RetrievePatient`: list the visits of one patient, let the user pick
    one, and show the fields the user ticks. The prompt answer and the
    list-box selections are inputs; the outcome is what the dialogs would
    show. */
module RetrievePatient {
  import opened Common
  import opened Text
  import HospitalDatabase

  /** `__init__`: every value must be a dictionary; `None` is the
      `TypeError` it raises otherwise. */
  function Construct(db: seq<Entry>): (r: Option<seq<Record>>)
    ensures r.Some? <==> forall i :: 0 <= i < |db| ==> db[i].Rec?
    ensures r.Some? ==> |r.value| == |db| && forall i :: 0 <= i < |db| ==> Rec(r.value[i]) == db[i]
  {
    if forall i :: 0 <= i < |db| ==> db[i].Rec?
    then Some(seq(|db|, i requires 0 <= i < |db| => db[i].fields))
    else None
  }

  /** How `execute` ends before a visit is picked. */
  datatype Outcome =
    | NoInput                                        // cancelled or empty prompt
    | NotFound                                       // "Patient ID ... not found."
    | Listed(visits: seq<Record>, summaries: seq<string>)

  /** An optional cell inside an f-string: `None` prints as "None". */
  function Shown(cell: Option<string>): string
  {
    match cell
    case None => "None"
    case Some(t) => t
  }

  /** The list-box line for the visit at position `i` (numbered from 1). */
  function Summary(i: nat, v: Record): string
  {
    NatToString(i + 1) + ". " + Details(v)
  }

  /** The part of a list-box line after its number. */
  function Details(v: Record): string
  {
    "ID: " + Shown(Lookup(v, "Visit_ID"))
    + ", Time: " + Shown(Lookup(v, "Visit_time"))
    + ", Dept: " + Shown(Lookup(v, "Visit_department"))
  }

  /** `execute` up to the visit list: the patient ID is used as typed and
      compared with `Patient_ID` as text. */
  function Execute(answer: Option<string>, db: seq<Record>): (o: Outcome)
    ensures o == NoInput <==> answer == None || answer == Some("")
    ensures o == NotFound <==> o != NoInput && Filter(db, BelongsTo(answer.value)) == []
    ensures o.Listed? ==>
              o.visits == Filter(db, BelongsTo(answer.value)) && |o.visits| > 0
              && |o.summaries| == |o.visits|
              && forall i :: 0 <= i < |o.visits| ==> o.summaries[i] == Summary(i, o.visits[i])
  {
    if answer == None || answer == Some("") then NoInput
    else
      var visits := Filter(db, BelongsTo(answer.value));
      if |visits| == 0 then NotFound
      else Listed(visits, seq(|visits|, i requires 0 <= i < |visits| => Summary(i, visits[i])))
  }

  /** `on_select_visit`: nothing selected gives the "No Selection" warning;
      otherwise the first selected row is the visit. The list box only
      yields indices of its own rows. */
  function SelectVisit(visits: seq<Record>, selection: seq<nat>): (r: Option<Record>)
    requires forall k :: 0 <= k < |selection| ==> selection[k] < |visits|
    ensures r.None? <==> selection == []
    ensures r.Some? ==> r.value in visits
  {
    if |selection| == 0 then None else Some(visits[selection[0]])
  }

  /** The visit picked from the list is a row of the file and belongs to
      the patient whose ID was typed. */
  lemma SelectedVisitBelongs(answer: Option<string>, db: seq<Record>, selection: seq<nat>)
    requires Execute(answer, db).Listed?
    requires |selection| > 0
    requires forall k :: 0 <= k < |selection| ==> selection[k] < |Execute(answer, db).visits|
    ensures var v := SelectVisit(Execute(answer, db).visits, selection).value;
            v in db && Lookup(v, "Patient_ID") == answer
  {
  }

  /** The digits a line starts with. */
  function LeadingDigits(s: string): (r: string)
    ensures AllDigits(r) && |r| <= |s| && r == s[..|r|]
    decreases |s|
  {
    if |s| == 0 || !IsDigit(s[0]) then "" else [s[0]] + LeadingDigits(s[1..])
  }

  lemma {:induction false} LeadingDigitsStopAt(a: string, c: char, rest: string)
    requires AllDigits(a) && !IsDigit(c)
    ensures LeadingDigits(a + [c] + rest) == a
    decreases |a|
  {
    if |a| > 0 {
      assert (a + [c] + rest)[1..] == a[1..] + [c] + rest;
      LeadingDigitsStopAt(a[1..], c, rest);
    } else {
      assert a + [c] + rest == [c] + rest;
    }
  }

  /** The number a summary line starts with is the visit's position plus
      one. */
  lemma SummaryNumber(i: nat, v: Record)
    ensures LeadingDigits(Summary(i, v)) == NatToString(i + 1)
    ensures DigitsValue(LeadingDigits(Summary(i, v))) == i + 1
  {
    var n := NatToString(i + 1);
    var rest := " " + Details(v);
    assert Summary(i, v) == n + ['.'] + rest;
    LeadingDigitsStopAt(n, '.', rest);
    DigitsValueOfNatToString(i + 1);
  }

  /** Summary lines at two different positions are different, whatever the
      two visits hold. */
  lemma SummariesDistinct(i: nat, j: nat, v: Record, w: Record)
    requires i != j
    ensures Summary(i, v) != Summary(j, w)
  {
    SummaryNumber(i, v);
    SummaryNumber(j, w);
  }

  /** The fields offered by `show_fields`, in list-box order. */
  const Fields: seq<string> :=
    ["Gender", "Race", "Age", "Ethnicity", "Insurance", "Zip_code",
     "Chief_complaint", "Note_ID", "Note_type"]

  /** `field.replace("_", " ")`. */
  function Label(f: string): string
  {
    ReplaceChar(f, '_', ' ')
  }

  /** A label never shows an underscore, and keeps every other character
      of the column name in place. */
  lemma LabelReadable(f: string)
    ensures |Label(f)| == |f|
    ensures forall k :: 0 <= k < |f| ==> Label(f)[k] != '_'
    ensures forall k :: 0 <= k < |f| && f[k] != '_' ==> Label(f)[k] == f[k]
  {
  }

  /** One line of the details box: the label and the cell, "N/A" when the
      visit has no such column. */
  function FieldLine(visit: Record, f: string): string
  {
    Label(f) + ": " + GetOr(visit, f, "N/A")
  }

  /** The lines for the ticked rows, in the order the list box reports
      them. */
  function FieldLines(visit: Record, selected: seq<nat>): (lines: seq<string>)
    requires forall k :: 0 <= k < |selected| ==> selected[k] < |Fields|
    ensures |lines| == |selected|
    ensures forall k :: 0 <= k < |selected| ==> lines[k] == FieldLine(visit, Fields[selected[k]])
  {
    seq(|selected|, k requires 0 <= k < |selected| => FieldLine(visit, Fields[selected[k]]))
  }

  /** `display_selected_fields`: nothing ticked gives the "No Fields
      Selected" message (`None`); otherwise the lines joined by newlines. */
  function ShowFields(visit: Record, selected: seq<nat>): (r: Option<string>)
    requires forall k :: 0 <= k < |selected| ==> selected[k] < |Fields|
    ensures r.None? <==> selected == []
    ensures r.Some? ==> r.value == Join(FieldLines(visit, selected), "\n")
  {
    if |selected| == 0 then None else Some(Join(FieldLines(visit, selected), "\n"))
  }

  /** No column name offered holds a newline. */
  lemma FieldsHaveNoNewline()
    ensures forall i, k :: 0 <= i < |Fields| && 0 <= k < |Fields[i]| ==> Fields[i][k] != '\n'
  {
    forall i, k | 0 <= i < |Fields| && 0 <= k < |Fields[i]|
      ensures Fields[i][k] != '\n'
    {
      var f := Fields[i];
      assert f == "Gender" || f == "Race" || f == "Age" || f == "Ethnicity" || f == "Insurance"
             || f == "Zip_code" || f == "Chief_complaint" || f == "Note_ID" || f == "Note_type";
    }
  }

  /** When the shown cells hold no newline, the details box has exactly one
      line per ticked field. */
  lemma ShowFieldsOneLineEach(visit: Record, selected: seq<nat>)
    requires |selected| > 0
    requires forall k :: 0 <= k < |selected| ==> selected[k] < |Fields|
    requires forall c :: c in visit.Values ==> forall k :: 0 <= k < |c| ==> c[k] != '\n'
    ensures Occurrences(ShowFields(visit, selected).value, '\n') == |selected| - 1
  {
    var lines := FieldLines(visit, selected);
    FieldsHaveNoNewline();
    forall i | 0 <= i < |lines|
      ensures forall k :: 0 <= k < |lines[i]| ==> lines[i][k] != '\n'
    {
      FieldLineHasNoNewline(visit, Fields[selected[i]]);
    }
    JoinLineCount(lines);
  }

  /** The line of a field holds no newline when neither the field name nor
      the visit's cells hold one. */
  lemma FieldLineHasNoNewline(visit: Record, f: string)
    requires forall k :: 0 <= k < |f| ==> f[k] != '\n'
    requires forall c :: c in visit.Values ==> forall k :: 0 <= k < |c| ==> c[k] != '\n'
    ensures forall k :: 0 <= k < |FieldLine(visit, f)| ==> FieldLine(visit, f)[k] != '\n'
  {
    var lab := Label(f);
    var cell := GetOr(visit, f, "N/A");
    LabelReadable(f);
    if f in visit {
      assert cell in visit.Values;
    }
    var line := FieldLine(visit, f);
    assert line == lab + ": " + cell;
    forall k | 0 <= k < |line| ensures line[k] != '\n' {
      if k >= |lab| + 2 {
        assert line[k] == cell[k - |lab| - 2];
      }
    }
  }

  /** Two rows with distinct `Patient_ID`s never both belong to one
      patient. */
  lemma {:induction false} DistinctIdsListAtMostOne(xs: seq<Record>, patientId: string)
    requires AllHave(xs, "Patient_ID")
    requires forall i, j :: 0 <= i < j < |xs| ==> xs[i]["Patient_ID"] != xs[j]["Patient_ID"]
    ensures |Filter(xs, BelongsTo(patientId))| <= 1
    decreases |xs|
  {
    if |xs| > 0 {
      var rest := xs[1..];
      DistinctIdsListAtMostOne(rest, patientId);
      if BelongsTo(patientId)(xs[0]) {
        forall k | 0 <= k < |rest| ensures !BelongsTo(patientId)(rest[k]) {
          assert rest[k] == xs[k + 1];
        }
        FilterNone(rest, BelongsTo(patientId));
      }
    }
  }

  /** The list handed to the dialog is `get_all_visits()` of a loaded
      store: it passes the type check, and since the store keeps one record
      per patient, no patient ever has more than one visit to pick from. */
  lemma LoadedStoreListsOneVisit(rows: seq<Record>, patientId: string)
    requires AllHave(rows, "Patient_ID")
    ensures var st := HospitalDatabase.LoadRows(rows).store;
            var db := Construct(HospitalDatabase.GetAllVisits(st));
            db.Some? && |Filter(db.value, BelongsTo(patientId))| <= 1
  {
    var st := HospitalDatabase.LoadRows(rows).store;
    HospitalDatabase.LoadIsKeyedByPatient(rows);
    var values := HospitalDatabase.GetAllVisits(st);
    assert forall i :: 0 <= i < |values| ==> values[i].Rec? by {
      forall i | 0 <= i < |values| ensures values[i].Rec? {
        assert st.order[i] in st.data;
      }
    }
    var db := Construct(values).value;
    forall i | 0 <= i < |db|
      ensures "Patient_ID" in db[i] && db[i]["Patient_ID"] == st.order[i]
    {
      assert st.order[i] in st.data;
      assert Rec(db[i]) == st.data[st.order[i]];
    }
    DistinctIdsListAtMostOne(db, patientId);
  }
}

=== FILE: text.dfy ===
/** The string operations the application relies on: `str.strip()`, decimal
    digits and `str(int)`, `str.replace` of one character, and `"\n".join`. */
module Text {

  /** The characters for which Python's `str.isspace()` holds; `str.strip()`
      removes them and the regular-expression class `\s` matches them. */
  predicate IsSpace(c: char)
  {
    c == ' ' || ('\t' <= c <= '\r') || ('\U{1C}' <= c <= '\U{1F}')
    || c == '\U{85}' || c == '\U{A0}' || c == '\U{1680}'
    || ('\U{2000}' <= c <= '\U{200A}') || c == '\U{2028}' || c == '\U{2029}'
    || c == '\U{202F}' || c == '\U{205F}' || c == '\U{3000}'
  }

  /** Number of leading whitespace characters of `s`. */
  function LeadingSpaces(s: string): (n: nat)
    ensures n <= |s|
    ensures forall k :: 0 <= k < n ==> IsSpace(s[k])
    ensures n < |s| ==> !IsSpace(s[n])
    decreases |s|
  {
    if |s| == 0 || !IsSpace(s[0]) then 0
    else
      var n := LeadingSpaces(s[1..]);
      assert forall k :: 1 <= k < n + 1 ==> s[k] == s[1..][k - 1];
      n + 1
  }

  /** Length of `s` once its trailing whitespace is removed. */
  function TrailingEnd(s: string): (e: nat)
    ensures e <= |s|
    ensures forall k :: e <= k < |s| ==> IsSpace(s[k])
    ensures e > 0 ==> !IsSpace(s[e - 1])
    decreases |s|
  {
    if |s| == 0 || !IsSpace(s[|s| - 1]) then |s|
    else TrailingEnd(s[..|s| - 1])
  }

  /** `s.strip()`: `s` without its leading and trailing whitespace. */
  function Strip(s: string): (r: string)
    ensures |r| <= |s|
    ensures |r| > 0 ==> !IsSpace(r[0]) && !IsSpace(r[|r| - 1])
    ensures (forall k :: 0 <= k < |s| ==> IsSpace(s[k])) <==> r == []
    ensures forall k :: 0 <= k < |r| ==> r[k] in s
    ensures exists b, e :: 0 <= b <= e <= |s| && r == s[b..e]
              && (forall k :: 0 <= k < b ==> IsSpace(s[k]))
              && (forall k :: e <= k < |s| ==> IsSpace(s[k]))
  {
    var e := TrailingEnd(s);
    var b := LeadingSpaces(s[..e]);
    assert forall k :: 0 <= k < e ==> s[..e][k] == s[k];
    var r := s[b..e];
    assert forall k :: 0 <= k < |r| ==> r[k] == s[b + k];
    assert r == [] ==> b == e;
    r
  }

  /** Stripping twice removes nothing more. */
  lemma StripIdempotent(s: string)
    ensures Strip(Strip(s)) == Strip(s)
  {
    var r := Strip(s);
    StripKeepsUnpadded(r);
  }

  /** A string without leading or trailing whitespace is its own strip. */
  lemma StripKeepsUnpadded(s: string)
    requires |s| > 0 ==> !IsSpace(s[0]) && !IsSpace(s[|s| - 1])
    ensures Strip(s) == s
  {
    if |s| > 0 {
      assert TrailingEnd(s) == |s|;
      assert s[..|s|] == s;
      assert LeadingSpaces(s) == 0;
    }
  }

  predicate IsDigit(c: char)
  {
    '0' <= c <= '9'
  }

  predicate AllDigits(s: string)
  {
    forall k :: 0 <= k < |s| ==> IsDigit(s[k])
  }

  function DigitValue(c: char): (d: nat)
    requires IsDigit(c)
    ensures d < 10
  {
    c as int - '0' as int
  }

  function DigitChar(d: nat): (c: char)
    requires d < 10
    ensures IsDigit(c) && DigitValue(c) == d
  {
    ('0' as int + d) as char
  }

  /** `str(n)` for a natural number: decimal digits, no leading zero. */
  function NatToString(n: nat): (s: string)
    ensures |s| >= 1 && AllDigits(s)
    ensures s[0] == '0' ==> n == 0
    decreases n
  {
    if n < 10 then [DigitChar(n)]
    else NatToString(n / 10) + [DigitChar(n % 10)]
  }

  /** `int(s)` for a string of decimal digits. */
  function DigitsValue(s: string): nat
    requires AllDigits(s)
    decreases |s|
  {
    if |s| == 0 then 0
    else DigitsValue(s[..|s| - 1]) * 10 + DigitValue(s[|s| - 1])
  }

  /** Reading back the digits `str(n)` wrote gives `n`. */
  lemma {:induction false} DigitsValueOfNatToString(n: nat)
    ensures DigitsValue(NatToString(n)) == n
    decreases n
  {
    if n >= 10 {
      var s := NatToString(n);
      assert s[..|s| - 1] == NatToString(n / 10);
      DigitsValueOfNatToString(n / 10);
    }
  }

  /** `str(n)` is injective, so distinct numbers never share a decimal text. */
  lemma NatToStringInjective(m: nat, n: nat)
    requires NatToString(m) == NatToString(n)
    ensures m == n
  {
    DigitsValueOfNatToString(m);
    DigitsValueOfNatToString(n);
  }

  /** The width of `str(n)` for the one-, two- and four-digit ranges the
      date formats use. */
  lemma NatToStringWidth(n: nat)
    ensures 1 <= n < 10 ==> |NatToString(n)| == 1
    ensures 10 <= n < 100 ==> |NatToString(n)| == 2
    ensures 1000 <= n < 10000 ==> |NatToString(n)| == 4
  {
    if 1000 <= n < 10000 {
      assert NatToString(n) == NatToString(n / 10) + [DigitChar(n % 10)];
      assert NatToString(n / 10) == NatToString(n / 100) + [DigitChar((n / 10) % 10)];
      assert NatToString(n / 100) == NatToString(n / 1000) + [DigitChar((n / 100) % 10)];
    }
  }

  /** `str(i)` for any Python integer. */
  function IntToString(i: int): (s: string)
    ensures i >= 0 ==> s == NatToString(i)
    ensures i < 0 ==> |s| >= 2 && s[0] == '-' && s[1..] == NatToString(-i)
  {
    if i < 0 then "-" + NatToString(-i) else NatToString(i)
  }

  /** `s.replace(from, to)` for single characters. */
  function ReplaceChar(s: string, from: char, to: char): (r: string)
    ensures |r| == |s|
    ensures forall k :: 0 <= k < |s| ==> r[k] == (if s[k] == from then to else s[k])
    decreases |s|
  {
    if |s| == 0 then []
    else [if s[0] == from then to else s[0]] + ReplaceChar(s[1..], from, to)
  }

  /** `sep.join(lines)`. */
  function Join(lines: seq<string>, sep: string): string
    decreases |lines|
  {
    if |lines| == 0 then ""
    else if |lines| == 1 then lines[0]
    else lines[0] + sep + Join(lines[1..], sep)
  }

  /** `s.count(c)` for one character. */
  function Occurrences(s: string, c: char): nat
    decreases |s|
  {
    if |s| == 0 then 0 else (if s[0] == c then 1 else 0) + Occurrences(s[1..], c)
  }

  lemma {:induction false} OccurrencesAppend(a: string, b: string, c: char)
    ensures Occurrences(a + b, c) == Occurrences(a, c) + Occurrences(b, c)
    decreases |a|
  {
    if |a| == 0 {
      assert a + b == b;
    } else {
      assert (a + b)[1..] == a[1..] + b;
      OccurrencesAppend(a[1..], b, c);
    }
  }

  lemma {:induction false} NoOccurrences(s: string, c: char)
    requires forall k :: 0 <= k < |s| ==> s[k] != c
    ensures Occurrences(s, c) == 0
    decreases |s|
  {
    if |s| > 0 {
      NoOccurrences(s[1..], c);
    }
  }

  /** Joining lines that hold no newline with "\n" gives one newline fewer
      than there are lines: each line stays a line of its own. */
  lemma {:induction false} JoinLineCount(lines: seq<string>)
    requires |lines| > 0
    requires forall i, k :: 0 <= i < |lines| && 0 <= k < |lines[i]| ==> lines[i][k] != '\n'
    ensures Occurrences(Join(lines, "\n"), '\n') == |lines| - 1
    decreases |lines|
  {
    NoOccurrences(lines[0], '\n');
    if |lines| > 1 {
      JoinLineCount(lines[1..]);
      OccurrencesAppend(lines[0], "\n", '\n');
      OccurrencesAppend(lines[0] + "\n", Join(lines[1..], "\n"), '\n');
      assert Occurrences("\n", '\n') == 1;
    }
  }
}

=== FILE: user_auth.dfy ===
/** `UserAuth`: the credentials table, the first-match login and the static
    role permission table. */
module UserAuth {
  import opened Common

  /** `load_credentials`: the rows of the credentials file; a missing file
      gives an empty table instead of an error. */
  function LoadCredentials(file: CsvFile): (creds: seq<Record>)
    ensures file == Absent ==> creds == []
    ensures file != Absent ==> ReadRows(file) == Some(creds)
  {
    match ReadRows(file)
    case None => []
    case Some(rows) => rows
  }

  /** What `login` returns, or the `KeyError` it raises on a row without a
      column it reads. */
  datatype LoginResult = Role(role: string) | NoMatch | MissingColumn

  /** Both the user name and the password of the row equal the ones typed. */
  predicate Matches(u: Record, username: string, password: string)
  {
    Lookup(u, "username") == Some(username) && Lookup(u, "password") == Some(password)
  }

  /** A row `login` can pass over without a `KeyError`: `user["password"]`
      is only read when the user name matches. */
  predicate Skippable(u: Record, username: string, password: string)
  {
    "username" in u && (u["username"] == username ==> "password" in u) && !Matches(u, username, password)
  }

  /** `login`: the role of the first row whose user name and password both
      match; `NoMatch` when none does. */
  function Login(creds: seq<Record>, username: string, password: string): (r: LoginResult)
    ensures r == NoMatch <==> forall i :: 0 <= i < |creds| ==> Skippable(creds[i], username, password)
    ensures r.Role? ==>
              exists i :: 0 <= i < |creds| && Matches(creds[i], username, password)
                          && Lookup(creds[i], "role") == Some(r.role)
                          && forall j :: 0 <= j < i ==> Skippable(creds[j], username, password)
    decreases |creds|
  {
    if |creds| == 0 then NoMatch
    else
      var u := creds[0];
      var rest := Login(creds[1..], username, password);
      assert forall i :: 1 <= i < |creds| ==> creds[1..][i - 1] == creds[i];
      if "username" !in u then MissingColumn
      else if u["username"] != username then rest
      else if "password" !in u then MissingColumn
      else if u["password"] != password then rest
      else if "role" !in u then MissingColumn
      else Role(u["role"])
  }

  /** The first matching row decides: rows after it are never read. */
  lemma {:induction false} FirstMatchWins(creds: seq<Record>, username: string, password: string, i: int)
    requires 0 <= i < |creds| && Matches(creds[i], username, password) && "role" in creds[i]
    requires forall j :: 0 <= j < i ==> Skippable(creds[j], username, password)
    ensures Login(creds, username, password) == Role(creds[i]["role"])
    decreases i
  {
    if i > 0 {
      assert forall j :: 0 <= j < i - 1 ==> creds[1..][j] == creds[j + 1];
      FirstMatchWins(creds[1..], username, password, i - 1);
    }
  }

  /** A known user name with a wrong password does not log in. */
  lemma WrongPasswordRejected(creds: seq<Record>, username: string, password: string)
    requires forall i :: 0 <= i < |creds| ==> "username" in creds[i] && "password" in creds[i]
    requires forall i :: 0 <= i < |creds| && creds[i]["username"] == username ==> creds[i]["password"] != password
    ensures Login(creds, username, password) == NoMatch
  {
  }

  /** Without a credentials file nobody logs in. */
  lemma MissingFileRejectsEveryone(username: string, password: string)
    ensures Login(LoadCredentials(Absent), username, password) == NoMatch
  {
  }

  /** `ROLE_PERMISSIONS.get(role, [])`. */
  function Permissions(role: string): seq<string>
  {
    if role == "admin" then ["count"]
    else if role == "clinician" || role == "nurse" then ["add", "remove", "retrieve", "view", "count"]
    else []
  }

  /** `check_permission`. */
  function CheckPermission(role: string, mode: string): (ok: bool)
    ensures ok ==> role in {"admin", "clinician", "nurse"}
    ensures ok ==> mode in {"add", "remove", "retrieve", "view", "count"}
  {
    mode in Permissions(role)
  }

  /** An administrator may only count visits. */
  lemma AdminOnlyCounts(mode: string)
    ensures CheckPermission("admin", mode) <==> mode == "count"
  {
  }

  /** Clinicians and nurses may do exactly the same things: add, remove,
      retrieve, view and count. */
  lemma ClinicianIsNurse(mode: string)
    ensures CheckPermission("clinician", mode) == CheckPermission("nurse", mode)
    ensures CheckPermission("nurse", mode) <==> mode in {"add", "remove", "retrieve", "view", "count"}
  {
  }

  /** A role outside the table, management included, may do nothing. */
  lemma UnlistedRoleMayDoNothing(role: string, mode: string)
    requires role !in {"admin", "clinician", "nurse"}
    ensures !CheckPermission(role, mode)
  {
  }
}

=== FILE: view_notes.dfy ===
/** `ViewNotes.execute`: find the visits of one patient on one day by exact
    text, then the notes of those visits. The two prompt answers and the two
    files' rows are inputs; the outcome is the message or the note texts it
    would show. */
module ViewNotes {
  import opened Common
  import opened Text
  import opened Dates

  /** How `execute` ends. */
  datatype Outcome =
    | NoPatientId            // the first prompt was cancelled or left empty
    | NoDate                 // the second prompt was cancelled or left empty
    | InvalidDate            // "Please use the YYYY-MM-DD format."
    | Crashed                // a selected visit has no `Visit_ID` (`KeyError`)
    | NoVisits               // "No visit found for that Patient ID and date."
    | NoNotes                // "No notes found for that visit."
    | Shown(texts: seq<string>)

  /** `visit.get("Patient_ID") == patient_id and visit.get("Visit_time") == date`:
      plain text equality, nothing stripped or parsed. */
  predicate IsVisitOn(v: Record, patientId: string, date: string)
  {
    Lookup(v, "Patient_ID") == Some(patientId) && Lookup(v, "Visit_time") == Some(date)
  }

  /** The selection of the patient's visits on that date text. */
  function VisitOn(patientId: string, date: string): Record -> bool
  {
    v => IsVisitOn(v, patientId, date)
  }

  /** The visits of the patient on that date text, in file order. */
  function SelectVisits(visits: seq<Record>, patientId: string, date: string): seq<Record>
  {
    Filter(visits, VisitOn(patientId, date))
  }

  /** `[visit["Visit_ID"] for visit in selected]`; `None` is the `KeyError`. */
  function VisitIds(selected: seq<Record>): (r: Option<seq<string>>)
    ensures r.Some? <==> AllHave(selected, "Visit_ID")
    ensures r.Some? ==> |r.value| == |selected|
                        && forall i :: 0 <= i < |selected| ==> r.value[i] == selected[i]["Visit_ID"]
  {
    if AllHave(selected, "Visit_ID")
    then Some(seq(|selected|, i requires 0 <= i < |selected| => selected[i]["Visit_ID"]))
    else None
  }

  /** `note.get("Patient_ID") == patient_id and note.get("Visit_ID") in visit_ids`. */
  predicate IsNoteOf(n: Record, patientId: string, ids: seq<string>)
  {
    Lookup(n, "Patient_ID") == Some(patientId) && "Visit_ID" in n && n["Visit_ID"] in ids
  }

  /** The selection of the notes of the chosen visits. */
  function NoteOf(patientId: string, ids: seq<string>): Record -> bool
  {
    n => IsNoteOf(n, patientId, ids)
  }

  /** The notes of the selected visits, in file order. */
  function SelectNotes(notes: seq<Record>, patientId: string, ids: seq<string>): seq<Record>
  {
    Filter(notes, NoteOf(patientId, ids))
  }

  /** `note.get("Note_text", "")` for each selected note. */
  function NoteTexts(notes: seq<Record>): seq<string>
  {
    ColumnOr(notes, "Note_text", "")
  }

  /** `execute`. The patient ID is used as typed; the date is read with
      `%Y-%m-%d` and rewritten as `month/day/year` without leading zeros
      before it is compared with `Visit_time`. */
  function Execute(patientAnswer: Option<string>, dateAnswer: Option<string>,
                   visits: seq<Record>, notes: seq<Record>): (o: Outcome)
    ensures o == NoPatientId <==> patientAnswer == None || patientAnswer == Some("")
    ensures o == NoDate <==> o != NoPatientId && (dateAnswer == None || dateAnswer == Some(""))
    ensures o == InvalidDate <==>
              o !in {NoPatientId, NoDate} && ParseYmd(dateAnswer.value).None?
    ensures o in {Crashed, NoVisits, NoNotes} || o.Shown? ==>
              patientAnswer.Some? && dateAnswer.Some? && ParseYmd(dateAnswer.value).Some?
    ensures o == NoVisits <==>
              o !in {NoPatientId, NoDate, InvalidDate}
              && SelectVisits(visits, patientAnswer.value, FormatMdy(ParseYmd(dateAnswer.value).value)) == []
    ensures o == Crashed <==>
              o !in {NoPatientId, NoDate, InvalidDate}
              && !AllHave(SelectVisits(visits, patientAnswer.value, FormatMdy(ParseYmd(dateAnswer.value).value)), "Visit_ID")
    ensures o == NoNotes <==>
              o !in {NoPatientId, NoDate, InvalidDate}
              && var selected := SelectVisits(visits, patientAnswer.value, FormatMdy(ParseYmd(dateAnswer.value).value));
                 selected != [] && AllHave(selected, "Visit_ID")
                 && SelectNotes(notes, patientAnswer.value, VisitIds(selected).value) == []
    ensures o.Shown? <==>
              o !in {NoPatientId, NoDate, InvalidDate}
              && var selected := SelectVisits(visits, patientAnswer.value, FormatMdy(ParseYmd(dateAnswer.value).value));
                 selected != [] && AllHave(selected, "Visit_ID")
                 && SelectNotes(notes, patientAnswer.value, VisitIds(selected).value) != []
    ensures o.Shown? ==>
              var selected := SelectVisits(visits, patientAnswer.value, FormatMdy(ParseYmd(dateAnswer.value).value));
              AllHave(selected, "Visit_ID")
              && var chosen := SelectNotes(notes, patientAnswer.value, VisitIds(selected).value);
                 |o.texts| > 0 && o.texts == NoteTexts(chosen)
  {
    if patientAnswer == None || patientAnswer == Some("") then NoPatientId
    else if dateAnswer == None || dateAnswer == Some("") then NoDate
    else
      match ParseYmd(dateAnswer.value)
      case None => InvalidDate
      case Some(day) =>
        var patientId := patientAnswer.value;
        var selected := SelectVisits(visits, patientId, FormatMdy(day));
        match VisitIds(selected)
        case None => Crashed
        case Some(ids) =>
          if |ids| == 0 then NoVisits
          else
            var chosen := SelectNotes(notes, patientId, ids);
            if |chosen| == 0 then NoNotes else Shown(NoteTexts(chosen))
  }

  /** Every note shown belongs to the patient and to one of the visits on
      that day. */
  lemma ShownNotesBelong(patientAnswer: Option<string>, dateAnswer: Option<string>,
                         visits: seq<Record>, notes: seq<Record>)
    requires Execute(patientAnswer, dateAnswer, visits, notes).Shown?
    ensures var day := ParseYmd(dateAnswer.value).value;
            var selected := SelectVisits(visits, patientAnswer.value, FormatMdy(day));
            var chosen := SelectNotes(notes, patientAnswer.value, VisitIds(selected).value);
            forall i :: 0 <= i < |chosen| ==>
              Lookup(chosen[i], "Patient_ID") == Some(patientAnswer.value)
              && exists v :: v in visits && IsVisitOn(v, patientAnswer.value, FormatMdy(day))
                             && "Visit_ID" in v && v["Visit_ID"] == chosen[i]["Visit_ID"]
  {
    var day := ParseYmd(dateAnswer.value).value;
    var selected := SelectVisits(visits, patientAnswer.value, FormatMdy(day));
    var ids := VisitIds(selected).value;
    var chosen := SelectNotes(notes, patientAnswer.value, ids);
    forall i | 0 <= i < |chosen|
      ensures exists v :: v in visits && IsVisitOn(v, patientAnswer.value, FormatMdy(day))
                          && "Visit_ID" in v && v["Visit_ID"] == chosen[i]["Visit_ID"]
    {
      var k :| 0 <= k < |ids| && ids[k] == chosen[i]["Visit_ID"];
      assert selected[k] in visits;
    }
  }

  /** A `Visit_time` written with a leading zero, such as "01/02/2020", is
      never selected, whatever date is asked for. */
  lemma LeadingZeroNeverMatches(v: Record, patientId: string, d: Date)
    requires ValidDate(d)
    requires "Visit_time" in v && |v["Visit_time"]| > 0 && v["Visit_time"][0] == '0'
    ensures !IsVisitOn(v, patientId, FormatMdy(d))
  {
  }

  /** A `Visit_time` carrying a time of day, such as "1/2/2020 10:30:00", is
      never selected either: the text compared holds only digits and "/". */
  lemma TimeSuffixNeverMatches(v: Record, patientId: string, d: Date, k: nat)
    requires ValidDate(d)
    requires "Visit_time" in v && k < |v["Visit_time"]| && v["Visit_time"][k] in {' ', ':'}
    ensures !IsVisitOn(v, patientId, FormatMdy(d))
  {
  }
}
